=== FILE: README.md ===
# Amplitude audio integration for O3DE, modelled in Dafny

This project models the parts of the Amplitude audio gem for O3DE whose behaviour can be stated and checked:

- **`control_builder.dfy` (module `ControlBuilder`): the asset builder that resolves an audio-control file's dependencies.**
  It works on an ATL control file (XML).
  - It collects the sound banks named by the preload requests and the events named by the triggers.
  - It reads each bank's JSON metadata into a set of event names.
  - It registers one product dependency per referenced bank.
  - It warns about unreadable banks and about events that no bank provides.
  - It also models the job creation and the two legacy helpers (platform names and the config-group map).
- **`audio_system.dfy` (module `AudioSystem`) and `atl_entities.dfy` (module `AtlEntities`): the runtime adapter.**
  - The life cycle of an event record (`SATLEventData_Amplitude`): activated by a trigger, stopped, reset.
  - Audio-object and default-listener bookkeeping.
  - Parsing of file-entry XML nodes.
  - The sound-bank folders.
  - The ATL records these operations carry.
- **`control_types.dfy` and `audio_editor.dfy` (modules `ControlTypes`, `AudioEditor`): the editor.**
  - The tag/type tables between Amplitude control types, XML tags and ATL control types.
  - The control registry (`m_controls`) with `CreateControl`, `GetControl` and `GetControlByName`.
  - The per-control connection counts.
- **`audio_loader.dfy` (module `AudioLoader`): the editor's loader.**
  It turns the project's JSON files into registered controls. It also holds the editor's `Reload`, which drives the loader.
  Every load returns an outcome: a control that has to be created but whose JSON has no unsigned 64-bit `id` is the `MissingId` failure, where the code's `GetUint64()` asserts.
- **`asset_paths.dfy` (module `AssetPaths`): the editor script `Editor/Scripts/common.py`.**
  It maps a raw project JSON file to the path of its compiled binary, and decides when a binary must be rebuilt.

The helper modules are `Outcomes` (`Option`, and an `Outcome` that stands for `AZ::Outcome`), `Strings`, `Xml` (an element tree standing for rapidxml nodes), `Json` (a value tree standing for rapidjson values) and `Config` (constants).

### Calls into code the model cannot see

Everything the code calls into but does not define is a parameter of the model:

- `GetID` (the `AudioStringToID` hash) and `AZ::StringFunc::Path::Join` form the `Naming` parameter. Nothing is assumed about either.
- The Amplitude engine is the `Engine` parameter: whether it knows an event, and the canceler it returns when it triggers one.
- `std::stoull` is a parameter.
- The host's path join of the default banks path with an empty component is a parameter.
- The registration of a default listener is a boolean input.
- Files are inputs, given as what opening, measuring, reading and parsing them yields:
  - the bank metadata;
  - the control file;
  - the loader's folders;
  - the buses file.
  The loader's folder listing is a tree of entries.
- A null pointer is `None`.

### Constants

The constants of `Config.h` and `Engine/Common.h` are copied into `Config`.

The ATL control-file tags come from the host engine's `ATLCommon.h`, which is not part of this model. The model uses the host's usual values: `AudioPreloads`, `ATLPreloadRequest`, `ATLConfigGroup`, `AudioTriggers`, `ATLTrigger` and `atl_name`.

The host and SDK sentinels take these values:

| Sentinel | Value |
|---|---|
| `kAmInvalidObjectId` | 0 |
| `INVALID_AUDIO_SOURCE_ID` | 0 |
| `GLOBAL_AUDIO_OBJECT_ID` | 1 |
| `ACE_INVALID_CID` | 0 |
| `AM_SIMD_ALIGNMENT` | 16 |
| database separator | `/` |

The control types are the bit values of `AmplitudeAudioSystemControl.h`.

## Model

| member | source | states |
|---|---|---|
| ControlBuilder.GetAtlPlatformName | Code/Source/Builder/AmplitudeAudioControlBuilderWorker.cpp:48-81 | "pc" becomes "windows". "debug platform" becomes the host platform name in lower case. Every other platform name, "android" and "mac" included, is returned unchanged. |
| ControlBuilder.BuildConfigGroupMap | Code/Source/Builder/AmplitudeAudioControlBuilderWorker.cpp:83-110 | Succeeds exactly when every config group of the preload request has an `atl_name`; a failure names the config-group tag and `atl_name`. The keys are exactly the groups' names. Each name maps to the first group that carries it, because a later duplicate does not replace an entry. |
| ControlBuilder.NodeNames | Code/Source/Builder/AmplitudeAudioControlBuilderWorker.cpp:159-176 | The names of a run of sibling nodes, in document order. Succeeds exactly when every node has the name attribute; otherwise reports the missing attribute for that tag. |
| ControlBuilder.BanksFromRequests | Code/Source/Builder/AmplitudeAudioControlBuilderWorker.cpp:155-183 | Succeeds exactly when every request has an `AmplitudeFile` child and every such child is named. On success the result lists the names of all file nodes of all requests, in document order. A failure is "no bank file" or "file without name", nothing else. |
| ControlBuilder.GetBanksFromAtlPreloads | Code/Source/Builder/AmplitudeAudioControlBuilderWorker.cpp:142-186 | Fails with "no preload request" when there is none. Otherwise it succeeds exactly when the requests are well formed. It returns the file names in document order. |
| ControlBuilder.EventNodesSingle | Code/Source/Builder/AmplitudeAudioControlBuilderWorker.cpp:119-135 | A trigger contributes its first event node, or nothing when it has none. |
| ControlBuilder.EventNodesConcat | Code/Source/Builder/AmplitudeAudioControlBuilderWorker.cpp:119-135 | The event nodes of two trigger lists in a row are those of the first list followed by those of the second. With EventNodesSingle this fixes the list: one node per trigger that has one, in trigger order. |
| ControlBuilder.BuildAtlEventList | Code/Source/Builder/AmplitudeAudioControlBuilderWorker.cpp:113-140 | The names of the first event node of each trigger, in trigger order. Triggers without an event are skipped. Succeeds exactly when every such event is named; otherwise reports the missing name on the event tag. |
| ControlBuilder.StripEventExtensionRoundTrip | Code/Source/Builder/AmplitudeAudioControlBuilderWorker.cpp:207-211 | The entry `s + ".amevent"` is stored as exactly `s`. |
| ControlBuilder.StripEventExtension | Code/Source/Builder/AmplitudeAudioControlBuilderWorker.cpp:207-211 | An entry at least as long as `.amevent` loses that many trailing characters. A shorter entry is kept whole, because the `size_t` subtraction wraps and `substr` then takes the whole string. |
| ControlBuilder.InsertEventNames | Code/Source/Builder/AmplitudeAudioControlBuilderWorker.cpp:207-211 | Inserting an events array adds exactly the stripped names of its entries to the set. |
| ControlBuilder.GetEventsFromBankSource | Code/Source/Builder/AmplitudeAudioControlBuilderWorker.cpp:188-214 | A root that is not an object fails, and nothing else fails that way. Without `events` the set is unchanged. A non-array `events` fails, and nothing else fails that way. Otherwise the stripped names of the entries are added. |
| ControlBuilder.GetEventsFromBank | Code/Source/Builder/AmplitudeAudioControlBuilderWorker.cpp:216-248 | Four distinct failures, checked in this order: missing file, empty file, unreadable file, not JSON. Each happens exactly in its own case. A readable JSON file gives the result of GetEventsFromBankSource. A success never loses names already in the set. |
| ControlBuilder.BankWithoutEventsIsEmpty | Code/Source/Builder/AmplitudeAudioControlBuilderWorker.cpp:195-199 | A readable bank whose metadata has no `events` member contributes no event. |
| ControlBuilder.GetEventsFromBankAdds | Code/Source/Builder/AmplitudeAudioControlBuilderWorker.cpp:216-248 | Reading a bank into a set of names fails exactly when reading it into the empty set fails, with the same error. On success it adds exactly the bank's own events to the set. |
| ControlBuilder.ReadableEventsSplit | Code/Source/Builder/AmplitudeAudioControlBuilderWorker.cpp:437-454 | The events of a list of banks are the first bank's events plus the events of the rest. |
| ControlBuilder.UnreadableWarnings | Code/Source/Builder/AmplitudeAudioControlBuilderWorker.cpp:437-454 | There are no more warnings than banks. |
| ControlBuilder.UnreadableWarningsMembers | Code/Source/Builder/AmplitudeAudioControlBuilderWorker.cpp:437-454 | A warning is in the list exactly when some bank's metadata cannot be read and the warning names that bank and its reason. |
| ControlBuilder.UnreadableWarningsSingle | Code/Source/Builder/AmplitudeAudioControlBuilderWorker.cpp:441-452 | One bank gives one warning, naming the bank and the reason, exactly when its metadata cannot be read, and no warning otherwise. |
| ControlBuilder.UnreadableWarningsCons | Code/Source/Builder/AmplitudeAudioControlBuilderWorker.cpp:437-454 | A bank in front of a list puts its own warning, if any, in front of the list's warnings. |
| ControlBuilder.UnreadableWarningsConcat | Code/Source/Builder/AmplitudeAudioControlBuilderWorker.cpp:437-454 | The warnings of two bank lists in a row are those of the first list followed by those of the second. With UnreadableWarningsSingle this fixes the list: one warning per failing bank, in bank order. |
| ControlBuilder.CollectBankEvents | Code/Source/Builder/AmplitudeAudioControlBuilderWorker.cpp:437-454 | The known names are the given ones plus every event of every bank whose metadata can be read. The warnings are the unreadable-bank warnings, one per failing bank, in bank order. There are no warnings exactly when every bank can be read. |
| ControlBuilder.MissingEventWarnings | Code/Source/Builder/AmplitudeAudioControlBuilderWorker.cpp:456-468 | An event is warned about exactly when it is referenced and not known. Every warning is a missing-event warning, and there are no more warnings than references. |
| ControlBuilder.ParseProductDependenciesFromXmlFile | Code/Source/Builder/AmplitudeAudioControlBuilderWorker.cpp:364-469 | No dependency that was already registered is ever removed. |
| ControlBuilder.DependenciesAreReferencedBanks | Code/Source/Builder/AmplitudeAudioControlBuilderWorker.cpp:374-407 | The dependency set is unchanged in three cases: there is no preloads node, bank gathering fails, or no bank is referenced. Otherwise exactly one `ProductFile` dependency `kDefaultBanksPath + bank + ".ambank"` is added per referenced bank. |
| ControlBuilder.DependenciesIgnoreBankFiles | Code/Source/Builder/AmplitudeAudioControlBuilderWorker.cpp:402-454 | The dependencies do not depend on the bank metadata files at all. Unreadable banks and missing events only warn. |
| ControlBuilder.MissingEventsAreUnresolved | Code/Source/Builder/AmplitudeAudioControlBuilderWorker.cpp:411-468 | When the preloads parse with at least one bank (ParsedPreloadsNameABank: always, once they parse) and the triggers parse, an event is reported missing exactly when two things hold: a trigger references it, and no referenced bank whose metadata can be read lists it. |
| ControlBuilder.ReportWhenReferencesParse | Code/Source/Builder/AmplitudeAudioControlBuilderWorker.cpp:402-468 | When the preloads parse with at least one bank (always, once they parse) and the triggers parse, the result is the bank dependencies plus, in this order, the unreadable-bank warnings and the missing-event warnings. |
| ControlBuilder.ParsedPreloadsNameABank | Code/Source/Builder/AmplitudeAudioControlBuilderWorker.cpp:142-186 | Preloads that parse always name at least one bank, so the `banksReferenced.empty()` exit at lines 394-399 is never taken after a successful parse. |
| ControlBuilder.EarlyExitReportsNoEvents | Code/Source/Builder/AmplitudeAudioControlBuilderWorker.cpp:374-426 | Without a preloads node, with preloads that fail to parse, without a triggers node, or with triggers that fail to parse, the report holds exactly one warning and reports no event missing. |
| ControlBuilder.ParseProductDependencies | Code/Source/Builder/AmplitudeAudioControlBuilderWorker.cpp:322-362 | Reports false exactly in four cases: the control file cannot be opened, is empty, does not parse, or has no root element. Otherwise it gives the dependencies of the first root element. |
| ControlBuilder.ProcessJob | Code/Source/Builder/AmplitudeAudioControlBuilderWorker.cpp:293-320 | Cancelled with no product when shutting down. Succeeds exactly when not shutting down and the dependencies parse. Then there is one product for the source path, carrying those dependencies. Otherwise there are no products. |
| ControlBuilder.ClientPlatforms | Code/Source/Builder/AmplitudeAudioControlBuilderWorker.cpp:275-289 | A platform is kept exactly when it is enabled and is not "server". |
| ControlBuilder.ClientPlatformsConcat | Code/Source/Builder/AmplitudeAudioControlBuilderWorker.cpp:275-289 | Filtering the platforms distributes over concatenation, so the jobs of a list are the jobs of its parts in order. |
| ControlBuilder.CreateJobs | Code/Source/Builder/AmplitudeAudioControlBuilderWorker.cpp:266-291 | Reports "shutting down" with no jobs exactly when shutdown was requested. Otherwise there is one critical, priority-0 "Amplitude Audio Control" job per enabled platform other than "server", in platform order. |
| ControlBuilder.ExampleBanks | Code/Source/Builder/AmplitudeAudioControlBuilderWorker.cpp:142-186 | Two preload requests naming banks "a" and "b" give `["a", "b"]`. |
| ControlBuilder.ExampleEvents | Code/Source/Builder/AmplitudeAudioControlBuilderWorker.cpp:113-140 | A trigger with the event "explosion" and a trigger without an event give `["explosion"]`. |
| ControlBuilder.ExampleBankEvents | Code/Source/Builder/AmplitudeAudioControlBuilderWorker.cpp:437-454 | Bank "a" lists "explosion.amevent" and bank "b" is missing. The result is the name "explosion" and one warning, for "b". |
| ControlBuilder.ExampleDependencies | Code/Source/Builder/AmplitudeAudioControlBuilderWorker.cpp:364-469 | The example control file yields both bank products as dependencies and only the unreadable-bank warning. |
| AudioSystem.NewSystem | Code/Source/Engine/AmplitudeAudioSystem.cpp:111-127 | A new system holds the global object id and no default listener. The constructor sets the bank paths, so both bank folders are the joined default banks path, ending in the separator, which is added only when it is missing. |
| AudioSystem.NewSystemHasBankPaths | Code/Source/Engine/AmplitudeAudioSystem.cpp:111-127 | Setting the bank paths of a new system again changes nothing. Every file entry of a new system, localized or not, is found in the non-empty default banks folder. |
| AudioSystem.GetAssetType | Code/Source/Engine/AmplitudeAudioSystem.cpp:100-108 | NONE exactly for no source data, STREAM exactly for the PCM-stream codec, SOURCE exactly for any other codec. |
| AudioSystem.TargetEntity | Code/Source/Engine/AmplitudeAudioSystem.cpp:465-472 | An object with a position is addressed by its own Amplitude id; any other object by the global object id. |
| AudioSystem.ActivateTrigger | Code/Source/Engine/AmplitudeAudioSystem.cpp:449-522 | Succeeds exactly when four things hold: object, trigger and event are all present; the asset type is not SOURCE; the engine knows the event; and the canceler it returns is valid. Only then does the event become PLAYING, holding that canceler. On failure the event record is unchanged. |
| AudioSystem.StopEvent | Code/Source/Engine/AmplitudeAudioSystem.cpp:524-559 | Succeeds, and cancels, exactly for a PLAYING event with a valid canceler. |
| AudioSystem.ResetAudioEventData | Code/Source/Engine/AmplitudeAudioSystem.cpp:1137-1145 | A present record goes back to NONE with the null canceler and the invalid source id, and keeps its ATL id. A null record stays null. |
| AudioSystem.ResetIsFresh | Code/Source/Engine/AmplitudeAudioSystem.cpp:1127-1145 | A reset record equals a newly created record for the same ATL id. |
| AudioSystem.AtlIdIsConstant | Code/Source/Engine/ATLEntities_amplitude.h:162-180 | Neither activation nor reset changes an event's ATL id. |
| AudioSystem.ActivatedEventStops | Code/Source/Engine/AmplitudeAudioSystem.cpp:449-559 | An event that was activated successfully can always be stopped. |
| AudioSystem.FreshEventDoesNotStop | Code/Source/Engine/AmplitudeAudioSystem.cpp:524-559 | A new or reset event cannot be stopped. |
| AudioSystem.EventLifeCycle | Code/Source/Engine/AmplitudeAudioSystem.cpp:449-559 | Create, activate, stop and reset: the event plays, is cancelled, and ends equal to the new record. |
| AudioSystem.NewAudioObjectData | Code/Source/Engine/AmplitudeAudioSystem.cpp:1060-1067 | A regular object carries the given id and has a position. It has no pending environment update and no environment amounts. |
| AudioSystem.NewGlobalAudioObjectData | Code/Source/Engine/AmplitudeAudioSystem.cpp:1051-1058 | The global object carries the given id and has no position. It has no pending environment update and no environment amounts. |
| AudioSystem.TriggerTargets | Code/Source/Engine/AmplitudeAudioSystem.cpp:465-472 | Triggers on a regular object target that object's id. Triggers on the global object target the system's global id. |
| AudioSystem.ResetAudioObject | Code/Source/Engine/AmplitudeAudioSystem.cpp:374-388 | Succeeds exactly for a present object. It keeps the id and the position flag, and drops the environment amounts and the pending update. |
| AudioSystem.ResetObjectIsFresh | Code/Source/Engine/AmplitudeAudioSystem.cpp:374-388 | A reset object equals a new one with the same id and position. Resetting twice is the same as resetting once. |
| AudioSystem.NewDefaultListener | Code/Source/Engine/AmplitudeAudioSystem.cpp:1074-1095 | The listener becomes the default listener exactly when the engine registers it. Otherwise the system state is unchanged. |
| AudioSystem.NewListener | Code/Source/Engine/AmplitudeAudioSystem.cpp:1097-1111 | A listener record carries the given id. The system state is not touched, so no default listener is set. |
| AudioSystem.ListenerFactoriesAgree | Code/Source/Engine/AmplitudeAudioSystem.cpp:1074-1111 | Both listener factories build the same record for the same id. Only the default one may change the system state. |
| AudioSystem.DeleteListener | Code/Source/Engine/AmplitudeAudioSystem.cpp:1113-1125 | Deleting the default listener leaves no default listener. Deleting any other listener, or none, changes nothing. |
| AudioSystem.DefaultListenerLifeCycle | Code/Source/Engine/AmplitudeAudioSystem.cpp:1074-1125 | A registered default listener survives the deletion of another listener and is cleared by its own. |
| AudioSystem.LocalizedFlag | Code/Source/Engine/AmplitudeAudioSystem.cpp:848-855 | True exactly when the localized attribute is present and reads "true" in any letter case. |
| AudioSystem.FileEntryId | Code/Source/Engine/AmplitudeAudioSystem.cpp:842-846 | The bank id is the `amplitude_id` attribute, found in any letter case and read through `stoull`. Without that attribute it is the invalid object id. |
| AudioSystem.ParseAudioFileEntry | Code/Source/Engine/AmplitudeAudioSystem.cpp:829-875 | Succeeds exactly when three things hold: the node's tag is the file tag in any letter case, the info is present, and the name is non-empty. Success fills in the name, the localized flag, the SIMD alignment and the bank id. A matching tag without a usable name clears the name, the alignment and the data. Any other input leaves the info alone. |
| AudioSystem.FileTagIgnoresCase | Code/Source/Engine/AmplitudeAudioSystem.cpp:834 | A file node's tag spelled in any letter case parses exactly like the tag as written. |
| AudioSystem.SetBankPaths | Code/Source/Engine/AmplitudeAudioSystem.cpp:1222-1272 | The plain and localized bank folders are equal. They are the joined default banks path, ending in the separator, which is added only when it is missing. Nothing else changes. |
| AudioSystem.GetAudioFileLocation | Code/Source/Engine/AmplitudeAudioSystem.cpp:882-892 | Null exactly for a null entry. Otherwise it returns the localized folder for a localized entry and the plain folder for any other. |
| AudioSystem.LocationIgnoresLocalization | Code/Source/Engine/AmplitudeAudioSystem.cpp:882-892 | Once the bank paths are set, localized and plain entries resolve to the same folder, and that folder ends in the separator. |
| AtlEntities.NewEventData | Code/Source/Engine/ATLEntities_amplitude.h:162-180 | A new event record has state NONE, no valid canceler, the invalid source id, and the given ATL id. |
| AtlEntities.NewAudioObject | Code/Source/Engine/ATLEntities_amplitude.h:33-53 | A new object carries the given id and position flag, no pending environment update and no environment amounts. |
| AtlEntities.NewEnvironment | Code/Source/Engine/ATLEntities_amplitude.h:127-159 | The type and environment id are the given ones. The state id and the effect id read back the same stored value. |
| AtlEntities.DefaultFileEntry | Code/Source/Engine/ATLEntities_amplitude.h:183-200 | The default file entry holds the invalid bank id. |
| ControlTypes.TagToType | Code/Source/Editor/AmplitudeAudioSystemEditor.cpp:38-70 | Valid exactly for a known tag. It is never SWITCH_STATE. The State tag reads as SWITCH. |
| ControlTypes.TypeToTag | Code/Source/Editor/AmplitudeAudioSystemEditor.cpp:72-93 | Non-empty exactly for the seven control types. It is never the State tag. |
| ControlTypes.TagRoundTrip | Code/Source/Editor/AmplitudeAudioSystemEditor.cpp:38-93 | `TagToType(TypeToTag(t)) == t` for every control type but SWITCH_STATE. SWITCH_STATE's tag reads back as INVALID. |
| ControlTypes.TypeRoundTrip | Code/Source/Editor/AmplitudeAudioSystemEditor.cpp:38-93 | Every known tag but the State tag survives a round trip through its type. The State tag comes back as the Switch tag. |
| ControlTypes.ImplTypeToAtlType | Code/Source/Editor/AmplitudeAudioSystemEditor.cpp:560-580 | The "no ATL type" answer is given exactly for a value that is not a control type. |
| ControlTypes.GetCompatibleTypes | Code/Source/Editor/AmplitudeAudioSystemEditor.cpp:582-601 | The empty mask is returned exactly for the "no type" value. |
| ControlTypes.CompatibleWithOwnAtlType | Code/Source/Editor/AmplitudeAudioSystemEditor.cpp:560-601 | Every control type is in the compatible mask of its own ATL type. |
| ControlTypes.CompatibleTypesMapBack | Code/Source/Editor/AmplitudeAudioSystemEditor.cpp:560-601 | A control type compatible with an ATL type maps back to that ATL type. The one exception is SWITCH_STATE, which is also accepted by environments. |
| ControlTypes.EnvironmentMask | Code/Source/Editor/AmplitudeAudioSystemEditor.cpp:582-601 | Environments accept exactly BUS, SWITCH_STATE and EFFECT. |
| AudioEditor.GetControl | Code/Source/Editor/AmplitudeAudioSystemEditor.cpp:167-179 | Found exactly for a valid id in the registry, and then it is that entry. |
| AudioEditor.GetControlByName | Code/Source/Editor/AmplitudeAudioSystemEditor.cpp:181-195 | The control registered under the hash of the name after the two joins: the parent's name when there is a parent, then the localization folder when localized. |
| AudioEditor.CreateControl | Code/Source/Editor/AmplitudeAudioSystemEditor.cpp:120-165 | The id is the hash of the joined full name, and the returned control is not a placeholder. A registered id reuses its control without growing the map. It clears that control's placeholder flag and, when the control was a placeholder, the parent's. A control that was not a placeholder changes nothing. A new id adds exactly that entry, appended to the parent's or the root's children. No other control changes, and connections are untouched. |
| AudioEditor.CreateControlIdempotent | Code/Source/Editor/AmplitudeAudioSystemEditor.cpp:120-165 | When the full name does not hash to the invalid id, creating the same control a second time returns the same id and changes nothing. Under the invalid id GetControl finds nothing, so a second call adds the control again. |
| AudioEditor.CreateControlValid | Code/Source/Editor/AmplitudeAudioSystemEditor.cpp:120-165 | The registry stays well formed: every control sits under its own id and names only registered parents. |
| AudioEditor.CreateConnectionToControl | Code/Source/Editor/AmplitudeAudioSystemEditor.cpp:197-228 | A null control gives null and changes nothing. Otherwise the control is marked connected and its count grows by exactly one, while all other counts are unchanged. The connection object is chosen by the ATL type for an RTPC control and is a plain connection otherwise. |
| AudioEditor.ConnectionKindFor | Code/Source/Editor/AmplitudeAudioSystemEditor.cpp:205-224 | Only an RTPC control gets a special connection object. Connected to an RTPC it gets the RTPC connection, to a switch state the switch-state connection, and to an environment the effect connection. Connected to anything else it gets a plain connection. |
| AudioEditor.ConnectionRemoved | Code/Source/Editor/AmplitudeAudioSystemEditor.cpp:628-637 | The count drops by one but never below zero. The control is marked disconnected exactly when the count reaches zero. Nothing else changes. |
| AudioEditor.ConnectThenRemove | Code/Source/Editor/AmplitudeAudioSystemEditor.cpp:197-228 | Connecting and then removing restores the count. The control stays connected exactly when it had connections before. |
| AudioEditor.ConnectionsKeepValid | Code/Source/Editor/AmplitudeAudioSystemEditor.cpp:628-637 | Both connection operations keep the registry well formed, counts never negative included. |
| AudioEditor.MarkAllPlaceholders | Code/Source/Editor/AmplitudeAudioSystemEditor.cpp:100-118 | Every registered control, and nothing else, becomes a placeholder. |
| AudioLoader.ControlName | Code/Source/Editor/AmplitudeAudioLoader.cpp:202-206 | A sound bank's name is the JSON name followed by `.ambank`. Every other type keeps the JSON name. |
| AudioLoader.CreateWithId | Code/Source/Editor/AmplitudeAudioLoader.cpp:209-216 | The create branch: the control lands on the id CreateControl gives it, carries the given Amplitude id and is not a placeholder. A new id holds exactly the new control with that Amplitude id. The registry only grows, and at the root nothing but the created control changes. |
| AudioLoader.LoadSingle | Code/Source/Editor/AmplitudeAudioLoader.cpp:197-216 | Without a name the result is null and nothing changes. A control found by its bare name is reused, whether or not its JSON has an `id`, with its placeholder flag cleared and nothing else changed. A control not found is created with the JSON `id`. The load fails with `MissingId` exactly when a named control is not found and its JSON has no unsigned 64-bit `id`, where `GetUint64()` asserts. After a success the registry only grows, and the returned control is not a placeholder. |
| AudioLoader.ReusedControlKeepsAmplitudeId | Code/Source/Editor/AmplitudeAudioLoader.cpp:208-214 | For every type but a switch: a control found by name loads successfully even without an `id`, keeps its Amplitude id, and the map does not grow. A switch also loads its states; LoadSingle states the same for the switch control itself. |
| AudioLoader.LoadControlAsWritten | Code/Source/Editor/AmplitudeAudioLoader.cpp:197-231 | The loader as written. Without a name the result is null and nothing changes. A failure of the control itself is the result. Every type but a switch loads as LoadSingle. After a success the registry only grows, and the returned control is not a placeholder. A switch's states are looked up by their bare names, and the first state that fails ends the load. |
| AudioLoader.CorrectionOnlyAffectsSwitches | Code/Source/Editor/AmplitudeAudioLoader.cpp:197-231 | For every type but a switch, the loader as written and the corrected loader give the same result. |
| AudioLoader.LoadedUnderOwnName | Code/Source/Editor/AmplitudeAudioLoader.cpp:197-216 | A new named control without a usable `id` fails with `MissingId` of its name. After a success, a named control loaded at the root lands on the id of its own name and is no longer a placeholder. |
| AudioLoader.LoadStateUnderSwitch | Code/Source/Editor/AmplitudeAudioLoader.cpp:218-225 | The load fails exactly when the switch-qualified id is not registered and the state has no usable `id`. After a success, a named state always lands on the id of the switch-qualified name, which is the id CreateControl gives it. When that id is new, it is created as a SWITCH_STATE child of the switch. |
| AudioLoader.LoadStates | Code/Source/Editor/AmplitudeAudioLoader.cpp:218-225 | After a success the registry only grows. When the switch's id is not the invalid id, every named state of the switch is registered under its switch-qualified id. The invalid id is never registered by CreateControl, so a loaded switch never has it. |
| AudioLoader.LoadControl | Code/Source/Editor/AmplitudeAudioLoader.cpp:197-231 | The corrected loader. Without a name the result is null and nothing changes. A failure of the control itself is the result. Every type but a switch loads as LoadSingle. After a success the registry only grows, and the returned control is not a placeholder. For a switch whose id is not the invalid id, every named state is registered under the switch-qualified id. |
| AudioLoader.OneStateAsWritten | Code/Source/Editor/AmplitudeAudioLoader.cpp:218-225 | As written, loading a single state is that state's own LoadSingle with the switch as parent, failure included. |
| AudioLoader.OneState | Code/Source/Editor/AmplitudeAudioLoader.cpp:218-225 | Corrected, loading a single state is that state loaded under its switch, failure included. |
| AudioLoader.StateLookupMatchesCreation | Code/Source/Editor/AmplitudeAudioLoader.cpp:218-225 | Looking a state up under its switch finds exactly the id CreateControl registers it under. |
| AudioLoader.LoadControlsInFolder | Code/Source/Editor/AmplitudeAudioLoader.cpp:140-194 | After a success, loading a folder tree with the loader as written only grows the registry. |
| AudioLoader.FolderLoadsNamedFile | Code/Source/Editor/AmplitudeAudioLoader.cpp:140-194 | When the folder load succeeds, a named document that comes before any unreadable file of its folder is registered under the id of its name, and is not a placeholder afterwards. |
| AudioLoader.FolderStopsAtUnreadable | Code/Source/Editor/AmplitudeAudioLoader.cpp:161-177 | A file that cannot be opened or read in full ends its folder: the load, failure included, equals the load of the entries before it. |
| AudioLoader.FolderFailsOnMissingId | Code/Source/Editor/AmplitudeAudioLoader.cpp:184-187 | A first named document that must be created and has no usable `id` fails the whole folder load. |
| AudioLoader.LoadBank | Code/Source/Editor/AmplitudeAudioLoader.cpp:82-89 | The bank load fails exactly when its control load fails. After a success, a bank control touched by the load carries the given localized flag. |
| AudioLoader.LoadSoundBanks | Code/Source/Editor/AmplitudeAudioLoader.cpp:44-91 | After a success the registry only grows, and every control the load adds or changes carries the given localized flag. |
| AudioLoader.SoundBanksStopAtUnreadable | Code/Source/Editor/AmplitudeAudioLoader.cpp:59-75 | A file that cannot be opened or read in full ends the loading: nothing after it is loaded, and the result, failure included, is that of the files before it. |
| AudioLoader.LoadBuses | Code/Source/Editor/AmplitudeAudioLoader.cpp:94-137 | Without a parsed `buses` member nothing changes. After a success the registry only grows. |
| AudioLoader.BusListLoadsNamedBus | Code/Source/Editor/AmplitudeAudioLoader.cpp:127-130 | When the bus list loads, every named entry is registered under the id of its name and is not a placeholder afterwards. |
| AudioLoader.LoadBusesRegistersBuses | Code/Source/Editor/AmplitudeAudioLoader.cpp:125-131 | A buses file that parses, has a `buses` member and loads registers each of its named buses, none of them a placeholder. |
| AudioLoader.Load | Code/Source/Editor/AmplitudeAudioLoader.cpp:31-41 | After a success, loading the whole project only grows the registry. |
| AudioLoader.LoadRegistersEventFiles | Code/Source/Editor/AmplitudeAudioLoader.cpp:31-41 | When Load succeeds, every named event document before any unreadable file of the events folder is registered and is not a placeholder. The later folders cannot undo it. |
| AudioLoader.LoadRegistersBuses | Code/Source/Editor/AmplitudeAudioLoader.cpp:31-41 | The buses are loaded last, so after a Load that succeeds every named bus of a readable buses file is registered and is not a placeholder. |
| AudioLoader.Reload | Code/Source/Editor/AmplitudeAudioSystemEditor.cpp:100-118 | After a success, connection counts are dropped, no control disappears, and the localization folder is kept. |
| AudioLoader.ReloadRestoresEventFiles | Code/Source/Editor/AmplitudeAudioSystemEditor.cpp:100-118 | Reload first turns every control into a placeholder. When the load succeeds, each event the project still defines, before any unreadable file, comes back as a non-placeholder. |
| AudioLoader.ReloadEmptyProject | Code/Source/Editor/AmplitudeAudioSystemEditor.cpp:100-118 | Reloading an empty project succeeds and leaves every control, and only those, as a placeholder that is otherwise unchanged. |
| AudioLoader.SwitchWithOneStateAsWritten | Code/Source/Editor/AmplitudeAudioLoader.cpp:197-231 | As written, a switch with one state is the switch loaded on its own, then the state loaded by its bare name; the state's failure is the result. |
| AudioLoader.SwitchWithOneState | Code/Source/Editor/AmplitudeAudioLoader.cpp:197-231 | Corrected, a switch with one state is the switch loaded on its own, then the state loaded under it; the state's failure is the result. |
| AudioLoader.StateFoundByBareName | Code/Source/Editor/AmplitudeAudioLoader.cpp:208 | With an event "on" registered, loading switch "power" with state "on" as written finds the event and creates no "power/on" control. |
| AudioLoader.StateCreatedUnderSwitch | Code/Source/Editor/AmplitudeAudioLoader.cpp:218-225 | The same switch loaded by the corrected loader creates "power/on" as a SWITCH_STATE child of "power". |
| AssetPaths.FirstMatch | Editor/Scripts/common.py:142-150 | The first rule whose folder name occurs in the path: no earlier rule matches, and the chosen one does. Without a match the result is the number of rules. |
| AssetPaths.ExtensionWith | Editor/Scripts/common.py:138-151 | `audio_config.json` gives `.amconfig`, then `buses.json` gives `.ambus`. Then the first rule whose folder name occurs in the path wins. With no match the extension is `.ambin`. |
| AssetPaths.SoundsShadowEnvironments | Editor/Scripts/common.py:149-150 | As written, no path containing "sounds" gets `.amenv`. |
| AssetPaths.ProjectFilesNeverEnvironments | Editor/Scripts/common.py:142-151 | As written, no file under `sounds/amplitude_project/` gets `.amenv`, whatever folder it is in. |
| AssetPaths.EnvironmentsReachable | Editor/Scripts/common.py:142-151 | Corrected, a path under "environments" gets `.amenv` when it ends in neither `audio_config.json` nor `buses.json` and contains none of the seven earlier folder names. Those paths take the earlier extensions first: `environments/buses.json`, for one, gets `.ambus`. |
| AssetPaths.CorrectionOnlyAffectsEnvironments | Editor/Scripts/common.py:142-151 | The corrected order gives the same extension as the written one for every path without "environments". |
| AssetPaths.ExtensionIsKnown | Editor/Scripts/common.py:138-151 | Every path gets one of the twelve binary extensions, with the tests in either order. |
| AssetPaths.ExtensionLacksProjectFolder | Editor/Scripts/common.py:136-152 | No extension contains `amplitude_project`, so the folder rename never touches the extension. |
| AssetPaths.ApplyExtension | Editor/Scripts/common.py:136-152 | A path with no `.json` and no `amplitude_project` comes back unchanged. |
| AssetPaths.ProcessedJsonPathAsWritten | Editor/Scripts/common.py:136-152 | processed_json_path as written. A path with nothing to replace comes back unchanged. |
| AssetPaths.ProcessedJsonPath | Editor/Scripts/common.py:136-152 | processed_json_path with the environment test before the sounds test. A path with nothing to replace comes back unchanged. |
| AssetPaths.EveryJsonReplaced | Editor/Scripts/common.py:137-138 | Every `.json` in the path is replaced, not only the last one. |
| AssetPaths.ProjectFolderRenamed | Editor/Scripts/common.py:152 | The `amplitude_project` folder becomes `amplitude_assets`, and the rest of the path is kept. |
| AssetPaths.ProcessedUnderProject | Editor/Scripts/common.py:136-152 | With any extension that starts with `.`, has more than three characters and is shorter than `amplitude_project` (or one character longer with a fourth character that breaks the match), as each of the twelve known extensions is, the project file `sounds/amplitude_project/<rel>.json` becomes `sounds/amplitude_assets/<rel><extension>`. This holds whenever `rel` contains no `.json` and no `amplitude_project`. |
| AssetPaths.ProcessedProjectFile | Editor/Scripts/common.py:136-152 | As written, the project file `sounds/amplitude_project/<rel>.json` becomes `sounds/amplitude_assets/<rel>` followed by the extension its folders choose. This holds whenever `rel` contains no `.json` and no `amplitude_project`. |
| AssetPaths.ProcessedProjectFileCorrected | Editor/Scripts/common.py:136-152 | The same with the environment test first. |
| AssetPaths.ProcessedJsonFilename | Editor/Scripts/common.py:155-157 | The result is a suffix of the processed path as written. It has no separator and is preceded by a separator or by nothing, so it is the basename. |
| AssetPaths.ProcessedProjectFileName | Editor/Scripts/common.py:136-157 | As written, the binary of project file `<dir>/<name>.json` is named `<name>` followed by its extension. |
| AssetPaths.ProjectEnvironmentAsWritten | Editor/Scripts/common.py:136-152 | As written, `sounds/amplitude_project/environments/<name>.json` becomes `sounds/amplitude_assets/environments/<name>.amsound`. This holds when `<name>` contains no `.json` and no `amplitude_project`, the path ends in neither `audio_config.json` nor `buses.json`, and it contains none of the seven earlier folder names. |
| AssetPaths.ProjectEnvironmentCorrected | Editor/Scripts/common.py:136-152 | With the environment test first, the same file, under the same conditions, becomes `sounds/amplitude_assets/environments/<name>.amenv`. |
| AssetPaths.NeedsRebuild | Editor/Scripts/common.py:120-133 | Fails exactly when the target is a file and the source is missing, where `getmtime` raises. Otherwise it answers true exactly when the target is not a file or the source is newer. |
| AssetPaths.RebuildOrder | Editor/Scripts/common.py:120-133 | Worked cases, for any times with the target at least as new as the source and a later time after both: no rebuild then, a rebuild once the source is touched at the later time, and a rebuild when the target is not a file, with or without a source. The general statement is RebuildMonotone. |
| AssetPaths.RebuildMonotone | Editor/Scripts/common.py:120-133 | A newer source never turns a rebuild off, and an older target never does either. |

## Left out

- The component, module and registration glue, and the `SS*` near-duplicates: they are framework wiring with no logic of their own.
- The engine calls made for their effect are left out as foreign calls: initialisation, update and shutdown, memory hooks, logging, entity and listener registration and positioning, environments, RTPCs, switch states, and in-memory bank loading. Only the yes/no answers the event life cycle consumes are kept, as the `Engine` parameter.
- Floats and vectors are left out: RTPC multiplier and shift, obstruction and occlusion, orientation, and frame timing. Environment amounts are an uninterpreted map of reals.
- Real file I/O and directory walking are inputs, not operations: the control-file stream of `ParseProductDependencies`, the loader's `FindFilesInPath`, and file times for `needs_rebuild`.
- The path of a bank's metadata file is part of the bank-file input: the `projectSourcePath` rewriting and the `Join`/`ReplaceExtension` steps. The model does not compute it.
- The flatc subprocess, `generate_flatbuffer_binaries`, `get_o3de_project_path`, `get_conversion_data` and `clean_flatbuffer_binaries` of `common.py`: they run tools and walk directories.
- The rapidxml and rapidjson libraries: they are replaced by element and value trees. A rapidjson accessor that asserts on a wrong type becomes a precondition on the input, not an error path: a control document must be an object whose `name`, when present, is a string, and a switch's `states` must be an array of such objects. The one exception is the loader's `json["id"].GetUint64()`, read only when a control has to be created: an absent or non-integer `id` there is the `MissingId` failure, which ends the whole load. The source has no recovery after that assertion, so what a release build would do next is not modelled.
- The editor's `CreateConnectionFromXMLNode` and `CreateXMLNodeFromConnection`: XML allocation and float parsing of RTPC connections.
- The editor's `GetTypeIcon`, `GetTypeIconSelected`, `GetName` and `GetDataPath`: constant strings and host paths.
- `UpdateConnectedStatus`, called by `Reload` after the counts are cleared. It finds no positive count, so it changes nothing, and Reload is modelled without it.
- `AudioLoader.LoadControlsInFolder`: its own contract states only that the registry grows. FolderLoadsNamedFile and FolderStopsAtUnreadable state which documents are registered, but only for documents directly in the folder, not in its sub-folders.
- `AudioLoader.Load`: its own contract states only that the registry grows. LoadRegistersEventFiles and LoadRegistersBuses state that named event documents and named buses are registered and are not placeholders. The same claim for the RTPC, switch, effect and sound-bank documents is not stated.
- `AudioLoader.Reload`: its own contract states only that no key is lost, the counts are cleared and the localization folder is kept. ReloadRestoresEventFiles covers the events folder only, as for Load.
- `AudioLoader.LoadBuses`: its own contract states only growth. BusListLoadsNamedBus and LoadBusesRegistersBuses state that every named bus is registered and is not a placeholder.
- `ControlBuilder.ParseProductDependenciesFromXmlFile`: its own contract states only that dependencies are kept. The exact result is stated by the lemmas DependenciesAreReferencedBanks, MissingEventsAreUnresolved and ReportWhenReferencesParse.
- `ControlBuilder.ParseProductDependenciesFromXmlFile`: the rewrite of the control file's path into the project source path (AmplitudeAudioControlBuilderWorker.cpp:429-433) is not modelled. When the path does not contain `amplitude_assets`, `find` returns `npos` and `replace` fails there, so the source never reaches the bank loop. The model always reaches it, with the bank files given as input.
- `ControlBuilder.StripEventExtension`: strings are sequences of characters, while `strlen` and `substr` count bytes. For an entry with non-ASCII characters in UTF-8, the source cuts eight bytes and the model cuts eight characters. Entries are assumed to be ASCII.
- `AssetPaths.ProcessedJsonFilename`: `os.path.basename` is modelled as on POSIX, where only `/` separates components. On Windows `\` separates them too, and that case is not modelled.
- Warnings are modelled as values in a list. Their message texts are not modelled.
- Integer widths are not modelled. Ids, 64-bit in the source, are unbounded naturals. The per-control connection count, a 32-bit `int` in `AZStd::unordered_map<CID, int>`, is an unbounded integer, so its overflow is not modelled. Only the `size_t` wrap of the event-name strip is written out, because it decides the result.
- Effect files: `common.py` defines an effects folder name but never tests it. A JSON file under `sounds/amplitude_project/effects/` therefore gets `.amsound`, and one outside the sounds folder gets `.ambin`. The model keeps this behaviour as written and does not state whether it was intended.

## Findings

| source | as written | input that shows it | evidently intended | confidence | as-written member | corrected member |
|---|---|---|---|---|---|---|
| Code/Source/Editor/AmplitudeAudioLoader.cpp:208 | A switch state is looked up with `GetControlByName(controlName)`, by its bare name, while CreateControl registers it under the hash of `switch/state` (lines 218-225). | An event "on" is registered, and the switch "power" is loaded with the state "on". The lookup finds the event. Its placeholder flag is cleared, and no "power/on" state is ever created. | Look the name up under the parent, `GetControlByName(controlName, false, parent)`, so that lookup and creation use the same id. | not executed | AudioLoader.LoadControlAsWritten, AudioLoader.StateFoundByBareName | AudioLoader.LoadControl, AudioLoader.StateLookupMatchesCreation, AudioLoader.StateCreatedUnderSwitch |
| Editor/Scripts/common.py:149-150 | The `sounds` test comes before the `environments` test, so a path containing "sounds" never reaches `.amenv`. | `sounds/amplitude_project/environments/cave.json` becomes `sounds/amplitude_assets/environments/cave.amsound`. Every project file lies under "sounds". | Test "environments" before "sounds", so environment files get `.amenv`. | not executed | AssetPaths.ProcessedJsonPathAsWritten, AssetPaths.SoundsShadowEnvironments, AssetPaths.ProjectFilesNeverEnvironments, AssetPaths.ProjectEnvironmentAsWritten | AssetPaths.ProcessedJsonPath, AssetPaths.EnvironmentsReachable, AssetPaths.CorrectionOnlyAffectsEnvironments, AssetPaths.ProjectEnvironmentCorrected |

=== FILE: asset_paths.dfy ===
/**
 * The editor script's mapping from a raw Amplitude project JSON file to the
 * path of its compiled binary (Editor/Scripts/common.py): the binary
 * extension is chosen by the first project folder name the path contains,
 * `.json` becomes that extension everywhere in the path, and
 * `amplitude_project` becomes `amplitude_assets`.
 */
module AssetPaths {
  import opened Strings
  import opened Outcomes

  const SoundsDir := "sounds"
  const CollectionsDir := "collections"
  const SoundBanksDir := "soundbanks"
  const EventsDir := "events"
  const AttenuatorsDir := "attenuators"
  const SwitchesDir := "switches"
  const SwitchContainersDir := "switch_containers"
  const RtpcDir := "rtpc"
  const EnvironmentsDir := "environments"
  /** The raw project folder and the folder its compiled binaries go to. */
  const ProjectFolder := "amplitude_project"
  const AssetsFolder := "amplitude_assets"

  /** A folder name and the extension of the binaries compiled from the files under it. */
  datatype Rule = Rule(dir: string, ext: string)

  /** The folder tests of processed_json_path, in the order they are written. */
  const CascadeAsWritten: seq<Rule> := [
    Rule(SoundBanksDir, ".ambank"),
    Rule(CollectionsDir, ".amcollection"),
    Rule(EventsDir, ".amevent"),
    Rule(AttenuatorsDir, ".amattenuation"),
    Rule(SwitchesDir, ".amswitch"),
    Rule(SwitchContainersDir, ".amswitchcontainer"),
    Rule(RtpcDir, ".amrtpc"),
    Rule(SoundsDir, ".amsound"),
    Rule(EnvironmentsDir, ".amenv")
  ]

  /** The same tests with environments before sounds, so that the environment test can succeed. */
  const Cascade: seq<Rule> := [
    Rule(SoundBanksDir, ".ambank"),
    Rule(CollectionsDir, ".amcollection"),
    Rule(EventsDir, ".amevent"),
    Rule(AttenuatorsDir, ".amattenuation"),
    Rule(SwitchesDir, ".amswitch"),
    Rule(SwitchContainersDir, ".amswitchcontainer"),
    Rule(RtpcDir, ".amrtpc"),
    Rule(EnvironmentsDir, ".amenv"),
    Rule(SoundsDir, ".amsound")
  ]

  const DefaultExtension := ".ambin"

  /** The index of the first rule whose folder name occurs in `path`; `|rules|` when none does. */
  function FirstMatch(path: string, rules: seq<Rule>): (r: nat)
    ensures r <= |rules|
    ensures forall j :: 0 <= j < r ==> !Contains(path, rules[j].dir)
    ensures r < |rules| ==> Contains(path, rules[r].dir)
  {
    if |rules| == 0 then 0
    else if Contains(path, rules[0].dir) then 0
    else 1 + FirstMatch(path, rules[1..])
  }

  /** The extension the cascade `rules` picks, after the two configuration-file tests. */
  function ExtensionWith(path: string, rules: seq<Rule>): (r: string)
    ensures EndsWith(path, "audio_config.json") ==> r == ".amconfig"
    ensures !EndsWith(path, "audio_config.json") && EndsWith(path, "buses.json") ==> r == ".ambus"
    ensures !EndsWith(path, "audio_config.json") && !EndsWith(path, "buses.json") ==>
      && (forall i :: 0 <= i < |rules| && Contains(path, rules[i].dir) && (forall j :: 0 <= j < i ==> !Contains(path, rules[j].dir))
            ==> r == rules[i].ext)
      && ((forall i :: 0 <= i < |rules| ==> !Contains(path, rules[i].dir)) ==> r == DefaultExtension)
  {
    if EndsWith(path, "audio_config.json") then ".amconfig"
    else if EndsWith(path, "buses.json") then ".ambus"
    else Pick(path, rules)
  }

  /** The extension of the first matching rule, or the default. */
  function Pick(path: string, rules: seq<Rule>): string {
    var i := FirstMatch(path, rules);
    if i < |rules| then rules[i].ext else DefaultExtension
  }

  /** A first rule that does not match is skipped. */
  lemma PickTail(path: string, rules: seq<Rule>)
    requires |rules| > 0 && !Contains(path, rules[0].dir)
    ensures Pick(path, rules) == Pick(path, rules[1..])
  {
  }

  /** Two neighbouring last rules can be swapped when the first of them matches nothing. */
  lemma {:induction false} SwapUnmatched(path: string, p: seq<Rule>, a: Rule, b: Rule)
    requires !Contains(path, a.dir)
    ensures Pick(path, p + [a, b]) == Pick(path, p + [b, a])
    decreases |p|
  {
    if |p| == 0 {
      assert p + [a, b] == [a, b] && p + [b, a] == [b, a];
      PickTail(path, [a, b]);
      assert [a, b][1..] == [b];
      if !Contains(path, b.dir) {
        PickTail(path, [b, a]);
        assert [b, a][1..] == [a];
        PickTail(path, [a]);
        assert [a][1..] == [];
        PickTail(path, [b]);
        assert [b][1..] == [];
      }
    } else if !Contains(path, p[0].dir) {
      PickTail(path, p + [a, b]);
      PickTail(path, p + [b, a]);
      assert (p + [a, b])[1..] == p[1..] + [a, b];
      assert (p + [b, a])[1..] == p[1..] + [b, a];
      SwapUnmatched(path, p[1..], a, b);
    }
  }

  /** The extension processed_json_path gives, as written. */
  function ExtensionAsWritten(path: string): string {
    ExtensionWith(path, CascadeAsWritten)
  }

  /** The extension with the environment test before the sounds test. */
  function Extension(path: string): string {
    ExtensionWith(path, Cascade)
  }

  /** Every extension a compiled binary can get. */
  const KnownExtensions: set<string> := {
    ".amconfig", ".ambus", ".ambank", ".amcollection", ".amevent", ".amattenuation",
    ".amswitch", ".amswitchcontainer", ".amrtpc", ".amenv", ".amsound", DefaultExtension}

  /** Every rule of both cascades names a known extension. */
  lemma CascadeExtensionsKnown()
    ensures forall k :: 0 <= k < |Cascade| ==> Cascade[k].ext in KnownExtensions
    ensures forall k :: 0 <= k < |CascadeAsWritten| ==> CascadeAsWritten[k].ext in KnownExtensions
  {
  }

  /** A cascade of known extensions only ever picks a known one. */
  lemma ExtensionWithIsKnown(path: string, rules: seq<Rule>)
    requires forall k :: 0 <= k < |rules| ==> rules[k].ext in KnownExtensions
    ensures ExtensionWith(path, rules) in KnownExtensions
  {
    var i := FirstMatch(path, rules);
    if i < |rules| && !EndsWith(path, "audio_config.json") && !EndsWith(path, "buses.json") {
      assert rules[i].ext == ExtensionWith(path, rules);
    }
  }

  /** Only the two configuration files, the folder rules and the default are ever chosen, in either order of the tests. */
  lemma ExtensionIsKnown(path: string)
    ensures ExtensionAsWritten(path) in KnownExtensions
    ensures Extension(path) in KnownExtensions
  {
    CascadeExtensionsKnown();
    ExtensionWithIsKnown(path, CascadeAsWritten);
    ExtensionWithIsKnown(path, Cascade);
  }

  /** None of the rules before the last names `.amenv`. */
  lemma EarlyRulesNotEnvironments()
    ensures forall k :: 0 <= k < 8 ==> CascadeAsWritten[k].ext != ".amenv"
  {
  }

  /**
   * As written, a path that contains `sounds` never gets `.amenv`: the
   * sounds test comes first and succeeds.
   */
  lemma SoundsShadowEnvironments(path: string)
    requires Contains(path, SoundsDir)
    ensures ExtensionAsWritten(path) != ".amenv"
  {
    EarlyRulesNotEnvironments();
    var i := FirstMatch(path, CascadeAsWritten);
    assert CascadeAsWritten[7].dir == SoundsDir;
    assert i <= 7;
  }

  /** `s` starts with `p`, so `p` occurs in it. */
  lemma PrefixContained(s: string, p: string)
    requires StartsWith(s, p)
    ensures Contains(s, p)
  {
  }

  /**
   * Every file of the Amplitude project lies under `sounds/`, so as written
   * none of them gets `.amenv`.
   */
  lemma ProjectFilesNeverEnvironments(rel: string)
    ensures ExtensionAsWritten("sounds/amplitude_project/" + rel) != ".amenv"
  {
    var path := "sounds/amplitude_project/" + rel;
    assert path[..|SoundsDir|] == SoundsDir;
    PrefixContained(path, SoundsDir);
    SoundsShadowEnvironments(path);
  }

  /**
   * With the environment test first, a path under an `environments` folder
   * gets `.amenv`, whether or not it also contains `sounds`.
   */
  lemma EnvironmentsReachable(path: string)
    requires !EndsWith(path, "audio_config.json") && !EndsWith(path, "buses.json")
    requires Contains(path, EnvironmentsDir)
    requires forall j :: 0 <= j < 7 ==> !Contains(path, Cascade[j].dir)
    ensures Extension(path) == ".amenv"
  {
    assert Cascade[7].dir == EnvironmentsDir;
  }

  /** The reordering only matters for paths that contain `environments`. */
  lemma CorrectionOnlyAffectsEnvironments(path: string)
    requires !Contains(path, EnvironmentsDir)
    ensures Extension(path) == ExtensionAsWritten(path)
  {
    var p := Cascade[..7];
    assert Cascade == p + [Rule(EnvironmentsDir, ".amenv"), Rule(SoundsDir, ".amsound")];
    assert CascadeAsWritten == p + [Rule(SoundsDir, ".amsound"), Rule(EnvironmentsDir, ".amenv")];
    SwapUnmatched(path, p, Rule(EnvironmentsDir, ".amenv"), Rule(SoundsDir, ".amsound"));
  }

  /**
   * The two replacements of processed_json_path once the extension is
   * chosen: every `.json` becomes `ext`, then every `amplitude_project`
   * becomes `amplitude_assets`. A path with neither is returned as it is.
   */
  function ApplyExtension(path: string, ext: string): (r: string)
    ensures !Contains(path, ".json") && !Contains(path, ProjectFolder) ==> r == path
  {
    var r := ReplaceAll(ReplaceAll(path, ".json", ext), ProjectFolder, AssetsFolder);
    if !Contains(path, ".json") && !Contains(path, ProjectFolder) then
      ReplaceAllAbsent(path, ".json", ext);
      ReplaceAllAbsent(path, ProjectFolder, AssetsFolder);
      r
    else
      r
  }

  /** processed_json_path as written: the sounds test before the environment test. */
  function ProcessedJsonPathAsWritten(path: string): (r: string)
    ensures !Contains(path, ".json") && !Contains(path, ProjectFolder) ==> r == path
  {
    ApplyExtension(path, ExtensionAsWritten(path))
  }

  /** processed_json_path with the environment test before the sounds test. */
  function ProcessedJsonPath(path: string): (r: string)
    ensures !Contains(path, ".json") && !Contains(path, ProjectFolder) ==> r == path
  {
    ApplyExtension(path, Extension(path))
  }

  /**
   * A dotted extension too short to hold the project folder name, or one
   * character longer but differing from it where it would have to start.
   */
  predicate ShortExtension(e: string) {
    && |e| > 3 && e[0] == '.'
    && (|e| < |ProjectFolder| || (|e| == |ProjectFolder| + 1 && e[3] != ProjectFolder[2]))
  }

  /** Every known extension is short and has no path separator. */
  lemma KnownExtensionsShort()
    ensures forall e :: e in KnownExtensions ==> ShortExtension(e)
    ensures forall e :: e in KnownExtensions ==> forall i :: 0 <= i < |e| ==> e[i] != '/'
  {
  }

  lemma ShortExtensionLacksProjectFolder(e: string)
    requires ShortExtension(e)
    ensures !Contains(e, ProjectFolder)
  {
    if |e| < |ProjectFolder| {
      ShorterNotContains(e, ProjectFolder);
    } else {
      assert !(ProjectFolder <= e);
      assert e[1..][2] == e[3];
      assert !(ProjectFolder <= e[1..]);
      ShorterNotContains(e[2..], ProjectFolder);
      assert e[1..][1..] == e[2..];
    }
  }

  /** No extension either cascade chooses contains the project folder name. */
  lemma ExtensionLacksProjectFolder(path: string)
    ensures !Contains(ExtensionAsWritten(path), ProjectFolder)
    ensures !Contains(Extension(path), ProjectFolder)
  {
    ExtensionIsKnown(path);
    KnownExtensionsShort();
    ShortExtensionLacksProjectFolder(ExtensionAsWritten(path));
    ShortExtensionLacksProjectFolder(Extension(path));
  }

  /** Text none of whose characters can start the pattern is kept as it is. */
  lemma {:induction false} ReplaceAllKeepsPrefix(a: string, b: string, pat: string, rep: string)
    requires |pat| > 0
    requires forall i :: 0 <= i < |a| ==> a[i] != pat[0]
    ensures ReplaceAll(a + b, pat, rep) == a + ReplaceAll(b, pat, rep)
    decreases |a|
  {
    if |a| > 0 {
      assert a + b == [a[0]] + (a[1..] + b);
      ReplaceAllSkip(a[0], a[1..] + b, pat, rep);
      ReplaceAllKeepsPrefix(a[1..], b, pat, rep);
      calc {
        ReplaceAll(a + b, pat, rep);
        [a[0]] + ReplaceAll(a[1..] + b, pat, rep);
        [a[0]] + (a[1..] + ReplaceAll(b, pat, rep));
        { assert [a[0]] + a[1..] == a; }
        a + ReplaceAll(b, pat, rep);
      }
    } else {
      assert a + b == b;
    }
  }

  /** The raw project file `sounds/amplitude_project/<rel>.json`. */
  function ProjectPath(rel: string): string {
    SoundsDir + "/" + ProjectFolder + "/" + rel + ".json"
  }

  /** The compiled binary `sounds/amplitude_assets/<rel><ext>`. */
  function AssetPath(rel: string, ext: string): string {
    SoundsDir + "/" + AssetsFolder + "/" + rel + ext
  }

  /** A relative path that neither holds another `.json` nor another `amplitude_project`. */
  predicate PlainRelative(rel: string) {
    !Contains(rel, ".json") && !Contains(rel, ProjectFolder)
  }

  lemma PathPiecesShape()
    ensures forall i :: 1 <= i < 5 ==> ".json"[i] != '.'
    ensures forall i :: 0 <= i < |ProjectFolder| ==> ProjectFolder[i] != '.'
    ensures forall i :: 0 <= i < |SoundsDir + "/" + ProjectFolder + "/"| ==> (SoundsDir + "/" + ProjectFolder + "/")[i] != '.'
    ensures forall i :: 0 <= i < |SoundsDir + "/"| ==> (SoundsDir + "/")[i] != ProjectFolder[0]
    ensures ProjectFolder[0] != '/'
  {
  }

  /**
   * With any short extension, a project file's final `.json` becomes the
   * extension and its project root becomes the assets root; nothing else
   * in the path changes.
   */
  lemma ProcessedUnderProject(rel: string, ext: string)
    requires PlainRelative(rel) && ShortExtension(ext)
    ensures ApplyExtension(ProjectPath(rel), ext) == AssetPath(rel, ext)
  {
    var tail := "/" + (rel + ext);
    JsonStep(rel, ext);
    RenameStep(rel, ext);
    assert SoundsDir + "/" + AssetsFolder + tail == AssetPath(rel, ext);
  }

  /** The final `.json` of a project file is the only one, and becomes the extension. */
  lemma JsonStep(rel: string, ext: string)
    requires !Contains(rel, ".json")
    ensures ReplaceAll(ProjectPath(rel), ".json", ext) == SoundsDir + "/" + ProjectFolder + ("/" + (rel + ext))
  {
    PathPiecesShape();
    var pre := SoundsDir + "/" + ProjectFolder + "/";
    assert ProjectPath(rel) == pre + (rel + ".json");
    ReplaceAllKeepsPrefix(pre, rel + ".json", ".json", ext);
    ReplaceAllBeforePattern(rel, ".json", ext);
    assert pre + (rel + ext) == SoundsDir + "/" + ProjectFolder + ("/" + (rel + ext));
  }

  /** The project root is the only `amplitude_project` left, and becomes the assets root. */
  lemma RenameStep(rel: string, ext: string)
    requires !Contains(rel, ProjectFolder) && ShortExtension(ext)
    ensures ReplaceAll(SoundsDir + "/" + ProjectFolder + ("/" + (rel + ext)), ProjectFolder, AssetsFolder)
         == SoundsDir + "/" + AssetsFolder + ("/" + (rel + ext))
  {
    PathPiecesShape();
    var tail := "/" + (rel + ext);
    ReplaceAllSplit(SoundsDir + "/", ProjectFolder, AssetsFolder, tail);
    ShortExtensionLacksProjectFolder(ext);
    AbsentAcrossJoin(rel, ext, ProjectFolder);
    assert !(ProjectFolder <= tail);
    assert tail[1..] == rel + ext;
    ReplaceAllAbsent(tail, ProjectFolder, AssetsFolder);
  }

  /**
   * As written, a project file `sounds/amplitude_project/<rel>.json` is
   * compiled to `sounds/amplitude_assets/<rel>` plus the extension its
   * folders choose.
   */
  lemma ProcessedProjectFile(rel: string)
    requires PlainRelative(rel)
    ensures ProcessedJsonPathAsWritten(ProjectPath(rel)) == AssetPath(rel, ExtensionAsWritten(ProjectPath(rel)))
  {
    ExtensionIsKnown(ProjectPath(rel));
    KnownExtensionsShort();
    ProcessedUnderProject(rel, ExtensionAsWritten(ProjectPath(rel)));
  }

  /** The same with the environment test first. */
  lemma ProcessedProjectFileCorrected(rel: string)
    requires PlainRelative(rel)
    ensures ProcessedJsonPath(ProjectPath(rel)) == AssetPath(rel, Extension(ProjectPath(rel)))
  {
    ExtensionIsKnown(ProjectPath(rel));
    KnownExtensionsShort();
    ProcessedUnderProject(rel, Extension(ProjectPath(rel)));
  }

  /** processed_json_filename: the last path component of the processed path, as written. */
  function ProcessedJsonFilename(path: string): (r: string)
    ensures |r| <= |ProcessedJsonPathAsWritten(path)|
    ensures r == ProcessedJsonPathAsWritten(path)[|ProcessedJsonPathAsWritten(path)| - |r|..]
    ensures forall i :: 0 <= i < |r| ==> r[i] != '/'
    ensures |r| == |ProcessedJsonPathAsWritten(path)| || ProcessedJsonPathAsWritten(path)[|ProcessedJsonPathAsWritten(path)| - |r| - 1] == '/'
  {
    Basename(ProcessedJsonPathAsWritten(path))
  }

  /** The binary of project file `<dir>/<name>.json` is called `<name>` plus its extension. */
  lemma ProcessedProjectFileName(dir: string, name: string)
    requires PlainRelative(dir + "/" + name)
    requires forall i :: 0 <= i < |name| ==> name[i] != '/'
    ensures ProcessedJsonFilename(ProjectPath(dir + "/" + name)) == name + ExtensionAsWritten(ProjectPath(dir + "/" + name))
  {
    var path := ProjectPath(dir + "/" + name);
    ProcessedProjectFile(dir + "/" + name);
    ExtensionIsKnown(path);
    KnownExtensionsShort();
    var ext := ExtensionAsWritten(path);
    NoSeparatorJoin(name, ext);
    AssetPathOfFile(dir, name, ext);
    BasenameAfterSlash(SoundsDir + "/" + AssetsFolder + "/" + dir, name + ext);
  }

  lemma AssetPathOfFile(dir: string, name: string, ext: string)
    ensures AssetPath(dir + "/" + name, ext) == (SoundsDir + "/" + AssetsFolder + "/" + dir) + "/" + (name + ext)
  {
  }

  /** As written, a path that matches no earlier rule but contains `sounds` gets `.amsound`. */
  lemma SoundsWhenNoEarlierRule(path: string)
    requires !EndsWith(path, "audio_config.json") && !EndsWith(path, "buses.json")
    requires Contains(path, SoundsDir)
    requires forall j :: 0 <= j < 7 ==> !Contains(path, Cascade[j].dir)
    ensures ExtensionAsWritten(path) == ".amsound"
  {
    assert forall j :: 0 <= j < 7 ==> CascadeAsWritten[j] == Cascade[j];
    assert CascadeAsWritten[7] == Rule(SoundsDir, ".amsound");
  }

  /** Every project file lies under `sounds`. */
  lemma ProjectPathInSounds(rel: string)
    ensures Contains(ProjectPath(rel), SoundsDir)
  {
    var rest := "/" + ProjectFolder + "/" + rel + ".json";
    assert ProjectPath(rel) == [] + SoundsDir + rest;
    ContainsInfix([], SoundsDir, rest);
  }

  /** A project file under `environments/` holds `environments`. */
  lemma ProjectPathInEnvironments(name: string)
    ensures Contains(ProjectPath(EnvironmentsDir + "/" + name), EnvironmentsDir)
  {
    var pre, rest := SoundsDir + "/" + ProjectFolder + "/", "/" + name + ".json";
    assert ProjectPath(EnvironmentsDir + "/" + name) == pre + EnvironmentsDir + rest;
    ContainsInfix(pre, EnvironmentsDir, rest);
  }

  /**
   * A project environment file `environments/<name>.json` whose path meets
   * no earlier rule's folder and is no configuration file.
   */
  predicate PlainEnvironmentFile(name: string) {
    var path := ProjectPath(EnvironmentsDir + "/" + name);
    && PlainRelative(EnvironmentsDir + "/" + name)
    && !EndsWith(path, "audio_config.json") && !EndsWith(path, "buses.json")
    && forall j :: 0 <= j < 7 ==> !Contains(path, Cascade[j].dir)
  }

  /** As written, such a file is compiled as a sound: `.amsound`, not `.amenv`. */
  lemma ProjectEnvironmentAsWritten(name: string)
    requires PlainEnvironmentFile(name)
    ensures ProcessedJsonPathAsWritten(ProjectPath(EnvironmentsDir + "/" + name)) == AssetPath(EnvironmentsDir + "/" + name, ".amsound")
  {
    ProjectPathInSounds(EnvironmentsDir + "/" + name);
    SoundsWhenNoEarlierRule(ProjectPath(EnvironmentsDir + "/" + name));
    ProcessedProjectFile(EnvironmentsDir + "/" + name);
  }

  /** With the environment test first, the same file is compiled as an environment. */
  lemma ProjectEnvironmentCorrected(name: string)
    requires PlainEnvironmentFile(name)
    ensures ProcessedJsonPath(ProjectPath(EnvironmentsDir + "/" + name)) == AssetPath(EnvironmentsDir + "/" + name, ".amenv")
  {
    ProjectPathInEnvironments(name);
    EnvironmentsReachable(ProjectPath(EnvironmentsDir + "/" + name));
    ProcessedProjectFileCorrected(EnvironmentsDir + "/" + name);
  }

  /** Every `.json` is replaced, not only the final one. */
  lemma EveryJsonReplaced(a: string, b: string, ext: string)
    requires forall i :: 0 <= i < |a| ==> a[i] != '.'
    requires forall i :: 0 <= i < |b| ==> b[i] != '.'
    ensures ReplaceAll(a + ".json" + b + ".json", ".json", ext) == a + ext + b + ext
  {
    ReplaceAllSplit(b, ".json", ext, []);
    assert b + ".json" + [] == b + ".json";
    assert ReplaceAll([], ".json", ext) == [];
    assert a + ".json" + b + ".json" == a + ".json" + (b + ".json");
    ReplaceAllSplit(a, ".json", ext, b + ".json");
  }

  /** A shorter text cannot contain a longer one. */
  lemma {:induction false} ShorterNotContains(s: string, sub: string)
    requires |s| < |sub|
    ensures !Contains(s, sub)
    decreases |s|
  {
    if |s| > 0 {
      ShorterNotContains(s[1..], sub);
    }
  }

  /** A character that cannot start the pattern is kept. */
  lemma ReplaceAllSkip(c: char, s: string, pat: string, rep: string)
    requires |pat| > 0 && c != pat[0]
    ensures ReplaceAll([c] + s, pat, rep) == [c] + ReplaceAll(s, pat, rep)
  {
    assert ([c] + s)[1..] == s;
  }

  /** A folder name after a prefix that cannot start it, followed by a path without it, is the only replacement. */
  lemma RenameFolder(pre: string, pat: string, rep: string, rel: string)
    requires |pat| > 0 && pat[0] != '/'
    requires forall i :: 0 <= i < |pre| ==> pre[i] != pat[0]
    requires !Contains(rel, pat)
    ensures ReplaceAll(pre + pat + ("/" + rel), pat, rep) == pre + rep + ("/" + rel)
  {
    ReplaceAllSplit(pre, pat, rep, "/" + rel);
    ReplaceAllAbsent(rel, pat, rep);
    ReplaceAllSkip('/', rel, pat, rep);
  }

  /**
   * Every `amplitude_project` is replaced by `amplitude_assets`: the project
   * root of a path under it becomes the assets root.
   */
  lemma ProjectFolderRenamed(rel: string)
    requires !Contains(rel, ProjectFolder)
    ensures ReplaceAll(SoundsDir + "/" + ProjectFolder + ("/" + rel), ProjectFolder, AssetsFolder)
      == SoundsDir + "/" + AssetsFolder + ("/" + rel)
  {
    RenameFolder(SoundsDir + "/", ProjectFolder, AssetsFolder, rel);
  }

  /** The OSError `os.path.getmtime` raises for a file that does not exist. */
  datatype OsError = FileNotFound

  /**
   * needs_rebuild, given each file's modification time when it exists (for
   * the target: when it is a file). A target that is not a file needs a
   * rebuild without the source being looked at; otherwise both times are
   * read, and a missing source raises.
   */
  function NeedsRebuild(source: Option<real>, target: Option<real>): (r: Outcome<bool, OsError>)
    ensures r.Failure? <==> target.Some? && source.None?
    ensures r.Success? ==> (r.value <==> target.None? || source.value > target.value)
  {
    match target
    case None => Success(true)
    case Some(t) =>
      match source
      case None => Failure(FileNotFound)
      case Some(s) => Success(s > t)
  }

  /** A target at least as new as its source is left alone; rebuilding is asked again once the source changes or the target goes. */
  lemma RebuildOrder(sourceMtime: real, targetMtime: real, later: real)
    requires targetMtime >= sourceMtime && later > targetMtime
    ensures NeedsRebuild(Some(sourceMtime), Some(targetMtime)) == Success(false)
    ensures NeedsRebuild(Some(later), Some(targetMtime)) == Success(true)
    ensures NeedsRebuild(Some(sourceMtime), None) == Success(true)
    ensures NeedsRebuild(None, None) == Success(true)
  {
  }

  /**
   * The answer is monotone in the times: touching the source never turns a
   * rebuild off, and touching the target never turns one on.
   */
  lemma RebuildMonotone(s1: real, s2: real, t1: real, t2: real)
    requires s1 <= s2 && t2 <= t1
    ensures NeedsRebuild(Some(s1), Some(t1)) == Success(true) ==> NeedsRebuild(Some(s2), Some(t2)) == Success(true)
  {
  }
}

=== FILE: atl_entities.dfy ===
/**
 * The records the Amplitude implementation hands to the host's audio
 * translation layer (ATL): per-object, per-listener, per-trigger, per-RTPC,
 * per-switch-state, per-environment, per-event and per-file data
 * (ATLEntities_amplitude.h). A `const` member of the C++ record is a field
 * that no operation of the model changes; the operations in AudioSystem
 * state that in their contracts.
 */
module AtlEntities {
  import opened Outcomes
  import opened Config

  /** The host's `EAudioEventState`. */
  datatype EventState = StateNone | StatePlaying | StatePlayingDelayed | StateLoading | StateUnloading

  /** Amplitude's `EventCanceler`: a handle to a running event that is valid or not. */
  datatype Canceler = Canceler(handle: nat, valid: bool)

  /** `EventCanceler(nullptr)`: the canceler of nothing, never valid. */
  const NullCanceler := Canceler(0, false)

  /** `SATLEventData_Amplitude`; `atlId` is const in the source. */
  datatype EventData = EventData(atlId: nat, state: EventState, canceler: Canceler, sourceId: nat)

  /** A new event record: not playing, no canceler, no source, and the id it was made for. */
  function NewEventData(id: nat): (r: EventData)
    ensures r.atlId == id
    ensures r.state == StateNone && !r.canceler.valid && r.sourceId == InvalidSourceId
  {
    EventData(id, StateNone, NullCanceler, InvalidSourceId)
  }

  /**
   * `SATLAudioObjectData_Amplitude`; `hasPosition` and `amId` are const.
   * The environment amounts are floats in the source; here they are reals
   * that no operation computes with.
   */
  datatype AudioObjectData = AudioObjectData(
    amId: nat,
    hasPosition: bool,
    needsToUpdateEnvironments: bool,
    environmentAmounts: map<nat, real>)

  /** A new audio object: no pending environment update and no environment amounts. */
  function NewAudioObject(amId: nat, hasPosition: bool): (r: AudioObjectData)
    ensures r.amId == amId && r.hasPosition == hasPosition
    ensures !r.needsToUpdateEnvironments && r.environmentAmounts == map[]
  {
    AudioObjectData(amId, hasPosition, false, map[])
  }

  /** `SATLListenerData_Amplitude`. */
  datatype ListenerData = ListenerData(amListenerId: nat)

  /** `SATLTriggerImplData_Amplitude`: the Amplitude event a trigger plays. */
  datatype TriggerImplData = TriggerImplData(amId: nat)

  /** `SATLRtpcImplData_Amplitude`. */
  datatype RtpcImplData = RtpcImplData(amId: nat)

  /** `SATLSwitchStateImplData_Amplitude`. */
  datatype SwitchStateImplData = SwitchStateImplData(amSwitchId: nat, amStateId: nat)

  /** `EAmplitudeAudioEnvironmentType`. */
  datatype EnvironmentType = EnvNone | EnvBus | EnvSwitch | EnvEffect

  /**
   * `SATLEnvironmentImplData_Amplitude`: the type is const; the state id and
   * the effect id are one union member, so there is one field for both.
   * A member a constructor leaves uninitialized is `None`.
   */
  datatype EnvironmentImplData = EnvironmentImplData(kind: EnvironmentType, amEnvId: Option<nat>, shared: Option<nat>)
  {
    /** The union read as the switch state id. */
    function StateId(): Option<nat> { shared }
    /** The union read as the effect id. */
    function EffectId(): Option<nat> { shared }
  }

  /**
   * The three constructors: type only; type and environment id; type,
   * environment id and state id.
   */
  function NewEnvironment(kind: EnvironmentType, envId: Option<nat>, stateId: Option<nat>): (r: EnvironmentImplData)
    requires stateId.Some? ==> envId.Some?
    ensures r.kind == kind && r.amEnvId == envId
    ensures r.StateId() == stateId && r.EffectId() == stateId
  {
    EnvironmentImplData(kind, envId, stateId)
  }

  /** `SATLAudioFileEntryData_Amplitude`: the bank a file entry stands for. */
  datatype FileEntryData = FileEntryData(amBankId: nat)

  /** The default constructor holds the invalid bank id. */
  function DefaultFileEntry(): (r: FileEntryData)
    ensures r.amBankId == InvalidObjectId
  {
    FileEntryData(InvalidObjectId)
  }
}

=== FILE: audio_editor.dfy ===
/**
 * The editor side of the integration: the registry of middleware controls
 * (`m_controls`, keyed by control id), the root control's children and the
 * per-control connection counts (`m_connectionsByID`).
 *
 * `GetID` (a hash of the control's full name) and `Path::Join` are
 * parameters (`Naming`); nothing is assumed about them.
 */
module AudioEditor {
  import opened Outcomes
  import opened Config
  import opened ControlTypes

  /** A control id, the hash `GetID` computes from a control's full name. */
  type Cid = nat

  /** The parent of a control: the editor's root control or a registered control. */
  datatype ParentRef = RootControl | ParentControl(id: Cid)

  /** An `AmplitudeAudioSystemControl`. */
  datatype Control = Control(
    name: string,
    id: Cid,
    kind: ImplType,
    parent: ParentRef,
    children: seq<Cid>,
    placeholder: bool,
    localized: bool,
    connected: bool,
    amplitudeId: nat)

  datatype Registry = Registry(
    controls: map<Cid, Control>,
    rootChildren: seq<Cid>,
    connections: map<Cid, int>,
    localizationFolder: string)

  /** `GetID` and `AZ::StringFunc::Path::Join`. */
  datatype Naming = Naming(getId: string -> Cid, join: (string, string) -> string)

  /** `SControlDef`: what the loader asks CreateControl for. */
  datatype ControlDef = ControlDef(name: string, kind: ImplType, localized: bool, parent: Option<Cid>, path: string)

  /** Every control is stored under its own id, and every parent it names is registered. */
  predicate Valid(reg: Registry) {
    && (forall k :: k in reg.controls ==> reg.controls[k].id == k)
    && (forall k :: k in reg.controls && reg.controls[k].parent.ParentControl? ==> reg.controls[k].parent.id in reg.controls)
    && (forall k :: k in reg.connections ==> reg.connections[k] >= 0)
  }

  function EmptyRegistry(localizationFolder: string): (r: Registry)
    ensures Valid(r) && r.controls == map[] && r.connections == map[]
  {
    Registry(map[], [], map[], localizationFolder)
  }

  /** A parent pointer given to the registry refers to a registered control. */
  predicate LiveParent(reg: Registry, parent: Option<Cid>) {
    parent.Some? ==> parent.value in reg.controls
  }

  /**
   * GetControl: the registered control with that id; nothing for the
   * invalid id or an id that is not registered.
   */
  function GetControl(reg: Registry, id: Cid): (r: Option<Control>)
    ensures r.Some? <==> id != InvalidCid && id in reg.controls
    ensures r.Some? ==> r.value == reg.controls[id]
  {
    if id != InvalidCid && id in reg.controls then Some(reg.controls[id]) else None
  }

  /** The name a control is hashed under: its parent's name, then the path, joined in front. */
  function FullName(reg: Registry, naming: Naming, def: ControlDef): string
    requires LiveParent(reg, def.parent)
  {
    var name := if def.parent.Some? then naming.join(reg.controls[def.parent.value].name, def.name) else def.name;
    if def.path != "" then naming.join(def.path, name) else name
  }

  /** The name GetControlByName hashes: the parent's name, then the localization folder, joined in front. */
  function LookupName(reg: Registry, naming: Naming, name: string, localized: bool, parent: Option<Cid>): string
    requires LiveParent(reg, parent)
  {
    var withParent := if parent.Some? then naming.join(reg.controls[parent.value].name, name) else name;
    if localized then naming.join(reg.localizationFolder, withParent) else withParent
  }

  /** GetControlByName: the control whose lookup name hashes to a registered id. */
  function GetControlByName(reg: Registry, naming: Naming, name: string, localized: bool, parent: Option<Cid>): (r: Option<Control>)
    requires LiveParent(reg, parent)
    ensures var id := naming.getId(LookupName(reg, naming, name, localized, parent));
      r.Some? <==> id != InvalidCid && id in reg.controls
    ensures r.Some? ==> r.value == reg.controls[naming.getId(LookupName(reg, naming, name, localized, parent))]
  {
    GetControl(reg, naming.getId(LookupName(reg, naming, name, localized, parent)))
  }

  /** Clears the placeholder flag of a registered control. */
  function ClearPlaceholder(controls: map<Cid, Control>, id: Cid): (r: map<Cid, Control>)
    requires id in controls
    ensures r.Keys == controls.Keys
    ensures r[id] == controls[id].(placeholder := false)
    ensures forall k :: k in controls && k != id ==> r[k] == controls[k]
  {
    controls[id := controls[id].(placeholder := false)]
  }

  /** The control CreateControl makes for a new id. */
  function NewControl(def: ControlDef, id: Cid): Control {
    Control(def.name, id, def.kind,
            if def.parent.Some? then ParentControl(def.parent.value) else RootControl,
            [], false, def.localized, false, 0)
  }

  /** Registers `id` as a child of the parent control, or of the root. */
  function AddChild(reg: Registry, parent: Option<Cid>, id: Cid): (r: Registry)
    requires LiveParent(reg, parent)
    ensures r.controls.Keys == reg.controls.Keys
    ensures r.connections == reg.connections && r.localizationFolder == reg.localizationFolder
    ensures parent.None? ==> r.controls == reg.controls && r.rootChildren == reg.rootChildren + [id]
    ensures parent.Some? ==>
      && r.rootChildren == reg.rootChildren
      && r.controls[parent.value] == reg.controls[parent.value].(children := reg.controls[parent.value].children + [id])
      && forall k :: k in reg.controls && k != parent.value ==> r.controls[k] == reg.controls[k]
  {
    match parent
    case None => reg.(rootChildren := reg.rootChildren + [id])
    case Some(p) =>
      var pc := reg.controls[p];
      reg.(controls := reg.controls[p := pc.(children := pc.children + [id])])
  }

  /**
   * CreateControl: the id is the hash of the full name. A control already
   * registered under it is returned (its placeholder flag cleared, and its
   * parent's when that was a placeholder too); otherwise a new control is
   * made, added as a child of its parent or the root, and stored under the
   * id.
   */
  function CreateControl(reg: Registry, naming: Naming, def: ControlDef): (r: (Registry, Cid))
    requires LiveParent(reg, def.parent)
    ensures r.1 == naming.getId(FullName(reg, naming, def))
    ensures r.1 in r.0.controls && !r.0.controls[r.1].placeholder
    ensures r.0.connections == reg.connections && r.0.localizationFolder == reg.localizationFolder
    ensures forall k :: k in reg.controls && k != InvalidCid ==> k in r.0.controls && r.0.controls[k].name == reg.controls[k].name
    ensures GetControl(reg, r.1).Some? ==>
      && r.0.controls.Keys == reg.controls.Keys
      && r.0.rootChildren == reg.rootChildren
      && r.0.controls[r.1] == reg.controls[r.1].(placeholder := false)
      && (forall k :: k in reg.controls && !(k == r.1 || Some(k) == def.parent) ==> r.0.controls[k] == reg.controls[k])
      && (reg.controls[r.1].placeholder && def.parent.Some? ==> !r.0.controls[def.parent.value].placeholder)
      && (!reg.controls[r.1].placeholder ==> r.0 == reg)
    ensures GetControl(reg, r.1).None? ==>
      && r.0.controls.Keys == reg.controls.Keys + {r.1}
      && r.0.controls[r.1] == NewControl(def, r.1)
      && (def.parent.None? ==> r.0.rootChildren == reg.rootChildren + [r.1])
      && (def.parent.Some? && def.parent.value != r.1 ==>
            r.0.controls[def.parent.value].children == reg.controls[def.parent.value].children + [r.1])
      && (forall k :: k in reg.controls && k != r.1 && Some(k) != def.parent ==> r.0.controls[k] == reg.controls[k])
  {
    var id := naming.getId(FullName(reg, naming, def));
    match GetControl(reg, id)
    case Some(existing) =>
      if existing.placeholder then
        var controls := ClearPlaceholder(reg.controls, id);
        var controls' :=
          if def.parent.Some? && controls[def.parent.value].placeholder
          then ClearPlaceholder(controls, def.parent.value)
          else controls;
        (reg.(controls := controls'), id)
      else
        assert reg.controls[id] == reg.controls[id].(placeholder := false);
        (reg, id)
    case None =>
      var withChild := AddChild(reg, def.parent, id);
      (withChild.(controls := withChild.controls[id := NewControl(def, id)]), id)
  }

  /** A registered id grows no entry: creating a control twice changes nothing the second time. */
  lemma CreateControlIdempotent(reg: Registry, naming: Naming, def: ControlDef)
    requires LiveParent(reg, def.parent)
    requires naming.getId(FullName(reg, naming, def)) != InvalidCid
    ensures var (reg1, id1) := CreateControl(reg, naming, def);
      LiveParent(reg1, def.parent) &&
      var (reg2, id2) := CreateControl(reg1, naming, def);
      id2 == id1 && reg2 == reg1
  {
    var (reg1, id1) := CreateControl(reg, naming, def);
    assert LiveParent(reg1, def.parent);
    if def.parent.Some? {
      var p := def.parent.value;
      if p != id1 {
        assert reg1.controls[p].name == reg.controls[p].name by {
          if GetControl(reg, id1).Some? && reg.controls[id1].placeholder && reg.controls[p].placeholder {
            assert reg1.controls[p] == reg.controls[p].(placeholder := false);
          }
        }
      }
    }
    assert FullName(reg1, naming, def) == FullName(reg, naming, def);
  }

  /** CreateControl keeps the registry valid. */
  lemma CreateControlValid(reg: Registry, naming: Naming, def: ControlDef)
    requires Valid(reg) && LiveParent(reg, def.parent)
    ensures Valid(CreateControl(reg, naming, def).0)
  {
    var (reg1, id) := CreateControl(reg, naming, def);
    forall k | k in reg1.controls
      ensures reg1.controls[k].id == k
      ensures reg1.controls[k].parent.ParentControl? ==> reg1.controls[k].parent.id in reg1.controls
    {
      if GetControl(reg, id).Some? {
        if reg.controls[id].placeholder {
          assert reg1.controls[k].id == reg.controls[k].id;
          assert reg1.controls[k].parent == reg.controls[k].parent;
        }
      } else if k != id {
        assert reg1.controls[k].id == reg.controls[k].id;
        assert reg1.controls[k].parent == reg.controls[k].parent;
      }
    }
  }

  // ---------------------------------------------------------------------
  // Connections
  // ---------------------------------------------------------------------

  /** The kinds of connection object CreateConnectionToControl returns. */
  datatype ConnectionKind = PlainConnection | RtpcConnection | SwitchStateConnection | EffectConnection

  datatype Connection = Connection(id: Cid, kind: ConnectionKind)

  /** `m_connectionsByID[id]`: an absent entry reads as 0. */
  function ConnectionCount(reg: Registry, id: Cid): int {
    if id in reg.connections then reg.connections[id] else 0
  }

  /** The connection object for an ATL control type and a middleware control type. */
  function ConnectionKindFor(atlType: AceControlType, kind: ImplType): (r: ConnectionKind)
    ensures r != PlainConnection ==> kind == Rtpc
    ensures kind == Rtpc && atlType == AceRtpc ==> r == RtpcConnection
    ensures kind == Rtpc && atlType == AceSwitchState ==> r == SwitchStateConnection
    ensures kind == Rtpc && atlType == AceEnvironment ==> r == EffectConnection
    ensures kind == Rtpc && !(atlType in {AceRtpc, AceSwitchState, AceEnvironment}) ==> r == PlainConnection
  {
    if kind == Rtpc then
      match atlType
      case AceRtpc => RtpcConnection
      case AceSwitchState => SwitchStateConnection
      case AceEnvironment => EffectConnection
      case _ => PlainConnection
    else PlainConnection
  }

  /**
   * CreateConnectionToControl: marks the control connected and counts one
   * more connection to it; without a control nothing happens.
   */
  function CreateConnectionToControl(reg: Registry, atlType: AceControlType, control: Option<Cid>): (r: (Registry, Option<Connection>))
    requires LiveParent(reg, control)
    ensures control.None? ==> r == (reg, None)
    ensures control.Some? ==>
      var c := reg.controls[control.value];
      && r.1 == Some(Connection(c.id, ConnectionKindFor(atlType, c.kind)))
      && r.0.controls == reg.controls[control.value := c.(connected := true)]
      && ConnectionCount(r.0, c.id) == ConnectionCount(reg, c.id) + 1
      && (forall k :: k != c.id ==> ConnectionCount(r.0, k) == ConnectionCount(reg, k))
  {
    match control
    case None => (reg, None)
    case Some(key) =>
      var c := reg.controls[key];
      var count := ConnectionCount(reg, c.id) + 1;
      var reg' := reg.(controls := reg.controls[key := c.(connected := true)],
                       connections := reg.connections[c.id := count]);
      (reg', Some(Connection(c.id, ConnectionKindFor(atlType, c.kind))))
  }

  /**
   * ConnectionRemoved: one connection fewer, never below zero; the control
   * is marked disconnected exactly when no connection is left.
   */
  function ConnectionRemoved(reg: Registry, control: Cid): (r: Registry)
    requires control in reg.controls
    ensures var id := reg.controls[control].id;
      && ConnectionCount(r, id) == (if ConnectionCount(reg, id) >= 1 then ConnectionCount(reg, id) - 1 else 0)
      && ConnectionCount(r, id) >= 0
      && r.controls.Keys == reg.controls.Keys
      && (ConnectionCount(r, id) == 0 ==> !r.controls[control].connected)
      && (ConnectionCount(r, id) > 0 ==> r.controls[control] == reg.controls[control])
      && (forall k :: k != id ==> ConnectionCount(r, k) == ConnectionCount(reg, k))
      && (forall k :: k in reg.controls && k != control ==> r.controls[k] == reg.controls[k])
  {
    var c := reg.controls[control];
    var count := ConnectionCount(reg, c.id) - 1;
    if count <= 0 then
      reg.(controls := reg.controls[control := c.(connected := false)],
           connections := reg.connections[c.id := 0])
    else
      reg.(connections := reg.connections[c.id := count])
  }

  /** Connecting and then removing the connection gives the count back, and the control stays connected only if it already had connections. */
  lemma ConnectThenRemove(reg: Registry, atlType: AceControlType, control: Cid)
    requires Valid(reg) && control in reg.controls
    ensures var (reg1, _) := CreateConnectionToControl(reg, atlType, Some(control));
      control in reg1.controls &&
      var reg2 := ConnectionRemoved(reg1, control);
      && ConnectionCount(reg2, control) == ConnectionCount(reg, control)
      && (reg2.controls[control].connected <==> ConnectionCount(reg, control) > 0)
  {
    var (reg1, _) := CreateConnectionToControl(reg, atlType, Some(control));
    assert reg1.controls[control].id == control;
    var reg2 := ConnectionRemoved(reg1, control);
    assert ConnectionCount(reg, control) >= 0;
  }

  /** Connection bookkeeping keeps the registry valid. */
  lemma ConnectionsKeepValid(reg: Registry, atlType: AceControlType, control: Cid)
    requires Valid(reg) && control in reg.controls
    ensures Valid(CreateConnectionToControl(reg, atlType, Some(control)).0)
    ensures Valid(ConnectionRemoved(reg, control))
  {
    var reg1 := CreateConnectionToControl(reg, atlType, Some(control)).0;
    assert forall k :: k in reg1.connections ==> reg1.connections[k] == ConnectionCount(reg1, k);
    var reg2 := ConnectionRemoved(reg, control);
    assert forall k :: k in reg2.connections ==> reg2.connections[k] == ConnectionCount(reg2, k);
  }

  /** Reload's first step: every registered control becomes a placeholder. */
  function MarkAllPlaceholders(controls: map<Cid, Control>): (r: map<Cid, Control>)
    ensures r.Keys == controls.Keys
    ensures forall k :: k in r ==> r[k] == controls[k].(placeholder := true)
  {
    map k | k in controls :: controls[k].(placeholder := true)
  }
}

=== FILE: audio_loader.dfy ===
/**
 * The editor's control loader: turns the JSON files of an Amplitude project
 * (events, RTPCs, switches, effects, sound banks, buses) into registered
 * middleware controls, and the editor's Reload that drives it.
 *
 * Directory listing, opening and reading files are inputs: a folder is the
 * tree of what `FindFilesInPath` lists, each file given as what opening,
 * reading and parsing it yields.
 *
 * The one rapidjson assertion the loader can reach on a well-shaped object,
 * `json["id"].GetUint64()` for a control that has to be created, is a
 * `MissingId` failure that ends the load.
 */
module AudioLoader {
  import opened Outcomes
  import opened Strings
  import opened Json
  import opened Config
  import opened ControlTypes
  import opened AudioEditor

  // ---------------------------------------------------------------------
  // LoadControl
  // ---------------------------------------------------------------------

  /** What rapidjson's asserting accessors need of one control object: it is an object, and its name, when present, is a string. */
  predicate LeafJsonOk(j: Json) {
    j.JObject? && (HasMember(j, "name") ==> Get(j, "name").JString?)
  }

  /** `json["id"].GetUint64()` can be read: the member is present and an unsigned 64-bit integer. */
  predicate HasUintId(j: Json) {
    HasMember(j, "id") && IsUint64(Get(j, "id"))
  }

  /** The same for a control of type `kind`; a named switch's `states` must be an array of such objects. */
  predicate ControlJsonOk(j: Json, kind: ImplType) {
    && LeafJsonOk(j)
    && (kind == Switch && HasMember(j, "name") && HasMember(j, "states") ==>
          Get(j, "states").JArray? && forall k :: 0 <= k < |Get(j, "states").items| ==> LeafJsonOk(Get(j, "states").items[k]))
  }

  /** The failed assertion of `json["id"].GetUint64()`: the control `name` had to be created and its JSON has no usable `id`. */
  datatype LoadError = MissingId(name: string)

  /**
   * The registry only gains controls, a control that is not a placeholder
   * never becomes one, and no control under a valid id is renamed.
   */
  predicate Grows(a: Registry, b: Registry) {
    && a.controls.Keys <= b.controls.Keys
    && a.connections == b.connections
    && a.localizationFolder == b.localizationFolder
    && (forall k :: k in a.controls && !a.controls[k].placeholder ==> !b.controls[k].placeholder)
    && (forall k :: k in a.controls && k != InvalidCid ==> b.controls[k].name == a.controls[k].name)
  }

  /** The name a control is registered with: a sound bank's name gets the bank file extension. */
  function ControlName(name: string, kind: ImplType): (r: string)
    ensures kind == SoundBank ==> StartsWith(r, name) && EndsWith(r, SoundBankFileExtension) && |r| == |name| + |SoundBankFileExtension|
    ensures kind != SoundBank ==> r == name
  {
    if kind == SoundBank then name + SoundBankFileExtension else name
  }

  function SetPlaceholder(reg: Registry, key: Cid, value: bool): (r: Registry)
    requires key in reg.controls
    ensures r.controls == reg.controls[key := reg.controls[key].(placeholder := value)]
    ensures r.rootChildren == reg.rootChildren && r.connections == reg.connections && r.localizationFolder == reg.localizationFolder
  {
    reg.(controls := reg.controls[key := reg.controls[key].(placeholder := value)])
  }

  function SetAmplitudeId(reg: Registry, key: Cid, id: nat): (r: Registry)
    requires key in reg.controls
    ensures r.controls == reg.controls[key := reg.controls[key].(amplitudeId := id)]
    ensures r.rootChildren == reg.rootChildren && r.connections == reg.connections && r.localizationFolder == reg.localizationFolder
  {
    reg.(controls := reg.controls[key := reg.controls[key].(amplitudeId := id)])
  }

  /** A control differs between two registries, or is new in the second. */
  predicate Touched(a: Registry, b: Registry, k: Cid)
    requires k in b.controls
  {
    k !in a.controls || b.controls[k] != a.controls[k]
  }

  /** The id a named control of type `kind` is looked up under when it has no parent: the hash of its bare name. */
  function OwnId(naming: Naming, j: Json, kind: ImplType): Cid
    requires LeafJsonOk(j) && HasMember(j, "name")
  {
    naming.getId(ControlName(Get(j, "name").s, kind))
  }

  /**
   * The create branch of LoadControl: CreateControl, then the Amplitude id
   * read from the JSON, then the placeholder flag cleared.
   */
  function CreateWithId(reg: Registry, naming: Naming, name: string, kind: ImplType, parent: Option<Cid>, id: nat): (r: (Registry, Cid))
    requires LiveParent(reg, parent)
    ensures Grows(reg, r.0)
    ensures r.1 in r.0.controls && !r.0.controls[r.1].placeholder && r.0.controls[r.1].amplitudeId == id
    ensures var def := ControlDef(name, kind, false, parent, "");
      && r.1 == naming.getId(FullName(reg, naming, def))
      && (GetControl(reg, r.1).None? ==> r.0.controls[r.1] == NewControl(def, r.1).(amplitudeId := id))
    ensures parent.None? ==> forall k :: k in r.0.controls && Touched(reg, r.0, k) ==> k == r.1
  {
    var (reg1, created) := CreateControl(reg, naming, ControlDef(name, kind, false, parent, ""));
    var reg2 := SetAmplitudeId(reg1, created, id);
    (SetPlaceholder(reg2, created, false), created)
  }

  /**
   * LoadControl for one object, without the states of a switch: looks the
   * control up by its bare name (`GetControlByName` with no parent), creates
   * it under `parent` and gives it the JSON id when the lookup fails, then
   * clears its placeholder flag. Only the created control reads `id`.
   */
  function LoadSingle(reg: Registry, naming: Naming, j: Json, kind: ImplType, parent: Option<Cid>): (r: Outcome<(Registry, Option<Cid>), LoadError>)
    requires LiveParent(reg, parent) && LeafJsonOk(j)
    ensures r.Failure? <==> HasMember(j, "name") && GetControl(reg, OwnId(naming, j, kind)).None? && !HasUintId(j)
    ensures r.Failure? ==> r.error == MissingId(ControlName(Get(j, "name").s, kind))
    ensures !HasMember(j, "name") ==> r == Success((reg, None))
    ensures r.Success? ==> Grows(reg, r.value.0)
    ensures r.Success? && HasMember(j, "name") ==> r.value.1.Some?
    ensures r.Success? && r.value.1.Some? ==> r.value.1.value in r.value.0.controls && !r.value.0.controls[r.value.1.value].placeholder
    ensures r.Success? && parent.None? ==> forall k :: k in r.value.0.controls && Touched(reg, r.value.0, k) ==> r.value.1 == Some(k)
    ensures r.Success? && HasMember(j, "name") ==>
      var name := ControlName(Get(j, "name").s, kind);
      var id := naming.getId(name);
      && (GetControl(reg, id).Some? ==>
            r.value.1 == Some(id) && r.value.0.controls == reg.controls[id := reg.controls[id].(placeholder := false)])
      && (GetControl(reg, id).None? ==>
            var def := ControlDef(name, kind, false, parent, "");
            var created := naming.getId(FullName(reg, naming, def));
            && r.value.1 == Some(created)
            && r.value.0.controls[created].amplitudeId == Get(j, "id").n
            && (GetControl(reg, created).None? ==>
                  r.value.0.controls[created] == NewControl(def, created).(amplitudeId := Get(j, "id").n)))
  {
    if !HasMember(j, "name") then Success((reg, None))
    else
      var name := ControlName(Get(j, "name").s, kind);
      assert LookupName(reg, naming, name, false, None) == name;
      match GetControlByName(reg, naming, name, false, None)
      case Some(_) =>
        var id := naming.getId(name);
        Success((SetPlaceholder(reg, id, false), Some(id)))
      case None =>
        if !HasUintId(j) then Failure(MissingId(name))
        else
          var (reg1, created) := CreateWithId(reg, naming, name, kind, parent, Get(j, "id").n);
          Success((reg1, Some(created)))
  }

  /**
   * The states of a switch as LoadControl loads them: each through
   * LoadControl itself, so looked up by its bare name.
   */
  function LoadStatesAsWritten(reg: Registry, naming: Naming, states: seq<Json>, switch: Cid): (r: Outcome<Registry, LoadError>)
    requires switch in reg.controls
    requires forall k :: 0 <= k < |states| ==> LeafJsonOk(states[k])
    ensures r.Success? ==> Grows(reg, r.value) && switch in r.value.controls
    decreases |states|
  {
    if |states| == 0 then Success(reg)
    else
      var first :- LoadSingle(reg, naming, states[0], SwitchState, Some(switch));
      LoadStatesAsWritten(first.0, naming, states[1..], switch)
  }

  /**
   * LoadControl as written: nothing without a name; otherwise the control
   * (looked up or created), no longer a placeholder, and for a switch its
   * states, each looked up by its bare name.
   */
  function LoadControlAsWritten(reg: Registry, naming: Naming, j: Json, kind: ImplType, parent: Option<Cid>): (r: Outcome<(Registry, Option<Cid>), LoadError>)
    requires LiveParent(reg, parent) && ControlJsonOk(j, kind)
    ensures !HasMember(j, "name") ==> r == Success((reg, None))
    ensures LoadSingle(reg, naming, j, kind, parent).Failure? ==> r == LoadSingle(reg, naming, j, kind, parent)
    ensures kind != Switch ==> r == LoadSingle(reg, naming, j, kind, parent)
    ensures r.Success? ==> Grows(reg, r.value.0)
    ensures r.Success? && HasMember(j, "name") ==> r.value.1 == LoadSingle(reg, naming, j, kind, parent).value.1
    ensures r.Success? && r.value.1.Some? ==> r.value.1.value in r.value.0.controls && !r.value.0.controls[r.value.1.value].placeholder
  {
    var first :- LoadSingle(reg, naming, j, kind, parent);
    var (reg1, control) := first;
    if control.Some? && kind == Switch && HasMember(j, "states") then
      var reg2 :- LoadStatesAsWritten(reg1, naming, Get(j, "states").items, control.value);
      Success((reg2, control))
    else
      Success((reg1, control))
  }

  /**
   * A switch state loaded with the lookup GetControlByName(name, false,
   * parent): the name is joined to the switch's before hashing, as
   * CreateControl does.
   */
  function LoadStateUnderSwitch(reg: Registry, naming: Naming, j: Json, switch: Cid): (r: Outcome<(Registry, Option<Cid>), LoadError>)
    requires switch in reg.controls && LeafJsonOk(j)
    ensures r.Failure? <==>
      HasMember(j, "name") && GetControl(reg, naming.getId(naming.join(reg.controls[switch].name, Get(j, "name").s))).None? && !HasUintId(j)
    ensures r.Failure? ==> r.error == MissingId(Get(j, "name").s)
    ensures !HasMember(j, "name") ==> r == Success((reg, None))
    ensures r.Success? ==> Grows(reg, r.value.0)
    ensures r.Success? && HasMember(j, "name") ==>
      && r.value.1 == Some(naming.getId(naming.join(reg.controls[switch].name, Get(j, "name").s)))
      && r.value.1.value in r.value.0.controls && !r.value.0.controls[r.value.1.value].placeholder
    ensures r.Success? && r.value.1.Some? && GetControl(reg, r.value.1.value).None? ==>
      r.value.0.controls[r.value.1.value].parent == ParentControl(switch) && r.value.0.controls[r.value.1.value].kind == SwitchState
  {
    if !HasMember(j, "name") then Success((reg, None))
    else
      var name := Get(j, "name").s;
      match GetControlByName(reg, naming, name, false, Some(switch))
      case Some(_) =>
        var id := naming.getId(LookupName(reg, naming, name, false, Some(switch)));
        Success((SetPlaceholder(reg, id, false), Some(id)))
      case None =>
        if !HasUintId(j) then Failure(MissingId(name))
        else
          var (reg1, created) := CreateWithId(reg, naming, name, SwitchState, Some(switch), Get(j, "id").n);
          Success((reg1, Some(created)))
  }

  /** The id a state of `switch` is registered under: the hash of the switch-qualified name. */
  function StateId(reg: Registry, naming: Naming, switch: Cid, state: Json): Cid
    requires switch in reg.controls && LeafJsonOk(state) && HasMember(state, "name")
  {
    naming.getId(naming.join(reg.controls[switch].name, Get(state, "name").s))
  }

  /** The states of a switch, each looked up and created under the switch. */
  function LoadStates(reg: Registry, naming: Naming, states: seq<Json>, switch: Cid): (r: Outcome<Registry, LoadError>)
    requires switch in reg.controls
    requires forall k :: 0 <= k < |states| ==> LeafJsonOk(states[k])
    ensures r.Success? ==> Grows(reg, r.value) && switch in r.value.controls
    ensures r.Success? && switch != InvalidCid ==>
      forall k :: 0 <= k < |states| && HasMember(states[k], "name") ==> StateId(reg, naming, switch, states[k]) in r.value.controls
    decreases |states|
  {
    if |states| == 0 then Success(reg)
    else
      var first :- LoadStateUnderSwitch(reg, naming, states[0], switch);
      var reg1 := first.0;
      var rest :- LoadStates(reg1, naming, states[1..], switch);
      assert switch != InvalidCid ==>
        forall k :: 0 <= k < |states| && HasMember(states[k], "name") ==> StateId(reg, naming, switch, states[k]) in rest.controls
      by {
        if switch != InvalidCid {
          assert reg1.controls[switch].name == reg.controls[switch].name;
          forall k | 0 <= k < |states| && HasMember(states[k], "name")
            ensures StateId(reg, naming, switch, states[k]) in rest.controls
          {
            if k == 0 {
              assert first.1 == Some(StateId(reg, naming, switch, states[0]));
            } else {
              assert states[k] == states[1..][k - 1];
              assert StateId(reg1, naming, switch, states[k]) == StateId(reg, naming, switch, states[k]);
            }
          }
        }
      }
      Success(rest)
  }

  /**
   * LoadControl: nothing without a name; otherwise the control (looked up
   * or created), no longer a placeholder, and for a switch each named state
   * registered under the switch-qualified name.
   */
  function LoadControl(reg: Registry, naming: Naming, j: Json, kind: ImplType, parent: Option<Cid>): (r: Outcome<(Registry, Option<Cid>), LoadError>)
    requires LiveParent(reg, parent) && ControlJsonOk(j, kind)
    ensures !HasMember(j, "name") ==> r == Success((reg, None))
    ensures LoadSingle(reg, naming, j, kind, parent).Failure? ==> r == LoadSingle(reg, naming, j, kind, parent)
    ensures kind != Switch ==> r == LoadSingle(reg, naming, j, kind, parent)
    ensures r.Success? ==> Grows(reg, r.value.0)
    ensures r.Success? && HasMember(j, "name") ==> r.value.1 == LoadSingle(reg, naming, j, kind, parent).value.1
    ensures r.Success? && r.value.1.Some? ==> r.value.1.value in r.value.0.controls && !r.value.0.controls[r.value.1.value].placeholder
    ensures r.Success? && r.value.1.Some? && r.value.1.value != InvalidCid && kind == Switch && HasMember(j, "states") ==>
      var states := Get(j, "states").items;
      forall k :: 0 <= k < |states| && HasMember(states[k], "name") ==>
        naming.getId(naming.join(r.value.0.controls[r.value.1.value].name, Get(states[k], "name").s)) in r.value.0.controls
  {
    var first :- LoadSingle(reg, naming, j, kind, parent);
    var (reg1, control) := first;
    if control.Some? && kind == Switch && HasMember(j, "states") then
      var reg2 :- LoadStates(reg1, naming, Get(j, "states").items, control.value);
      Success((reg2, control))
    else
      Success((reg1, control))
  }

  /**
   * A control found by name is reused whether or not its JSON has an `id`,
   * and keeps the Amplitude id it has; only a control the lookup did not
   * find is given the JSON id.
   */
  lemma ReusedControlKeepsAmplitudeId(reg: Registry, naming: Naming, j: Json, kind: ImplType, parent: Option<Cid>)
    requires LiveParent(reg, parent) && ControlJsonOk(j, kind) && kind != Switch
    requires HasMember(j, "name")
    requires GetControl(reg, OwnId(naming, j, kind)).Some?
    ensures var id := OwnId(naming, j, kind);
      var r := LoadControl(reg, naming, j, kind, parent);
      && r.Success?
      && r.value.1 == Some(id)
      && r.value.0.controls[id].amplitudeId == reg.controls[id].amplitudeId
      && r.value.0.controls.Keys == reg.controls.Keys
  {
  }

  // ---------------------------------------------------------------------
  // Files and folders
  // ---------------------------------------------------------------------

  /** What opening, reading and parsing one file yields. */
  datatype FileRead = Unopenable | ShortRead | Parsed(document: Option<Json>)

  /** What `FindFilesInPath` lists in a folder: files and sub-folders. */
  datatype Entry = FileEntry(file: FileRead) | Folder(entries: seq<Entry>)

  /** Every document in the folder tree is a well-formed control of type `kind`. */
  predicate EntriesOk(entries: seq<Entry>, kind: ImplType)
    decreases entries
  {
    forall k :: 0 <= k < |entries| ==> EntryOk(entries[k], kind)
  }

  predicate EntryOk(e: Entry, kind: ImplType)
    decreases e
  {
    match e
    case FileEntry(Parsed(Some(j))) => ControlJsonOk(j, kind)
    case FileEntry(_) => true
    case Folder(entries) => EntriesOk(entries, kind)
  }

  /**
   * LoadControlsInFolder: sub-folders are loaded recursively; a file that
   * cannot be opened or read in full ends the loading of its folder (the
   * enclosing folder goes on); a document that does not parse is skipped.
   */
  function LoadControlsInFolder(reg: Registry, naming: Naming, entries: seq<Entry>, kind: ImplType): (r: Outcome<Registry, LoadError>)
    requires EntriesOk(entries, kind)
    ensures r.Success? ==> Grows(reg, r.value)
    decreases entries
  {
    if |entries| == 0 then Success(reg)
    else
      assert EntryOk(entries[0], kind);
      assert EntriesOk(entries[1..], kind) by {
        forall k | 0 <= k < |entries[1..]|
          ensures EntryOk(entries[1..][k], kind)
        {
          assert entries[1..][k] == entries[k + 1];
        }
      }
      match entries[0]
      case Folder(sub) =>
        var reg1 :- LoadControlsInFolder(reg, naming, sub, kind);
        LoadControlsInFolder(reg1, naming, entries[1..], kind)
      case FileEntry(Unopenable) => Success(reg)
      case FileEntry(ShortRead) => Success(reg)
      case FileEntry(Parsed(None)) => LoadControlsInFolder(reg, naming, entries[1..], kind)
      case FileEntry(Parsed(Some(j))) =>
        var first :- LoadControlAsWritten(reg, naming, j, kind, None);
        LoadControlsInFolder(first.0, naming, entries[1..], kind)
  }

  /** The state lookup is the only difference: for every other kind both loads are LoadSingle. */
  lemma CorrectionOnlyAffectsSwitches(reg: Registry, naming: Naming, j: Json, kind: ImplType, parent: Option<Cid>)
    requires LiveParent(reg, parent) && ControlJsonOk(j, kind) && kind != Switch
    ensures LoadControlAsWritten(reg, naming, j, kind, parent) == LoadControl(reg, naming, j, kind, parent)
  {
  }

  /**
   * A named control loaded at the root is registered under the id of its
   * own name, and is no longer a placeholder; the load fails exactly when
   * the control is new and its JSON has no usable `id`, or a state fails.
   */
  lemma LoadedUnderOwnName(reg: Registry, naming: Naming, j: Json, kind: ImplType)
    requires ControlJsonOk(j, kind) && HasMember(j, "name")
    ensures GetControl(reg, OwnId(naming, j, kind)).None? && !HasUintId(j) ==>
      LoadControlAsWritten(reg, naming, j, kind, None) == Failure(MissingId(ControlName(Get(j, "name").s, kind)))
    ensures var id := OwnId(naming, j, kind);
      var r := LoadControlAsWritten(reg, naming, j, kind, None);
      r.Success? ==> r.value.1 == Some(id) && id in r.value.0.controls && !r.value.0.controls[id].placeholder
  {
    var name := ControlName(Get(j, "name").s, kind);
    assert FullName(reg, naming, ControlDef(name, kind, false, None, "")) == name;
    assert LookupName(reg, naming, name, false, None) == name;
  }

  /** A file that cannot be opened, or cannot be read in full. */
  predicate Unreadable(e: Entry) {
    e == FileEntry(Unopenable) || e == FileEntry(ShortRead)
  }

  /** Entry `i` is a parsed document with a name. */
  predicate NamedFileAt(entries: seq<Entry>, i: nat) {
    && i < |entries| && entries[i].FileEntry? && entries[i].file.Parsed?
    && entries[i].file.document.Some? && HasMember(entries[i].file.document.value, "name")
  }

  /** The id a named document at the root of a `kind` folder is registered under. */
  function FileControlId(naming: Naming, entries: seq<Entry>, i: nat, kind: ImplType): Cid
    requires NamedFileAt(entries, i) && EntriesOk(entries, kind)
  {
    assert EntryOk(entries[i], kind);
    OwnId(naming, entries[i].file.document.value, kind)
  }

  lemma EntriesTail(entries: seq<Entry>, kind: ImplType)
    requires |entries| > 0 && EntriesOk(entries, kind)
    ensures EntryOk(entries[0], kind) && EntriesOk(entries[1..], kind)
  {
    forall k | 0 <= k < |entries[1..]|
      ensures EntryOk(entries[1..][k], kind)
    {
      assert entries[1..][k] == entries[k + 1];
    }
  }

  /**
   * Every named document of a folder that comes before any unreadable file
   * is registered by a folder load that succeeds, and is not a placeholder
   * afterwards.
   */
  lemma {:induction false} FolderLoadsNamedFile(reg: Registry, naming: Naming, entries: seq<Entry>, kind: ImplType, i: nat)
    requires EntriesOk(entries, kind) && NamedFileAt(entries, i)
    requires forall k :: 0 <= k < i ==> !Unreadable(entries[k])
    ensures var r := LoadControlsInFolder(reg, naming, entries, kind);
      r.Success? ==> FileControlId(naming, entries, i, kind) in r.value.controls && !r.value.controls[FileControlId(naming, entries, i, kind)].placeholder
    decreases i
  {
    EntriesTail(entries, kind);
    var id := FileControlId(naming, entries, i, kind);
    if i == 0 {
      var j := entries[0].file.document.value;
      LoadedUnderOwnName(reg, naming, j, kind);
    } else {
      assert entries[1..][i - 1] == entries[i];
      assert NamedFileAt(entries[1..], i - 1);
      assert FileControlId(naming, entries[1..], i - 1, kind) == id;
      forall k | 0 <= k < i - 1
        ensures !Unreadable(entries[1..][k])
      {
        assert entries[1..][k] == entries[k + 1];
      }
      assert !Unreadable(entries[0]);
      match entries[0]
      case Folder(sub) =>
        var s := LoadControlsInFolder(reg, naming, sub, kind);
        if s.Success? {
          FolderLoadsNamedFile(s.value, naming, entries[1..], kind, i - 1);
        }
      case FileEntry(Parsed(None)) =>
        FolderLoadsNamedFile(reg, naming, entries[1..], kind, i - 1);
      case FileEntry(Parsed(Some(j))) =>
        var s := LoadControlAsWritten(reg, naming, j, kind, None);
        if s.Success? {
          FolderLoadsNamedFile(s.value.0, naming, entries[1..], kind, i - 1);
        }
    }
  }

  /** A file that cannot be opened or read ends its folder: nothing after it is loaded. */
  lemma {:induction false} FolderStopsAtUnreadable(reg: Registry, naming: Naming, entries: seq<Entry>, kind: ImplType, i: nat)
    requires EntriesOk(entries, kind)
    requires i < |entries| && Unreadable(entries[i])
    ensures EntriesOk(entries[..i], kind)
    ensures LoadControlsInFolder(reg, naming, entries, kind) == LoadControlsInFolder(reg, naming, entries[..i], kind)
    decreases i
  {
    assert EntriesOk(entries[..i], kind) by {
      forall k | 0 <= k < i
        ensures entries[..i][k] == entries[k]
      {
      }
    }
    if i == 0 {
      assert entries[..i] == [];
    } else {
      EntriesTail(entries, kind);
      assert entries[..i][1..] == entries[1..][..i - 1];
      assert entries[..i][0] == entries[0];
      match entries[0]
      case Folder(sub) =>
        var s := LoadControlsInFolder(reg, naming, sub, kind);
        if s.Success? {
          FolderStopsAtUnreadable(s.value, naming, entries[1..], kind, i - 1);
        }
      case FileEntry(Parsed(None)) =>
        FolderStopsAtUnreadable(reg, naming, entries[1..], kind, i - 1);
      case FileEntry(Parsed(Some(j))) =>
        var s := LoadControlAsWritten(reg, naming, j, kind, None);
        if s.Success? {
          FolderStopsAtUnreadable(s.value.0, naming, entries[1..], kind, i - 1);
        }
      case _ =>
    }
  }

  /**
   * A named document of a new control with no usable `id`, before any
   * unreadable file, ends the whole folder load with its MissingId failure
   * unless an earlier document has already failed.
   */
  lemma {:induction false} FolderFailsOnMissingId(reg: Registry, naming: Naming, entries: seq<Entry>, kind: ImplType)
    requires EntriesOk(entries, kind) && NamedFileAt(entries, 0)
    requires GetControl(reg, FileControlId(naming, entries, 0, kind)).None? && !HasUintId(entries[0].file.document.value)
    ensures LoadControlsInFolder(reg, naming, entries, kind).Failure?
  {
    EntriesTail(entries, kind);
    LoadedUnderOwnName(reg, naming, entries[0].file.document.value, kind);
  }

  // ---------------------------------------------------------------------
  // Sound banks
  // ---------------------------------------------------------------------

  /** Sound-bank documents: objects are loaded, anything else is skipped; a name, when present, must be usable. */
  predicate BankFilesOk(files: seq<FileRead>) {
    forall k :: 0 <= k < |files| && files[k].Parsed? && files[k].document.Some? && files[k].document.value.JObject? ==>
      LeafJsonOk(files[k].document.value)
  }

  /** Every control `b` adds or changes against `a` carries the localized flag `localized`. */
  predicate TouchedAreLocalized(a: Registry, b: Registry, localized: bool) {
    forall k :: k in b.controls && Touched(a, b, k) ==> b.controls[k].localized == localized
  }

  /** One sound-bank object: loaded as a sound bank, then given the localized flag. */
  function LoadBank(reg: Registry, naming: Naming, j: Json, localized: bool): (r: Outcome<Registry, LoadError>)
    requires LeafJsonOk(j)
    ensures r.Failure? <==> LoadSingle(reg, naming, j, SoundBank, None).Failure?
    ensures r.Success? ==> Grows(reg, r.value) && TouchedAreLocalized(reg, r.value, localized)
  {
    var (reg1, control) :- LoadControlAsWritten(reg, naming, j, SoundBank, None);
    if control.Some? then
      Success(reg1.(controls := reg1.controls[control.value := reg1.controls[control.value].(localized := localized)]))
    else Success(reg1)
  }

  /** Two loads that each flag what they touch flag everything touched by both. */
  lemma TouchedCompose(a: Registry, b: Registry, c: Registry, localized: bool)
    requires Grows(a, b) && Grows(b, c)
    requires TouchedAreLocalized(a, b, localized) && TouchedAreLocalized(b, c, localized)
    ensures TouchedAreLocalized(a, c, localized)
  {
    forall k | k in c.controls && Touched(a, c, k)
      ensures c.controls[k].localized == localized
    {
      if !Touched(b, c, k) {
        assert Touched(a, b, k);
      }
    }
  }

  /**
   * LoadSoundBanks: each object document is loaded as a sound bank and
   * given the localized flag; a file that cannot be opened or read in full
   * ends the loading.
   */
  function LoadSoundBanks(reg: Registry, naming: Naming, files: seq<FileRead>, localized: bool): (r: Outcome<Registry, LoadError>)
    requires BankFilesOk(files)
    ensures r.Success? ==> Grows(reg, r.value) && TouchedAreLocalized(reg, r.value, localized)
    decreases |files|
  {
    if |files| == 0 then Success(reg)
    else
      assert BankFilesOk(files[1..]) by {
        forall k | 0 <= k < |files[1..]|
          ensures files[1..][k] == files[k + 1]
        {
        }
      }
      match files[0]
      case Unopenable => Success(reg)
      case ShortRead => Success(reg)
      case Parsed(doc) =>
        if doc.Some? && doc.value.JObject? then
          var reg1 :- LoadBank(reg, naming, doc.value, localized);
          var r :- LoadSoundBanks(reg1, naming, files[1..], localized);
          TouchedCompose(reg, reg1, r, localized);
          Success(r)
        else LoadSoundBanks(reg, naming, files[1..], localized)
  }

  /** A file that cannot be opened or read ends LoadSoundBanks: nothing after it is loaded. */
  lemma {:induction false} SoundBanksStopAtUnreadable(reg: Registry, naming: Naming, files: seq<FileRead>, localized: bool, i: nat)
    requires BankFilesOk(files)
    requires i < |files| && (files[i].Unopenable? || files[i].ShortRead?)
    ensures BankFilesOk(files[..i])
    ensures LoadSoundBanks(reg, naming, files, localized) == LoadSoundBanks(reg, naming, files[..i], localized)
    decreases i
  {
    assert BankFilesOk(files[..i]) by {
      forall k | 0 <= k < i
        ensures files[..i][k] == files[k]
      {
      }
    }
    if i == 0 {
      assert files[..i] == [];
    } else {
      assert BankFilesOk(files[1..]) by {
        forall k | 0 <= k < |files[1..]|
          ensures files[1..][k] == files[k + 1]
        {
        }
      }
      assert files[..i][1..] == files[1..][..i - 1];
      assert files[..i][0] == files[0];
      match files[0]
      case Parsed(doc) =>
        if doc.Some? && doc.value.JObject? {
          var s := LoadBank(reg, naming, doc.value, localized);
          if s.Success? {
            SoundBanksStopAtUnreadable(s.value, naming, files[1..], localized, i - 1);
          }
        } else {
          SoundBanksStopAtUnreadable(reg, naming, files[1..], localized, i - 1);
        }
      case _ =>
    }
  }

  // ---------------------------------------------------------------------
  // Buses
  // ---------------------------------------------------------------------

  /** The buses file: an object whose `buses` member is an array of bus objects. */
  predicate BusFileOk(file: FileRead) {
    file.Parsed? && file.document.Some? ==>
      var j := file.document.value;
      j.JObject? && (HasMember(j, "buses") ==>
        Get(j, "buses").JArray? && forall k :: 0 <= k < |Get(j, "buses").items| ==> LeafJsonOk(Get(j, "buses").items[k]))
  }

  function LoadBusList(reg: Registry, naming: Naming, buses: seq<Json>): (r: Outcome<Registry, LoadError>)
    requires forall k :: 0 <= k < |buses| ==> LeafJsonOk(buses[k])
    ensures r.Success? ==> Grows(reg, r.value)
    decreases |buses|
  {
    if |buses| == 0 then Success(reg)
    else
      var first :- LoadControlAsWritten(reg, naming, buses[0], Bus, None);
      LoadBusList(first.0, naming, buses[1..])
  }

  /** LoadBuses: every entry of the `buses` array is loaded as a bus; any other outcome loads nothing. */
  function LoadBuses(reg: Registry, naming: Naming, file: FileRead): (r: Outcome<Registry, LoadError>)
    requires BusFileOk(file)
    ensures r.Success? ==> Grows(reg, r.value)
    ensures !(file.Parsed? && file.document.Some? && HasMember(file.document.value, "buses")) ==> r == Success(reg)
  {
    match file
    case Parsed(Some(j)) =>
      if HasMember(j, "buses") then LoadBusList(reg, naming, Get(j, "buses").items) else Success(reg)
    case _ => Success(reg)
  }

  /** The id a named bus of the `buses` array is registered under. */
  function BusControlId(naming: Naming, buses: seq<Json>, i: nat): Cid
    requires i < |buses| && LeafJsonOk(buses[i]) && HasMember(buses[i], "name")
  {
    OwnId(naming, buses[i], Bus)
  }

  /** Every named bus of a list that loads is registered under the id of its name, and is not a placeholder afterwards. */
  lemma {:induction false} BusListLoadsNamedBus(reg: Registry, naming: Naming, buses: seq<Json>, i: nat)
    requires forall k :: 0 <= k < |buses| ==> LeafJsonOk(buses[k])
    requires i < |buses| && HasMember(buses[i], "name")
    ensures var r := LoadBusList(reg, naming, buses);
      r.Success? ==> BusControlId(naming, buses, i) in r.value.controls && !r.value.controls[BusControlId(naming, buses, i)].placeholder
    decreases i
  {
    var s := LoadControlAsWritten(reg, naming, buses[0], Bus, None);
    assert forall k :: 0 <= k < |buses[1..]| ==> buses[1..][k] == buses[k + 1];
    if i == 0 {
      LoadedUnderOwnName(reg, naming, buses[0], Bus);
    } else if s.Success? {
      assert buses[1..][i - 1] == buses[i];
      BusListLoadsNamedBus(s.value.0, naming, buses[1..], i - 1);
    }
  }

  /** A readable buses file whose load succeeds registers every named bus of its `buses` array. */
  lemma LoadBusesRegistersBuses(reg: Registry, naming: Naming, file: FileRead, i: nat)
    requires BusFileOk(file) && file.Parsed? && file.document.Some? && HasMember(file.document.value, "buses")
    requires var buses := Get(file.document.value, "buses").items;
      i < |buses| && HasMember(buses[i], "name")
    ensures var buses := Get(file.document.value, "buses").items;
      var r := LoadBuses(reg, naming, file);
      r.Success? ==> BusControlId(naming, buses, i) in r.value.controls && !r.value.controls[BusControlId(naming, buses, i)].placeholder
  {
    BusListLoadsNamedBus(reg, naming, Get(file.document.value, "buses").items, i);
  }

  // ---------------------------------------------------------------------
  // Load and Reload
  // ---------------------------------------------------------------------

  /** The project folders Load reads, in the order it reads them. */
  datatype Project = Project(
    events: seq<Entry>,
    rtpcs: seq<Entry>,
    switches: seq<Entry>,
    effects: seq<Entry>,
    soundBanks: seq<FileRead>,
    buses: FileRead)

  predicate ProjectOk(p: Project) {
    && EntriesOk(p.events, Event)
    && EntriesOk(p.rtpcs, Rtpc)
    && EntriesOk(p.switches, Switch)
    && EntriesOk(p.effects, Effect)
    && BankFilesOk(p.soundBanks)
    && BusFileOk(p.buses)
  }

  /** Load: events, RTPCs, switches, effects, sound banks (not localized), then buses; the first failure ends it. */
  function Load(reg: Registry, naming: Naming, p: Project): (r: Outcome<Registry, LoadError>)
    requires ProjectOk(p)
    ensures r.Success? ==> Grows(reg, r.value)
  {
    var r1 :- LoadControlsInFolder(reg, naming, p.events, Event);
    var r2 :- LoadControlsInFolder(r1, naming, p.rtpcs, Rtpc);
    var r3 :- LoadControlsInFolder(r2, naming, p.switches, Switch);
    var r4 :- LoadControlsInFolder(r3, naming, p.effects, Effect);
    var r5 :- LoadSoundBanks(r4, naming, p.soundBanks, false);
    LoadBuses(r5, naming, p.buses)
  }

  /**
   * Reload (AmplitudeAudioSystemEditor::Reload): every control becomes a
   * placeholder, the project is loaded again, and the connection counts are
   * dropped.
   */
  function Reload(reg: Registry, naming: Naming, p: Project): (r: Outcome<Registry, LoadError>)
    requires ProjectOk(p)
    ensures r.Success? ==> r.value.connections == map[]
    ensures r.Success? ==> reg.controls.Keys <= r.value.controls.Keys
    ensures r.Success? ==> r.value.localizationFolder == reg.localizationFolder
  {
    var marked := reg.(controls := MarkAllPlaceholders(reg.controls));
    var loaded :- Load(marked, naming, p);
    Success(loaded.(connections := map[]))
  }

  /** A project with nothing in it cannot fail, and leaves every control a placeholder after Reload. */
  lemma ReloadEmptyProject(reg: Registry, naming: Naming)
    ensures var p := Project([], [], [], [], [], Unopenable);
      ProjectOk(p) &&
      var r := Reload(reg, naming, p);
      && r.Success?
      && r.value.controls.Keys == reg.controls.Keys
      && forall k :: k in r.value.controls ==> r.value.controls[k] == reg.controls[k].(placeholder := true)
  {
  }

  /**
   * A Load that succeeds registers every named event document of the events
   * folder that comes before any unreadable file, and leaves it no
   * placeholder: the later folders only grow the registry.
   */
  lemma LoadRegistersEventFiles(reg: Registry, naming: Naming, p: Project, i: nat)
    requires ProjectOk(p) && NamedFileAt(p.events, i)
    requires forall k :: 0 <= k < i ==> !Unreadable(p.events[k])
    ensures var r := Load(reg, naming, p);
      r.Success? ==> FileControlId(naming, p.events, i, Event) in r.value.controls && !r.value.controls[FileControlId(naming, p.events, i, Event)].placeholder
  {
    FolderLoadsNamedFile(reg, naming, p.events, Event, i);
  }

  /** The buses are loaded last: after a Load that succeeds every named bus of a readable buses file is registered and no placeholder. */
  lemma LoadRegistersBuses(reg: Registry, naming: Naming, p: Project, i: nat)
    requires ProjectOk(p) && p.buses.Parsed? && p.buses.document.Some? && HasMember(p.buses.document.value, "buses")
    requires var buses := Get(p.buses.document.value, "buses").items;
      i < |buses| && HasMember(buses[i], "name")
    ensures var buses := Get(p.buses.document.value, "buses").items;
      var r := Load(reg, naming, p);
      r.Success? ==> BusControlId(naming, buses, i) in r.value.controls && !r.value.controls[BusControlId(naming, buses, i)].placeholder
  {
    var r := Load(reg, naming, p);
    if r.Success? {
      var r1 := LoadControlsInFolder(reg, naming, p.events, Event).value;
      var r2 := LoadControlsInFolder(r1, naming, p.rtpcs, Rtpc).value;
      var r3 := LoadControlsInFolder(r2, naming, p.switches, Switch).value;
      var r4 := LoadControlsInFolder(r3, naming, p.effects, Effect).value;
      var r5 := LoadSoundBanks(r4, naming, p.soundBanks, false).value;
      LoadBusesRegistersBuses(r5, naming, p.buses, i);
    }
  }

  /**
   * Reload turns every control into a placeholder, then, when the load
   * succeeds, clears the flag of each event the project still defines.
   */
  lemma ReloadRestoresEventFiles(reg: Registry, naming: Naming, p: Project, i: nat)
    requires ProjectOk(p) && NamedFileAt(p.events, i)
    requires forall k :: 0 <= k < i ==> !Unreadable(p.events[k])
    ensures var r := Reload(reg, naming, p);
      r.Success? ==> FileControlId(naming, p.events, i, Event) in r.value.controls && !r.value.controls[FileControlId(naming, p.events, i, Event)].placeholder
  {
    LoadRegistersEventFiles(reg.(controls := MarkAllPlaceholders(reg.controls)), naming, p, i);
  }

  // ---------------------------------------------------------------------
  // Switch states, looked up under their switch
  // ---------------------------------------------------------------------

  /** Loading a state under its switch lands on the control registered for the switch-qualified name whenever it succeeds. */
  lemma StateLookupMatchesCreation(reg: Registry, naming: Naming, j: Json, switch: Cid)
    requires switch in reg.controls && LeafJsonOk(j) && HasMember(j, "name")
    ensures var def := ControlDef(Get(j, "name").s, SwitchState, false, Some(switch), "");
      var r := LoadStateUnderSwitch(reg, naming, j, switch);
      r.Success? ==> r.value.1 == Some(naming.getId(FullName(reg, naming, def)))
  {
  }

  // A worked example: an event "on" and a switch "power" with a state "on".

  function ExampleNaming(): Naming {
    Naming(s => |s| + 1, (a, b) => a + "/" + b)
  }

  function ExampleEvent(): Control {
    Control("on", 3, Event, RootControl, [], false, false, false, 11)
  }

  function ExampleRegistry(): Registry {
    Registry(map[3 := ExampleEvent()], [3], map[], "")
  }

  function ExampleState(): Json {
    JObject([Member("name", JString("on")), Member("id", JNumber(5))])
  }

  function ExampleSwitch(): Json {
    JObject([Member("name", JString("power")), Member("id", JNumber(7)), Member("states", JArray([ExampleState()]))])
  }

  lemma ExampleSwitchWellFormed()
    ensures ControlJsonOk(ExampleSwitch(), Switch) && LeafJsonOk(ExampleState())
    ensures HasMember(ExampleSwitch(), "name") && HasMember(ExampleSwitch(), "states")
    ensures Get(ExampleSwitch(), "states").items == [ExampleState()]
    ensures HasUintId(ExampleSwitch()) && HasUintId(ExampleState())
  {
    var s := ExampleSwitch();
    assert FindMember(s.members, "name") == Some(JString("power"));
    assert FindMember(s.members, "id") == Some(JNumber(7));
    assert FindMember(s.members, "states") == Some(JArray([ExampleState()]));
    var st := ExampleState();
    assert FindMember(st.members, "name") == Some(JString("on"));
    assert FindMember(st.members, "id") == Some(JNumber(5));
  }

  /** Loading the switch "power" alone creates it as a top-level control under id 6. */
  lemma ExampleSwitchLoads()
    ensures (ExampleSwitchWellFormed();
      var loaded := LoadSingle(ExampleRegistry(), ExampleNaming(), ExampleSwitch(), Switch, None);
      && loaded.Success?
      && loaded.value.1 == Some(6)
      && loaded.value.0.controls.Keys == {3, 6}
      && loaded.value.0.controls[6].name == "power"
      && loaded.value.0.controls[3] == ExampleEvent())
  {
    ExampleSwitchWellFormed();
    var reg := ExampleRegistry();
    var naming := ExampleNaming();
    var sw := ExampleSwitch();
    assert FindMember(sw.members, "name") == Some(JString("power"));
    assert naming.getId("power") == 6;
    assert GetControl(reg, 6).None?;
    assert FullName(reg, naming, ControlDef("power", Switch, false, None, "")) == "power";
  }

  /** Looked up by its bare name, the state "on" finds the event under id 3 and creates nothing. */
  lemma ExampleStateFindsEvent(reg: Registry)
    requires reg.controls.Keys == {3, 6}
    ensures (ExampleSwitchWellFormed();
      var r := LoadSingle(reg, ExampleNaming(), ExampleState(), SwitchState, Some(6));
      r.Success? && r.value.1 == Some(3) && r.value.0.controls.Keys == {3, 6})
  {
    ExampleSwitchWellFormed();
    var st := ExampleState();
    assert FindMember(st.members, "name") == Some(JString("on"));
    assert ExampleNaming().getId("on") == 3;
    assert GetControl(reg, 3).Some?;
  }

  /** Looked up under the switch "power", the state "on" is created under id 9 as a child of the switch. */
  lemma ExampleStateCreated(reg: Registry)
    requires reg.controls.Keys == {3, 6} && reg.controls[6].name == "power"
    ensures (ExampleSwitchWellFormed();
      var r := LoadStateUnderSwitch(reg, ExampleNaming(), ExampleState(), 6);
      && r.Success?
      && r.value.1 == Some(9)
      && r.value.0.controls[9].parent == ParentControl(6)
      && r.value.0.controls[9].kind == SwitchState)
  {
    ExampleSwitchWellFormed();
    var st := ExampleState();
    assert FindMember(st.members, "name") == Some(JString("on"));
    assert ExampleNaming().join("power", "on") == "power/on";
    assert ExampleNaming().getId("power/on") == 9;
    assert GetControl(reg, 9).None?;
  }

  /** One state, as written: the state's own load, with the switch as parent. */
  lemma OneStateAsWritten(reg: Registry, naming: Naming, st: Json, switch: Cid)
    requires switch in reg.controls && LeafJsonOk(st)
    ensures var s := LoadSingle(reg, naming, st, SwitchState, Some(switch));
      LoadStatesAsWritten(reg, naming, [st], switch) == if s.Success? then Success(s.value.0) else Failure(s.error)
  {
    assert [st][0] == st && [st][1..] == [];
  }

  /** One state, looked up under its switch. */
  lemma OneState(reg: Registry, naming: Naming, st: Json, switch: Cid)
    requires switch in reg.controls && LeafJsonOk(st)
    ensures var s := LoadStateUnderSwitch(reg, naming, st, switch);
      LoadStates(reg, naming, [st], switch) == if s.Success? then Success(s.value.0) else Failure(s.error)
  {
    assert [st][0] == st && [st][1..] == [];
  }

  /** A named switch with exactly one state, loaded as written: the switch, then the state by its bare name. */
  lemma SwitchWithOneStateAsWritten(reg: Registry, naming: Naming, j: Json, st: Json)
    requires ControlJsonOk(j, Switch) && HasMember(j, "name") && HasMember(j, "states") && Get(j, "states").items == [st]
    requires LoadSingle(reg, naming, j, Switch, None).Success?
    ensures var first := LoadSingle(reg, naming, j, Switch, None).value;
      first.1.Some? && LeafJsonOk(st) && first.1.value in first.0.controls &&
      var s := LoadSingle(first.0, naming, st, SwitchState, first.1);
      LoadControlAsWritten(reg, naming, j, Switch, None) == if s.Success? then Success((s.value.0, first.1)) else Failure(s.error)
  {
    assert Get(j, "states").items[0] == st;
    var first := LoadSingle(reg, naming, j, Switch, None).value;
    OneStateAsWritten(first.0, naming, st, first.1.value);
    var t := LoadStatesAsWritten(first.0, naming, Get(j, "states").items, first.1.value);
    assert LoadControlAsWritten(reg, naming, j, Switch, None) == if t.Success? then Success((t.value, first.1)) else Failure(t.error);
  }

  /** The same switch loaded with the state looked up under it. */
  lemma SwitchWithOneState(reg: Registry, naming: Naming, j: Json, st: Json)
    requires ControlJsonOk(j, Switch) && HasMember(j, "name") && HasMember(j, "states") && Get(j, "states").items == [st]
    requires LoadSingle(reg, naming, j, Switch, None).Success?
    ensures var first := LoadSingle(reg, naming, j, Switch, None).value;
      first.1.Some? && LeafJsonOk(st) && first.1.value in first.0.controls &&
      var s := LoadStateUnderSwitch(first.0, naming, st, first.1.value);
      LoadControl(reg, naming, j, Switch, None) == if s.Success? then Success((s.value.0, first.1)) else Failure(s.error)
  {
    assert Get(j, "states").items[0] == st;
    var first := LoadSingle(reg, naming, j, Switch, None).value;
    OneState(first.0, naming, st, first.1.value);
    var t := LoadStates(first.0, naming, Get(j, "states").items, first.1.value);
    assert LoadControl(reg, naming, j, Switch, None) == if t.Success? then Success((t.value, first.1)) else Failure(t.error);
  }

  /**
   * With an event named "on" registered, loading the switch "power" with the
   * state "on" finds the event instead of creating "power/on": no control
   * is registered under the state's own id.
   */
  lemma StateFoundByBareName()
    ensures (ExampleSwitchWellFormed();
      var r := LoadControlAsWritten(ExampleRegistry(), ExampleNaming(), ExampleSwitch(), Switch, None);
      && r.Success?
      && r.value.1 == Some(6)
      && r.value.0.controls.Keys == {3, 6}
      && 9 !in r.value.0.controls)
  {
    ExampleSwitchWellFormed();
    ExampleSwitchLoads();
    BareNameStep(ExampleRegistry(), ExampleNaming(), ExampleSwitch(), ExampleState());
  }

  /** The example's last step, over the registry after the switch is loaded. */
  lemma BareNameStep(reg: Registry, naming: Naming, sw: Json, st: Json)
    requires naming == ExampleNaming() && st == ExampleState()
    requires ControlJsonOk(sw, Switch) && HasMember(sw, "name") && HasMember(sw, "states") && Get(sw, "states").items == [st]
    requires LoadSingle(reg, naming, sw, Switch, None).Success?
    requires LoadSingle(reg, naming, sw, Switch, None).value.1 == Some(6)
    requires LoadSingle(reg, naming, sw, Switch, None).value.0.controls.Keys == {3, 6}
    ensures var r := LoadControlAsWritten(reg, naming, sw, Switch, None);
      r.Success? && r.value.1 == Some(6) && r.value.0.controls.Keys == {3, 6} && 9 !in r.value.0.controls
  {
    SwitchWithOneStateAsWritten(reg, naming, sw, st);
    var first := LoadSingle(reg, naming, sw, Switch, None).value;
    ExampleStateFindsEvent(first.0);
    var s := LoadSingle(first.0, naming, st, SwitchState, first.1);
    assert s.Success? && s.value.0.controls.Keys == {3, 6};
    assert 9 !in s.value.0.controls.Keys;
    assert LoadControlAsWritten(reg, naming, sw, Switch, None) == Success((s.value.0, first.1));
  }

  /** Looked up under the switch, the same state is created as "power/on", a child of the switch. */
  lemma StateCreatedUnderSwitch()
    ensures (ExampleSwitchWellFormed();
      var r := LoadControl(ExampleRegistry(), ExampleNaming(), ExampleSwitch(), Switch, None);
      && r.Success?
      && r.value.1 == Some(6)
      && 9 in r.value.0.controls
      && r.value.0.controls[9].parent == ParentControl(6)
      && r.value.0.controls[9].kind == SwitchState)
  {
    ExampleSwitchWellFormed();
    ExampleSwitchLoads();
    var sw := ExampleSwitch();
    SwitchWithOneState(ExampleRegistry(), ExampleNaming(), sw, ExampleState());
    ExampleStateCreated(LoadSingle(ExampleRegistry(), ExampleNaming(), sw, Switch, None).value.0);
  }
}

=== FILE: audio_system.dfy ===
/**
 * The runtime side of the Amplitude implementation (AmplitudeAudioSystem.cpp):
 * the trigger/event life cycle over `SATLEventData_Amplitude`, audio-object
 * and listener bookkeeping, file-entry parsing and the sound-bank folders.
 *
 * The Amplitude engine is an input: whether it knows an event and the
 * canceler it returns when the event is triggered on an entity. A null
 * pointer argument is `None`.
 */
module AudioSystem {
  import opened Outcomes
  import opened Strings
  import opened Xml
  import opened Config
  import opened AtlEntities

  // ---------------------------------------------------------------------
  // System state
  // ---------------------------------------------------------------------

  /** The members of AmplitudeAudioSystem the modelled operations read and write. */
  datatype SystemState = SystemState(
    globalObjectId: nat,
    defaultListenerId: nat,
    soundbankFolder: string,
    localizedSoundbankFolder: string)

  /**
   * The constructor: the global object id, no default listener, and the
   * bank folders set by SetBankPaths (the host's path join with an empty
   * component is `joinEmpty`): both the default banks path, ending in the
   * separator.
   */
  function NewSystem(joinEmpty: string -> string): (r: SystemState)
    ensures r.globalObjectId == GlobalAudioObjectId && r.defaultListenerId == InvalidObjectId
    ensures r.soundbankFolder == r.localizedSoundbankFolder
    ensures EndsWith(r.soundbankFolder, [DatabaseSeparator])
    ensures var joined := joinEmpty(DefaultBanksPath);
      EndsWith(joined, [DatabaseSeparator]) ==> r.soundbankFolder == joined
    ensures var joined := joinEmpty(DefaultBanksPath);
      !EndsWith(joined, [DatabaseSeparator]) ==> r.soundbankFolder == joined + [DatabaseSeparator]
  {
    SetBankPaths(SystemState(GlobalAudioObjectId, InvalidObjectId, "", ""), joinEmpty)
  }

  /** What the Amplitude engine answers: whether an event id is loaded, and the canceler Trigger returns. */
  datatype Engine = Engine(hasEvent: nat -> bool, trigger: (nat, nat) -> Canceler)

  // ---------------------------------------------------------------------
  // Asset type
  // ---------------------------------------------------------------------

  /** The host's `EAudioCodecType`. */
  datatype CodecType = CodecPcm | CodecAdpcm | CodecStreamPcm

  datatype SourceData = SourceData(codec: CodecType)

  datatype AssetType = AssetNone | AssetSource | AssetStream

  /** GetAssetType: no source is NONE, a PCM stream is STREAM, any other source is SOURCE. */
  function GetAssetType(source: Option<SourceData>): (r: AssetType)
    ensures r == AssetNone <==> source.None?
    ensures r == AssetStream <==> source.Some? && source.value.codec == CodecStreamPcm
    ensures r == AssetSource <==> source.Some? && source.value.codec != CodecStreamPcm
  {
    match source
    case None => AssetNone
    case Some(s) => if s.codec == CodecStreamPcm then AssetStream else AssetSource
  }

  // ---------------------------------------------------------------------
  // Trigger/event life cycle
  // ---------------------------------------------------------------------

  /** The entity a trigger plays on: the object's own when it has a position, the global one otherwise. */
  function TargetEntity(sys: SystemState, obj: AudioObjectData): (r: nat)
    ensures obj.hasPosition ==> r == obj.amId
    ensures !obj.hasPosition ==> r == sys.globalObjectId
  {
    if obj.hasPosition then obj.amId else sys.globalObjectId
  }

  /** The activation outcome and the event record afterwards (`None` when none was passed). */
  datatype Activation = Activation(status: RequestStatus, event: Option<EventData>)

  /**
   * ActivateTrigger: plays the trigger's event on the target entity. Only
   * when every record is present, the source is not a SOURCE asset, the
   * engine knows the event and the canceler it returns is valid does the
   * event become PLAYING, keeping that canceler.
   */
  function ActivateTrigger(sys: SystemState, engine: Engine, obj: Option<AudioObjectData>, trig: Option<TriggerImplData>,
                           event: Option<EventData>, source: Option<SourceData>): (r: Activation)
    ensures r.status == RequestSuccess <==>
      && obj.Some? && trig.Some? && event.Some?
      && GetAssetType(source) != AssetSource
      && engine.hasEvent(trig.value.amId)
      && engine.trigger(trig.value.amId, TargetEntity(sys, obj.value)).valid
    ensures r.status == RequestSuccess ==>
      r.event == Some(event.value.(state := StatePlaying, canceler := engine.trigger(trig.value.amId, TargetEntity(sys, obj.value))))
    ensures r.status == RequestFailure ==> r.event == event
  {
    if obj.Some? && trig.Some? && event.Some? then
      var entity := TargetEntity(sys, obj.value);
      match GetAssetType(source)
      case AssetSource => Activation(RequestFailure, event)
      case _ =>
        if engine.hasEvent(trig.value.amId) then
          var canceler := engine.trigger(trig.value.amId, entity);
          if canceler.valid then
            Activation(RequestSuccess, Some(event.value.(state := StatePlaying, canceler := canceler)))
          else Activation(RequestFailure, event)
        else Activation(RequestFailure, event)
    else Activation(RequestFailure, event)
  }

  /** The outcome of StopEvent and whether it cancelled the running event. */
  datatype Stop = Stop(status: RequestStatus, cancelled: bool)

  /**
   * StopEvent: cancels a PLAYING event with a valid canceler. The event
   * record is read only: its state is not changed.
   */
  function StopEvent(event: Option<EventData>): (r: Stop)
    ensures r.status == RequestSuccess <==> event.Some? && event.value.state == StatePlaying && event.value.canceler.valid
    ensures r.cancelled <==> r.status == RequestSuccess
  {
    match event
    case None => Stop(RequestFailure, false)
    case Some(e) =>
      match e.state
      case StatePlaying => if e.canceler.valid then Stop(RequestSuccess, true) else Stop(RequestFailure, false)
      case _ => Stop(RequestFailure, false)
  }

  /** ResetAudioEventData: back to NONE, no canceler and no source; the ATL id is kept. */
  function ResetAudioEventData(event: Option<EventData>): (r: Option<EventData>)
    ensures r.Some? <==> event.Some?
    ensures r.Some? ==>
      && r.value.atlId == event.value.atlId
      && r.value.state == StateNone && r.value.canceler == NullCanceler && r.value.sourceId == InvalidSourceId
  {
    match event
    case None => None
    case Some(e) => Some(e.(state := StateNone, canceler := NullCanceler, sourceId := InvalidSourceId))
  }

  /** Resetting an event record gives the record a new event of the same id starts with. */
  lemma ResetIsFresh(e: EventData)
    ensures ResetAudioEventData(Some(e)) == Some(NewEventData(e.atlId))
  {
  }

  /** Neither activating, stopping nor resetting changes an event's ATL id. */
  lemma AtlIdIsConstant(sys: SystemState, engine: Engine, obj: Option<AudioObjectData>, trig: Option<TriggerImplData>,
                        e: EventData, source: Option<SourceData>)
    ensures ActivateTrigger(sys, engine, obj, trig, Some(e), source).event.value.atlId == e.atlId
    ensures ResetAudioEventData(Some(e)).value.atlId == e.atlId
  {
  }

  /** An event that activated can be stopped. */
  lemma ActivatedEventStops(sys: SystemState, engine: Engine, obj: Option<AudioObjectData>, trig: Option<TriggerImplData>,
                            event: Option<EventData>, source: Option<SourceData>)
    requires ActivateTrigger(sys, engine, obj, trig, event, source).status == RequestSuccess
    ensures StopEvent(ActivateTrigger(sys, engine, obj, trig, event, source).event).status == RequestSuccess
  {
  }

  /** A new event record, and any record after a reset, cannot be stopped. */
  lemma FreshEventDoesNotStop(id: nat, e: EventData)
    ensures StopEvent(Some(NewEventData(id))).status == RequestFailure
    ensures StopEvent(ResetAudioEventData(Some(e))).status == RequestFailure
  {
  }

  /**
   * The whole life cycle of one event: created, activated, stopped and
   * reset, it ends where it started.
   */
  lemma EventLifeCycle(sys: SystemState, engine: Engine, obj: AudioObjectData, trig: TriggerImplData, id: nat)
    requires engine.hasEvent(trig.amId) && engine.trigger(trig.amId, TargetEntity(sys, obj)).valid
    ensures var played := ActivateTrigger(sys, engine, Some(obj), Some(trig), Some(NewEventData(id)), None);
      && played.status == RequestSuccess
      && played.event.value.state == StatePlaying
      && StopEvent(played.event).cancelled
      && ResetAudioEventData(played.event) == Some(NewEventData(id))
  {
  }

  // ---------------------------------------------------------------------
  // Audio objects
  // ---------------------------------------------------------------------

  /** NewAudioObjectData: an object with a position, under its own id. */
  function NewAudioObjectData(objectId: nat): (r: AudioObjectData)
    ensures r.amId == objectId && r.hasPosition
    ensures !r.needsToUpdateEnvironments && r.environmentAmounts == map[]
  {
    NewAudioObject(objectId, true)
  }

  /** NewGlobalAudioObjectData: an object without a position. */
  function NewGlobalAudioObjectData(objectId: nat): (r: AudioObjectData)
    ensures r.amId == objectId && !r.hasPosition
    ensures !r.needsToUpdateEnvironments && r.environmentAmounts == map[]
  {
    NewAudioObject(objectId, false)
  }

  /** Triggers on a positioned object play on that object; triggers on the global object play on the global entity. */
  lemma TriggerTargets(sys: SystemState, objectId: nat)
    ensures TargetEntity(sys, NewAudioObjectData(objectId)) == objectId
    ensures TargetEntity(sys, NewGlobalAudioObjectData(objectId)) == sys.globalObjectId
  {
  }

  datatype ObjectReset = ObjectReset(status: RequestStatus, obj: Option<AudioObjectData>)

  /** ResetAudioObject: drops the environment amounts and the pending update; id and position are kept. */
  function ResetAudioObject(obj: Option<AudioObjectData>): (r: ObjectReset)
    ensures r.status == RequestSuccess <==> obj.Some?
    ensures r.obj.Some? <==> obj.Some?
    ensures obj.Some? ==>
      && r.obj.value.amId == obj.value.amId && r.obj.value.hasPosition == obj.value.hasPosition
      && !r.obj.value.needsToUpdateEnvironments && r.obj.value.environmentAmounts == map[]
  {
    match obj
    case None => ObjectReset(RequestFailure, None)
    case Some(o) => ObjectReset(RequestSuccess, Some(o.(environmentAmounts := map[], needsToUpdateEnvironments := false)))
  }

  /** A reset object is the object that was created with its id and position; resetting twice is resetting once. */
  lemma ResetObjectIsFresh(o: AudioObjectData)
    ensures ResetAudioObject(Some(o)).obj == Some(NewAudioObject(o.amId, o.hasPosition))
    ensures ResetAudioObject(ResetAudioObject(Some(o)).obj) == ResetAudioObject(Some(o))
  {
  }

  // ---------------------------------------------------------------------
  // Listeners
  // ---------------------------------------------------------------------

  /**
   * NewDefaultAudioListenerObjectData: the listener becomes the default one
   * when the engine registers it (`registered`).
   */
  function NewDefaultListener(sys: SystemState, listenerId: nat, registered: bool): (r: (SystemState, ListenerData))
    ensures r.1 == ListenerData(listenerId)
    ensures registered ==> r.0 == sys.(defaultListenerId := listenerId)
    ensures !registered ==> r.0 == sys
  {
    var data := ListenerData(listenerId);
    if registered then (sys.(defaultListenerId := data.amListenerId), data) else (sys, data)
  }

  /** NewAudioListenerObjectData: a listener record; the system state does not change. */
  function NewListener(listenerId: nat): (r: ListenerData)
    ensures r.amListenerId == listenerId
  {
    ListenerData(listenerId)
  }

  /**
   * Both listener factories build the same record; only the default one
   * may change the system state.
   */
  lemma ListenerFactoriesAgree(sys: SystemState, listenerId: nat, registered: bool)
    ensures NewDefaultListener(sys, listenerId, registered).1 == NewListener(listenerId)
  {
  }

  /** DeleteAudioListenerObjectData: deleting the default listener leaves no default listener. */
  function DeleteListener(sys: SystemState, listener: Option<ListenerData>): (r: SystemState)
    ensures listener.Some? && listener.value.amListenerId == sys.defaultListenerId ==>
      r == sys.(defaultListenerId := InvalidObjectId)
    ensures !(listener.Some? && listener.value.amListenerId == sys.defaultListenerId) ==> r == sys
  {
    match listener
    case Some(l) => if l.amListenerId == sys.defaultListenerId then sys.(defaultListenerId := InvalidObjectId) else sys
    case None => sys
  }

  /** A registered default listener, once deleted, leaves no default; deleting another listener keeps it. */
  lemma DefaultListenerLifeCycle(sys: SystemState, id: nat, other: nat)
    requires other != id
    ensures var (s1, l) := NewDefaultListener(sys, id, true);
      && s1.defaultListenerId == id
      && DeleteListener(s1, Some(NewListener(other))).defaultListenerId == id
      && DeleteListener(s1, Some(l)).defaultListenerId == InvalidObjectId
  {
  }

  // ---------------------------------------------------------------------
  // Audio file entries
  // ---------------------------------------------------------------------

  /** `SATLAudioFileEntryInfo`, the part the implementation fills in; a null file name is `None`. */
  datatype FileEntryInfo = FileEntryInfo(localized: bool, fileName: Option<string>, alignment: nat, implData: Option<FileEntryData>)

  /** The `amplitude_localized` attribute reads as true exactly when it is "true" in any letter case. */
  function LocalizedFlag(node: Node): (r: bool)
    ensures r <==> AttrIgnoreCase(node, LocalizedAttribute).Some? && EqualsIgnoreCase(AttrIgnoreCase(node, LocalizedAttribute).value, "true")
  {
    match AttrIgnoreCase(node, LocalizedAttribute)
    case Some(v) => EqualsIgnoreCase(v, "true")
    case None => false
  }

  /** The bank id: the `amplitude_id` attribute through `stoull`, or the invalid id when there is none. */
  function FileEntryId(node: Node, stoull: string -> nat): (r: nat)
    ensures AttrIgnoreCase(node, IdAttribute).None? ==> r == InvalidObjectId
    ensures AttrIgnoreCase(node, IdAttribute).Some? ==> r == stoull(AttrIgnoreCase(node, IdAttribute).value)
  {
    match AttrIgnoreCase(node, IdAttribute)
    case Some(v) => stoull(v)
    case None => InvalidObjectId
  }

  /** A file entry node with a usable name: the file tag in any letter case and a non-empty `amplitude_name`. */
  predicate IsFileEntry(node: Node) {
    EqualsIgnoreCase(node.name, FileTag) && AttrIgnoreCase(node, NameAttribute).Some? && |AttrIgnoreCase(node, NameAttribute).value| > 0
  }

  datatype FileEntryParse = FileEntryParse(status: RequestStatus, info: Option<FileEntryInfo>)

  /**
   * ParseAudioFileEntry: a file node with a non-empty name fills in the
   * name, the localized flag, the SIMD alignment and the bank id; a file
   * node without one clears name, alignment and data; anything else leaves
   * the info alone.
   */
  function ParseAudioFileEntry(node: Option<Node>, info: Option<FileEntryInfo>, stoull: string -> nat): (r: FileEntryParse)
    ensures r.status == RequestSuccess <==> node.Some? && info.Some? && IsFileEntry(node.value)
    ensures r.info.Some? <==> info.Some?
    ensures r.status == RequestSuccess ==>
      && r.info.value.fileName == AttrIgnoreCase(node.value, NameAttribute)
      && (r.info.value.localized <==> LocalizedFlag(node.value))
      && r.info.value.alignment == SimdAlignment
      && r.info.value.implData == Some(FileEntryData(FileEntryId(node.value, stoull)))
    ensures r.status == RequestFailure && node.Some? && info.Some? && EqualsIgnoreCase(node.value.name, FileTag) ==>
      r.info == Some(info.value.(fileName := None, alignment := 0, implData := None))
    ensures !(node.Some? && info.Some? && EqualsIgnoreCase(node.value.name, FileTag)) ==> r.info == info
  {
    if node.Some? && EqualsIgnoreCase(node.value.name, FileTag) && info.Some? then
      var n := node.value;
      var id := FileEntryId(n, stoull);
      var localized := LocalizedFlag(n);
      match AttrIgnoreCase(n, NameAttribute)
      case Some(name) =>
        if |name| > 0 then
          FileEntryParse(RequestSuccess, Some(info.value.(localized := localized, fileName := Some(name),
                                                          alignment := SimdAlignment, implData := Some(FileEntryData(id)))))
        else FileEntryParse(RequestFailure, Some(info.value.(fileName := None, alignment := 0, implData := None)))
      case None => FileEntryParse(RequestFailure, Some(info.value.(fileName := None, alignment := 0, implData := None)))
    else FileEntryParse(RequestFailure, info)
  }

  /** The tag is matched in any letter case: a file node spelled in capitals parses like one spelled as written. */
  lemma FileTagIgnoresCase(n: Node, info: FileEntryInfo, stoull: string -> nat, name: string)
    requires EqualsIgnoreCase(name, FileTag)
    ensures ParseAudioFileEntry(Some(n.(name := name)), Some(info), stoull) == ParseAudioFileEntry(Some(n.(name := FileTag)), Some(info), stoull)
  {
    assert EqualsIgnoreCase(FileTag, FileTag);
  }

  // ---------------------------------------------------------------------
  // Sound-bank folders
  // ---------------------------------------------------------------------

  /**
   * SetBankPaths: the default banks path (after the host's path join with
   * an empty component, `joinEmpty`) with a trailing separator, for both the
   * plain and the localized folder. The configuration-file check has no
   * effect: the platform lookup inside it is commented out.
   */
  function SetBankPaths(sys: SystemState, joinEmpty: string -> string): (r: SystemState)
    ensures r.soundbankFolder == r.localizedSoundbankFolder
    ensures |r.soundbankFolder| > 0 && r.soundbankFolder[|r.soundbankFolder| - 1] == DatabaseSeparator
    ensures var joined := joinEmpty(DefaultBanksPath);
      r.soundbankFolder == if |joined| > 0 && joined[|joined| - 1] == DatabaseSeparator then joined else joined + [DatabaseSeparator]
    ensures r.globalObjectId == sys.globalObjectId && r.defaultListenerId == sys.defaultListenerId
  {
    var bankPath := joinEmpty(DefaultBanksPath);
    var folder := if |bankPath| > 0 && bankPath[|bankPath| - 1] == DatabaseSeparator then bankPath else bankPath + [DatabaseSeparator];
    sys.(soundbankFolder := folder, localizedSoundbankFolder := folder)
  }

  /** GetAudioFileLocation: the localized folder for a localized entry, the plain one otherwise, nothing for no entry. */
  function GetAudioFileLocation(sys: SystemState, info: Option<FileEntryInfo>): (r: Option<string>)
    ensures r.None? <==> info.None?
    ensures info.Some? && info.value.localized ==> r == Some(sys.localizedSoundbankFolder)
    ensures info.Some? && !info.value.localized ==> r == Some(sys.soundbankFolder)
  {
    match info
    case None => None
    case Some(i) => Some(if i.localized then sys.localizedSoundbankFolder else sys.soundbankFolder)
  }

  /** Once the bank paths are set, localized and plain entries are found in the same folder, ending in the separator. */
  lemma LocationIgnoresLocalization(sys: SystemState, joinEmpty: string -> string, info: FileEntryInfo)
    ensures var s := SetBankPaths(sys, joinEmpty);
      && GetAudioFileLocation(s, Some(info)) == GetAudioFileLocation(s, Some(info.(localized := !info.localized)))
      && EndsWith(GetAudioFileLocation(s, Some(info)).value, [DatabaseSeparator])
  {
    var s := SetBankPaths(sys, joinEmpty);
    var f := s.soundbankFolder;
    assert f[|f| - 1..] == [DatabaseSeparator];
  }

  /**
   * A new system already has its bank folders: setting the bank paths again
   * changes nothing, and every file entry is found in the default banks
   * folder whatever its localized flag.
   */
  lemma NewSystemHasBankPaths(joinEmpty: string -> string, info: FileEntryInfo)
    ensures SetBankPaths(NewSystem(joinEmpty), joinEmpty) == NewSystem(joinEmpty)
    ensures GetAudioFileLocation(NewSystem(joinEmpty), Some(info)) == Some(NewSystem(joinEmpty).soundbankFolder)
    ensures GetAudioFileLocation(NewSystem(joinEmpty), Some(info)) == GetAudioFileLocation(NewSystem(joinEmpty), Some(info.(localized := !info.localized)))
    ensures NewSystem(joinEmpty).soundbankFolder != ""
  {
    LocationIgnoresLocalization(SystemState(GlobalAudioObjectId, InvalidObjectId, "", ""), joinEmpty, info);
  }
}

=== FILE: config.dfy ===
/**
 * Constants of the plugin: folder names and file extensions (Config.h), the
 * Amplitude XML tag and attribute names (Engine/Common.h), and the values the
 * code takes from the host engine and the Amplitude SDK.
 */
module Config {

  // Config.h
  const DefaultBanksPath := "sounds/amplitude_assets/soundbanks/"
  const SoundBankFileExtension := ".ambank"
  const AssetEventFileExtension := ".amevent"

  // Engine/Common.h, XmlTags
  const EventTag := "AmplitudeEvent"
  const RtpcTag := "AmplitudeRtpc"
  const SwitchTag := "AmplitudeSwitch"
  const SwitchStateTag := "AmplitudeSwitchState"
  const StateTag := "AmplitudeState"
  const FileTag := "AmplitudeFile"
  const BusTag := "AmplitudeBus"
  const EnvironmentTag := "AmplitudeEnvironment"
  const LocalizedAttribute := "amplitude_localized"
  const IdAttribute := "amplitude_id"
  const NameAttribute := "amplitude_name"

  // The host engine's ATL control-file tags (ATLCommon.h is not part of this model).
  const PreloadsNodeTag := "AudioPreloads"
  const PreloadRequestTag := "ATLPreloadRequest"
  const ConfigGroupTag := "ATLConfigGroup"
  const TriggersNodeTag := "AudioTriggers"
  const TriggerTag := "ATLTrigger"
  const AtlNameAttribute := "atl_name"

  // Identifier sentinels of the Amplitude SDK and the host engine.
  const InvalidObjectId: nat := 0       // kAmInvalidObjectId
  const InvalidSourceId: nat := 0       // INVALID_AUDIO_SOURCE_ID
  const GlobalAudioObjectId: nat := 1   // GLOBAL_AUDIO_OBJECT_ID
  const InvalidCid: nat := 0            // ACE_INVALID_CID
  const SimdAlignment: nat := 16        // AM_SIMD_ALIGNMENT
  const DatabaseSeparator: char := '/'  // AZ_CORRECT_DATABASE_SEPARATOR
}

=== FILE: control_builder.dfy ===
/**
 * The audio-control asset builder: reads an ATL control file (XML), collects
 * the sound banks its preload requests reference and the Amplitude events
 * its triggers reference, registers one product path dependency per bank,
 * and cross-checks the events against the event lists in the banks' JSON
 * metadata, warning about the ones it cannot find.
 *
 * File existence, length, reading and JSON parsing are inputs (`BankFile`,
 * `ControlFile`); so is the shutdown flag.
 */
module ControlBuilder {
  import opened Outcomes
  import opened Strings
  import opened Xml
  import opened Json
  import opened Config

  /** The two malformed-node messages of the control-file parsers. */
  datatype ParseError =
    | NodeDoesNotExist(tag: string, what: string)
    | MissingAttribute(tag: string, attribute: string)

  // ---------------------------------------------------------------------
  // Bank references: GetBanksFromAtlPreloads
  // ---------------------------------------------------------------------

  /** The `AmplitudeFile` children of every preload request, in document order. */
  function FileNodes(requests: seq<Node>): (r: seq<Node>)
  {
    if |requests| == 0 then []
    else ChildrenNamed(requests[0].children, FileTag) + FileNodes(requests[1..])
  }

  /** Every preload request lists at least one bank file. */
  predicate AllListFiles(requests: seq<Node>) {
    forall k :: 0 <= k < |requests| ==> |ChildrenNamed(requests[k].children, FileTag)| > 0
  }

  /** Every bank file node carries a name. */
  predicate AllNamed(files: seq<Node>) {
    forall k :: 0 <= k < |files| ==> Attr(files[k], NameAttribute).Some?
  }

  /** Every preload request lists at least one bank file and every bank file is named. */
  predicate WellFormedRequests(requests: seq<Node>) {
    AllListFiles(requests) && AllNamed(FileNodes(requests))
  }

  /** The `name` of every node, in order; a node without one fails with its own tag. */
  function NodeNames(nodes: seq<Node>, tag: string): (r: Outcome<seq<string>, ParseError>)
    ensures r.Success? <==> forall k :: 0 <= k < |nodes| ==> Attr(nodes[k], NameAttribute).Some?
    ensures r.Success? ==>
      |r.value| == |nodes| && forall k :: 0 <= k < |nodes| ==> r.value[k] == Attr(nodes[k], NameAttribute).value
    ensures r.Failure? ==> r.error == MissingAttribute(tag, NameAttribute)
  {
    if |nodes| == 0 then Success([])
    else match Attr(nodes[0], NameAttribute)
      case None => Failure(MissingAttribute(tag, NameAttribute))
      case Some(name) =>
        var rest :- NodeNames(nodes[1..], tag);
        Success([name] + rest)
  }

  lemma FileNodesCons(requests: seq<Node>)
    requires |requests| > 0
    ensures FileNodes(requests) == ChildrenNamed(requests[0].children, FileTag) + FileNodes(requests[1..])
  {
  }

  lemma AllNamedConcat(a: seq<Node>, b: seq<Node>)
    ensures AllNamed(a + b) <==> AllNamed(a) && AllNamed(b)
  {
    if AllNamed(a) && AllNamed(b) {
      forall k | 0 <= k < |a + b|
        ensures Attr((a + b)[k], NameAttribute).Some?
      {
        if k >= |a| {
          assert (a + b)[k] == b[k - |a|];
        }
      }
    }
    if AllNamed(a + b) {
      forall k | 0 <= k < |a|
        ensures Attr(a[k], NameAttribute).Some?
      {
        assert (a + b)[k] == a[k];
      }
      forall k | 0 <= k < |b|
        ensures Attr(b[k], NameAttribute).Some?
      {
        assert (a + b)[|a| + k] == b[k];
      }
    }
  }

  lemma AllListFilesCons(requests: seq<Node>)
    requires |requests| > 0
    ensures AllListFiles(requests) <==>
      |ChildrenNamed(requests[0].children, FileTag)| > 0 && AllListFiles(requests[1..])
  {
    if |ChildrenNamed(requests[0].children, FileTag)| > 0 && AllListFiles(requests[1..]) {
      forall k | 0 <= k < |requests|
        ensures |ChildrenNamed(requests[k].children, FileTag)| > 0
      {
        if k > 0 {
          assert requests[k] == requests[1..][k - 1];
        }
      }
    }
    if AllListFiles(requests) {
      forall k | 0 <= k < |requests[1..]|
        ensures |ChildrenNamed(requests[1..][k].children, FileTag)| > 0
      {
        assert requests[1..][k] == requests[k + 1];
      }
    }
  }

  /** Well-formedness splits into the first request and the rest. */
  lemma WellFormedRequestsCons(requests: seq<Node>)
    requires |requests| > 0
    ensures var files := ChildrenNamed(requests[0].children, FileTag);
      WellFormedRequests(requests) <==>
        |files| > 0 && AllNamed(files) && WellFormedRequests(requests[1..])
  {
    FileNodesCons(requests);
    AllNamedConcat(ChildrenNamed(requests[0].children, FileTag), FileNodes(requests[1..]));
    AllListFilesCons(requests);
  }

  /** The bank names of the first request followed by those of the rest are the names of all file nodes. */
  lemma BanksConcat(requests: seq<Node>, names: seq<string>, rest: seq<string>)
    requires |requests| > 0
    requires var files := ChildrenNamed(requests[0].children, FileTag);
      |names| == |files| && forall k :: 0 <= k < |files| ==> Attr(files[k], NameAttribute) == Some(names[k])
    requires var tail := FileNodes(requests[1..]);
      |rest| == |tail| && forall k :: 0 <= k < |tail| ==> Attr(tail[k], NameAttribute) == Some(rest[k])
    ensures var all := FileNodes(requests);
      |names + rest| == |all| && forall k :: 0 <= k < |all| ==> Attr(all[k], NameAttribute) == Some((names + rest)[k])
  {
    var files := ChildrenNamed(requests[0].children, FileTag);
    var tail := FileNodes(requests[1..]);
    var all := FileNodes(requests);
    FileNodesCons(requests);
    forall k | 0 <= k < |all|
      ensures Attr(all[k], NameAttribute) == Some((names + rest)[k])
    {
      if k < |names| {
        assert all[k] == files[k];
      } else {
        assert all[k] == tail[k - |names|];
      }
    }
  }

  function BanksFromRequests(requests: seq<Node>): (r: Outcome<seq<string>, ParseError>)
    ensures r.Success? <==> WellFormedRequests(requests)
    ensures r.Success? ==>
      |r.value| == |FileNodes(requests)|
      && forall k :: 0 <= k < |r.value| ==> r.value[k] == Attr(FileNodes(requests)[k], NameAttribute).value
    ensures r.Failure? ==>
      r.error == NodeDoesNotExist(FileTag, "bank file") || r.error == MissingAttribute(FileTag, NameAttribute)
  {
    if |requests| == 0 then Success([])
    else
      var files := ChildrenNamed(requests[0].children, FileTag);
      WellFormedRequestsCons(requests);
      if |files| == 0 then Failure(NodeDoesNotExist(FileTag, "bank file"))
      else
        var names := NodeNames(files, FileTag);
        var rest := BanksFromRequests(requests[1..]);
        if names.Failure? then Failure(names.error)
        else if rest.Failure? then Failure(rest.error)
        else
          BanksConcat(requests, names.value, rest.value);
          Success(names.value + rest.value)
  }

  /**
   * GetBanksFromAtlPreloads: the bank names of all `AmplitudeFile` nodes of
   * all preload requests, in document order. Fails when there is no
   * preload request, when a request has no bank file, or when a bank file
   * has no name.
   */
  function GetBanksFromAtlPreloads(preloads: Node): (r: Outcome<seq<string>, ParseError>)
    ensures var requests := ChildrenNamed(preloads.children, PreloadRequestTag);
      && (r.Success? <==> |requests| > 0 && WellFormedRequests(requests))
      && (|requests| == 0 ==> r == Failure(NodeDoesNotExist(PreloadRequestTag, "preload request")))
      && (r.Success? ==>
            |r.value| == |FileNodes(requests)|
            && forall k :: 0 <= k < |r.value| ==> r.value[k] == Attr(FileNodes(requests)[k], NameAttribute).value)
  {
    var requests := ChildrenNamed(preloads.children, PreloadRequestTag);
    if |requests| == 0 then Failure(NodeDoesNotExist(PreloadRequestTag, "preload request"))
    else BanksFromRequests(requests)
  }

  // ---------------------------------------------------------------------
  // Event references: BuildAtlEventList
  // ---------------------------------------------------------------------

  /** The first `AmplitudeEvent` child of each trigger that has one, in trigger order. */
  function EventNodes(triggers: seq<Node>): (r: seq<Node>)
    ensures |r| <= |triggers|
  {
    if |triggers| == 0 then []
    else match FirstNode(triggers[0], EventTag)
      case None => EventNodes(triggers[1..])
      case Some(e) => [e] + EventNodes(triggers[1..])
  }

  /** A trigger contributes its first event node, or nothing when it has none. */
  lemma EventNodesSingle(t: Node)
    ensures FirstNode(t, EventTag).Some? ==> EventNodes([t]) == [FirstNode(t, EventTag).value]
    ensures FirstNode(t, EventTag).None? ==> EventNodes([t]) == []
  {
    assert [t][1..] == [];
  }

  /** The event nodes of two trigger lists in a row are those of the first followed by those of the second. */
  lemma {:induction false} EventNodesConcat(a: seq<Node>, b: seq<Node>)
    ensures EventNodes(a + b) == EventNodes(a) + EventNodes(b)
    decreases |a|
  {
    if |a| == 0 {
      assert a + b == b;
    } else {
      assert (a + b)[0] == a[0];
      assert (a + b)[1..] == a[1..] + b;
      EventNodesConcat(a[1..], b);
    }
  }

  function TriggerEvents(triggersNode: Node): seq<Node> {
    EventNodes(ChildrenNamed(triggersNode.children, TriggerTag))
  }

  /**
   * BuildAtlEventList: the event names of the triggers, in trigger order;
   * a trigger without an event is skipped, an event without a name fails.
   */
  function BuildAtlEventList(triggersNode: Node): (r: Outcome<seq<string>, ParseError>)
    ensures r.Success? <==> forall k :: 0 <= k < |TriggerEvents(triggersNode)| ==> Attr(TriggerEvents(triggersNode)[k], NameAttribute).Some?
    ensures r.Success? ==>
      |r.value| == |TriggerEvents(triggersNode)|
      && forall k :: 0 <= k < |r.value| ==> r.value[k] == Attr(TriggerEvents(triggersNode)[k], NameAttribute).value
    ensures r.Failure? ==> r.error == MissingAttribute(EventTag, NameAttribute)
  {
    NodeNames(TriggerEvents(triggersNode), EventTag)
  }

  // ---------------------------------------------------------------------
  // Bank metadata: GetEventsFromBankSource, GetEventsFromBank
  // ---------------------------------------------------------------------

  datatype BankError =
    | SourceNotFound
    | SourceEmpty
    | SourceUnreadable
    | SourceNotJson
    | RootNotObject
    | EventsNotArray

  /** The size_t value of `len - suffixLen`: it wraps around when `len < suffixLen`. */
  function SizeDifference(len: nat, suffixLen: nat): nat {
    (len - suffixLen) % 0x1_0000_0000_0000_0000
  }

  /** `s.substr(0, count)`: the count is clamped to the length of `s`. */
  function Prefix(s: string, count: nat): string {
    if count <= |s| then s[..count] else s
  }

  /**
   * The name stored for an `events` entry: `substr(0, length - strlen(".amevent"))`.
   * Because the subtraction is unsigned, an entry shorter than the suffix
   * is kept whole; any other entry loses its last eight characters.
   */
  function StripEventExtension(entry: string): (r: string)
    requires |entry| < 0x1_0000_0000_0000_0000
    ensures |entry| >= |AssetEventFileExtension| ==> r == entry[..|entry| - |AssetEventFileExtension|]
    ensures |entry| < |AssetEventFileExtension| ==> r == entry
  {
    Prefix(entry, SizeDifference(|entry|, |AssetEventFileExtension|))
  }

  /** An entry written as `name + ".amevent"` is indexed as exactly `name`. */
  lemma StripEventExtensionRoundTrip(name: string)
    requires |name| + |AssetEventFileExtension| < 0x1_0000_0000_0000_0000
    ensures StripEventExtension(name + AssetEventFileExtension) == name
  {
    assert (name + AssetEventFileExtension)[..|name|] == name;
  }

  /** rapidjson's `GetString()` is only defined on strings: every entry of an `events` array must be one. */
  predicate EventEntriesAreStrings(root: Json) {
    HasMember(root, "events") && Get(root, "events").JArray? ==>
      forall k :: 0 <= k < |Get(root, "events").items| ==>
        var e := Get(root, "events").items[k]; e.JString? && |e.s| < 0x1_0000_0000_0000_0000
  }

  /** The names a well-typed `events` array contributes. */
  function EventNamesOf(items: seq<Json>): set<string>
    requires forall k :: 0 <= k < |items| ==> items[k].JString? && |items[k].s| < 0x1_0000_0000_0000_0000
  {
    set k | 0 <= k < |items| :: StripEventExtension(items[k].s)
  }

  /** The insertion loop of GetEventsFromBankSource, one entry at a time. */
  function InsertEventNames(items: seq<Json>, names: set<string>): (r: set<string>)
    requires forall k :: 0 <= k < |items| ==> items[k].JString? && |items[k].s| < 0x1_0000_0000_0000_0000
    ensures r == names + EventNamesOf(items)
  {
    if |items| == 0 then names
    else
      var r := InsertEventNames(items[1..], names + {StripEventExtension(items[0].s)});
      assert EventNamesOf(items) == {StripEventExtension(items[0].s)} + EventNamesOf(items[1..]) by {
        forall e | e in EventNamesOf(items)
          ensures e in {StripEventExtension(items[0].s)} + EventNamesOf(items[1..])
        {
          var k :| 0 <= k < |items| && e == StripEventExtension(items[k].s);
          if k > 0 {
            assert items[k] == items[1..][k - 1];
          }
        }
        forall e | e in EventNamesOf(items[1..])
          ensures e in EventNamesOf(items)
        {
          var k :| 0 <= k < |items[1..]| && e == StripEventExtension(items[1..][k].s);
          assert items[1..][k] == items[k + 1];
        }
      }
      r
  }

  /**
   * GetEventsFromBankSource: adds the bank's event names to `names`. A root
   * that is not an object, or an `events` member that is not an array,
   * fails; a missing `events` member leaves the set as it is.
   */
  function GetEventsFromBankSource(root: Json, names: set<string>): (r: Outcome<set<string>, BankError>)
    requires EventEntriesAreStrings(root)
    ensures !root.JObject? <==> r == Failure(RootNotObject)
    ensures root.JObject? && !HasMember(root, "events") ==> r == Success(names)
    ensures HasMember(root, "events") && !Get(root, "events").JArray? <==> r == Failure(EventsNotArray)
    ensures HasMember(root, "events") && Get(root, "events").JArray? ==>
      r == Success(names + EventNamesOf(Get(root, "events").items))
  {
    if !root.JObject? then Failure(RootNotObject)
    else if !HasMember(root, "events") then Success(names)
    else
      var events := Get(root, "events");
      if !events.JArray? then Failure(EventsNotArray)
      else Success(InsertEventNames(events.items, names))
  }

  /** What the file system and the JSON parser report for one bank's metadata file. */
  datatype BankFile = BankFile(present: bool, length: nat, readable: bool, parsed: Option<Json>)

  predicate BankFileWellTyped(f: BankFile) {
    f.parsed.Some? ==> EventEntriesAreStrings(f.parsed.value)
  }

  /**
   * GetEventsFromBank: each check in turn, with its own failure, before the
   * document is handed to GetEventsFromBankSource.
   */
  function GetEventsFromBank(f: BankFile, names: set<string>): (r: Outcome<set<string>, BankError>)
    requires BankFileWellTyped(f)
    ensures !f.present <==> r == Failure(SourceNotFound)
    ensures f.present && f.length == 0 <==> r == Failure(SourceEmpty)
    ensures f.present && f.length > 0 && !f.readable <==> r == Failure(SourceUnreadable)
    ensures f.present && f.length > 0 && f.readable && f.parsed.None? <==> r == Failure(SourceNotJson)
    ensures f.present && f.length > 0 && f.readable && f.parsed.Some? ==> r == GetEventsFromBankSource(f.parsed.value, names)
    ensures r.Success? ==> names <= r.value
  {
    if !f.present then Failure(SourceNotFound)
    else if f.length == 0 then Failure(SourceEmpty)
    else if !f.readable then Failure(SourceUnreadable)
    else if f.parsed.None? then Failure(SourceNotJson)
    else GetEventsFromBankSource(f.parsed.value, names)
  }

  /** A bank metadata file that can be read and has no `events` member contributes nothing and does not fail. */
  lemma BankWithoutEventsIsEmpty(f: BankFile)
    requires f.present && f.length > 0 && f.readable && f.parsed.Some?
    requires f.parsed.value.JObject? && !HasMember(f.parsed.value, "events")
    ensures GetEventsFromBank(f, {}) == Success({})
  {
  }

  // ---------------------------------------------------------------------
  // ParseProductDependenciesFromXmlFile
  // ---------------------------------------------------------------------

  datatype DependencyType = ProductFile | SourceFile

  datatype PathDependency = PathDependency(path: string, kind: DependencyType)

  /** The diagnostics the builder prints; none of them fails the job. */
  datatype Warning =
    | NoPreloads
    | GatherBanksFailed(error: ParseError)
    | NoReferencedBanks
    | NoReferencedTriggers
    | GatherEventsFailed(error: ParseError)
    | BankUnreadable(bank: string, reason: BankError)
    | MissingEvent(name: string)

  datatype Report = Report(dependencies: set<PathDependency>, warnings: seq<Warning>)

  function BankProductPath(bank: string): string {
    DefaultBanksPath + bank + SoundBankFileExtension
  }

  /** One product-file dependency per referenced bank. */
  function BankDependencies(banks: seq<string>): set<PathDependency> {
    set k | 0 <= k < |banks| :: PathDependency(BankProductPath(banks[k]), ProductFile)
  }

  /** The events one bank's metadata lists, on their own; nothing when the metadata cannot be read. */
  function BankEvents(f: BankFile): set<string>
    requires BankFileWellTyped(f)
  {
    var g := GetEventsFromBank(f, {});
    if g.Success? then g.value else {}
  }

  /** Reading a bank into a set of known names adds exactly what the bank lists on its own, or fails the same way. */
  lemma GetEventsFromBankAdds(f: BankFile, names: set<string>)
    requires BankFileWellTyped(f)
    ensures GetEventsFromBank(f, names).Success? <==> GetEventsFromBank(f, {}).Success?
    ensures GetEventsFromBank(f, names).Success? ==> GetEventsFromBank(f, names).value == names + BankEvents(f)
    ensures GetEventsFromBank(f, names).Failure? ==> GetEventsFromBank(f, names) == GetEventsFromBank(f, {})
  {
    if f.present && f.length > 0 && f.readable && f.parsed.Some? {
      var root := f.parsed.value;
      if HasMember(root, "events") && Get(root, "events").JArray? {
        assert {} + EventNamesOf(Get(root, "events").items) == EventNamesOf(Get(root, "events").items);
      }
    }
  }

  /** Every event some readable bank of the list provides. */
  function ReadableEvents(banks: seq<string>, files: string -> BankFile): set<string>
    requires forall k :: 0 <= k < |banks| ==> BankFileWellTyped(files(banks[k]))
  {
    set k, e | 0 <= k < |banks| && e in BankEvents(files(banks[k])) :: e
  }

  lemma ReadableEventsSplit(banks: seq<string>, files: string -> BankFile)
    requires |banks| > 0
    requires forall k :: 0 <= k < |banks| ==> BankFileWellTyped(files(banks[k]))
    ensures forall k :: 0 <= k < |banks[1..]| ==> BankFileWellTyped(files(banks[1..][k]))
    ensures ReadableEvents(banks, files) == BankEvents(files(banks[0])) + ReadableEvents(banks[1..], files)
  {
    assert forall k :: 0 <= k < |banks[1..]| ==> banks[1..][k] == banks[k + 1];
    forall e | e in ReadableEvents(banks, files)
      ensures e in BankEvents(files(banks[0])) + ReadableEvents(banks[1..], files)
    {
      var k :| 0 <= k < |banks| && e in BankEvents(files(banks[k]));
      if k > 0 {
        assert banks[1..][k - 1] == banks[k];
      }
    }
  }

  /** The warning for a bank whose metadata cannot be read, when it cannot. */
  function UnreadableWarning(banks: seq<string>, files: string -> BankFile, k: nat): Option<Warning>
    requires k < |banks| && BankFileWellTyped(files(banks[k]))
  {
    var g := GetEventsFromBank(files(banks[k]), {});
    if g.Failure? then Some(BankUnreadable(banks[k], g.error)) else None
  }

  /**
   * One warning per bank whose metadata cannot be read, in bank order,
   * naming the bank and the reason: UnreadableWarningsSingle and
   * UnreadableWarningsConcat fix the list, UnreadableWarningsMembers its
   * members.
   */
  function UnreadableWarnings(banks: seq<string>, files: string -> BankFile): (r: seq<Warning>)
    requires forall k :: 0 <= k < |banks| ==> BankFileWellTyped(files(banks[k]))
    ensures |r| <= |banks|
    decreases |banks|
  {
    if |banks| == 0 then []
    else
      assert forall k :: 0 <= k < |banks[1..]| ==> banks[1..][k] == banks[k + 1];
      var rest := UnreadableWarnings(banks[1..], files);
      match UnreadableWarning(banks, files, 0)
      case Some(w) => [w] + rest
      case None => rest
  }

  /** A warning is in the list exactly when it is the warning of one of the banks. */
  lemma {:induction false} UnreadableWarningsMembers(banks: seq<string>, files: string -> BankFile)
    requires forall k :: 0 <= k < |banks| ==> BankFileWellTyped(files(banks[k]))
    ensures forall w :: w in UnreadableWarnings(banks, files) <==> exists k :: 0 <= k < |banks| && UnreadableWarning(banks, files, k) == Some(w)
    decreases |banks|
  {
    if |banks| > 0 {
      assert forall k :: 0 <= k < |banks[1..]| ==> banks[1..][k] == banks[k + 1];
      UnreadableWarningsMembers(banks[1..], files);
      assert forall k :: 0 < k < |banks| ==> UnreadableWarning(banks, files, k) == UnreadableWarning(banks[1..], files, k - 1);
      forall w | exists k :: 0 <= k < |banks| && UnreadableWarning(banks, files, k) == Some(w)
        ensures w in UnreadableWarnings(banks, files)
      {
        var k :| 0 <= k < |banks| && UnreadableWarning(banks, files, k) == Some(w);
        if k > 0 {
          assert UnreadableWarning(banks[1..], files, k - 1) == Some(w);
        }
      }
      forall w | w in UnreadableWarnings(banks, files)
        ensures exists k :: 0 <= k < |banks| && UnreadableWarning(banks, files, k) == Some(w)
      {
        if UnreadableWarning(banks, files, 0) != Some(w) {
          var k :| 0 <= k < |banks[1..]| && UnreadableWarning(banks[1..], files, k) == Some(w);
          assert UnreadableWarning(banks, files, k + 1) == Some(w);
        }
      }
    }
  }

  /** A single bank gives its warning exactly when its metadata cannot be read. */
  lemma UnreadableWarningsSingle(bank: string, files: string -> BankFile)
    requires BankFileWellTyped(files(bank))
    ensures var g := GetEventsFromBank(files(bank), {});
      UnreadableWarnings([bank], files) == if g.Failure? then [BankUnreadable(bank, g.error)] else []
  {
    assert [bank][1..] == [];
  }

  /** A bank in front of a list adds its own warning in front of the list's. */
  lemma UnreadableWarningsCons(bank: string, rest: seq<string>, files: string -> BankFile)
    requires BankFileWellTyped(files(bank))
    requires forall k :: 0 <= k < |rest| ==> BankFileWellTyped(files(rest[k]))
    ensures forall k :: 0 <= k < |[bank] + rest| ==> BankFileWellTyped(files(([bank] + rest)[k]))
    ensures UnreadableWarnings([bank] + rest, files) == UnreadableWarnings([bank], files) + UnreadableWarnings(rest, files)
  {
    var s := [bank] + rest;
    assert forall k :: 0 < k < |s| ==> s[k] == rest[k - 1];
    assert s[1..] == rest;
    assert [bank][1..] == [];
  }

  /** The warnings of two bank lists in a row are those of the first list followed by those of the second. */
  lemma {:induction false} UnreadableWarningsConcat(a: seq<string>, b: seq<string>, files: string -> BankFile)
    requires forall k :: 0 <= k < |a| ==> BankFileWellTyped(files(a[k]))
    requires forall k :: 0 <= k < |b| ==> BankFileWellTyped(files(b[k]))
    ensures forall k :: 0 <= k < |a + b| ==> BankFileWellTyped(files((a + b)[k]))
    ensures UnreadableWarnings(a + b, files) == UnreadableWarnings(a, files) + UnreadableWarnings(b, files)
    decreases |a|
  {
    forall k | 0 <= k < |a + b|
      ensures BankFileWellTyped(files((a + b)[k]))
    {
      if k < |a| {
        assert (a + b)[k] == a[k];
      } else {
        assert (a + b)[k] == b[k - |a|];
      }
    }
    if |a| == 0 {
      assert a + b == b;
    } else {
      var tail := a[1..];
      assert forall k :: 0 <= k < |tail| ==> tail[k] == a[k + 1];
      UnreadableWarningsConcat(tail, b, files);
      assert (a + b)[1..] == tail + b;
      assert UnreadableWarning(a + b, files, 0) == UnreadableWarning(a, files, 0);
    }
  }

  /**
   * The bank-reading loop: events of the banks that read successfully are
   * pooled, every failure becomes one warning naming the bank. The metadata
   * file of a bank is looked up by the bank's relative name.
   */
  function CollectBankEvents(banks: seq<string>, files: string -> BankFile, names: set<string>): (r: (set<string>, seq<Warning>))
    requires forall k :: 0 <= k < |banks| ==> BankFileWellTyped(files(banks[k]))
    ensures r.0 == names + ReadableEvents(banks, files)
    ensures r.1 == UnreadableWarnings(banks, files)
    ensures forall k :: 0 <= k < |r.1| ==> r.1[k].BankUnreadable?
    ensures (forall k :: 0 <= k < |banks| ==> GetEventsFromBank(files(banks[k]), {}).Success?) <==> |r.1| == 0
    decreases |banks|
  {
    if |banks| == 0 then (names, [])
    else
      var first := GetEventsFromBank(files(banks[0]), names);
      GetEventsFromBankAdds(files(banks[0]), names);
      ReadableEventsSplit(banks, files);
      var rest := CollectBankEvents(banks[1..], files, if first.Success? then first.value else names);
      assert forall k :: 0 <= k < |banks[1..]| ==> banks[1..][k] == banks[k + 1];
      if first.Success? then (rest.0, rest.1)
      else (rest.0, [BankUnreadable(banks[0], first.error)] + rest.1)
  }

  /** One warning per referenced event that no successfully read bank provides, in reference order. */
  function MissingEventWarnings(events: seq<string>, known: set<string>): (r: seq<Warning>)
    ensures forall e :: MissingEvent(e) in r <==> e in events && e !in known
    ensures forall k :: 0 <= k < |r| ==> r[k].MissingEvent?
    ensures |r| <= |events|
  {
    if |events| == 0 then []
    else if events[0] in known then MissingEventWarnings(events[1..], known)
    else [MissingEvent(events[0])] + MissingEventWarnings(events[1..], known)
  }

  /**
   * ParseProductDependenciesFromXmlFile: adds the referenced banks' product
   * paths to `dependencies` and reports the rest as warnings.
   */
  function ParseProductDependenciesFromXmlFile(root: Node, dependencies: set<PathDependency>, files: string -> BankFile): (r: Report)
    requires forall b :: BankFileWellTyped(files(b))
    ensures dependencies <= r.dependencies
  {
    match FirstNode(root, PreloadsNodeTag)
    case None => Report(dependencies, [NoPreloads])
    case Some(preloads) =>
      match GetBanksFromAtlPreloads(preloads)
      case Failure(e) => Report(dependencies, [GatherBanksFailed(e)])
      case Success(banks) =>
        if |banks| == 0 then Report(dependencies, [NoReferencedBanks])
        else
          var withBanks := dependencies + BankDependencies(banks);
          match FirstNode(root, TriggersNodeTag)
          case None => Report(withBanks, [NoReferencedTriggers])
          case Some(triggers) =>
            match BuildAtlEventList(triggers)
            case Failure(e) => Report(withBanks, [GatherEventsFailed(e)])
            case Success(events) =>
              var (known, bankWarnings) := CollectBankEvents(banks, files, {});
              Report(withBanks, bankWarnings + MissingEventWarnings(events, known))
  }

  /** The banks a control file references, when its preloads parse. */
  function ReferencedBanks(root: Node): Option<seq<string>> {
    match FirstNode(root, PreloadsNodeTag)
    case None => None
    case Some(preloads) =>
      match GetBanksFromAtlPreloads(preloads)
      case Failure(_) => None
      case Success(banks) => Some(banks)
  }

  /**
   * Without a preloads node, with malformed preloads or with no banks the
   * dependency set is left as it is; otherwise exactly the referenced
   * banks' product paths are added.
   */
  lemma DependenciesAreReferencedBanks(root: Node, dependencies: set<PathDependency>, files: string -> BankFile)
    requires forall b :: BankFileWellTyped(files(b))
    ensures var r := ParseProductDependenciesFromXmlFile(root, dependencies, files);
      && (ReferencedBanks(root).None? ==> r.dependencies == dependencies)
      && (ReferencedBanks(root).Some? ==> r.dependencies == dependencies + BankDependencies(ReferencedBanks(root).value))
  {
  }

  /**
   * Dependencies are registered before any metadata is read: what the bank
   * files contain, or whether they exist at all, never changes them.
   */
  lemma DependenciesIgnoreBankFiles(root: Node, dependencies: set<PathDependency>, files1: string -> BankFile, files2: string -> BankFile)
    requires forall b :: BankFileWellTyped(files1(b))
    requires forall b :: BankFileWellTyped(files2(b))
    ensures ParseProductDependenciesFromXmlFile(root, dependencies, files1).dependencies
         == ParseProductDependenciesFromXmlFile(root, dependencies, files2).dependencies
  {
    DependenciesAreReferencedBanks(root, dependencies, files1);
    DependenciesAreReferencedBanks(root, dependencies, files2);
  }

  /**
   * When banks and events both parse, an event is reported missing exactly
   * when it is referenced and no bank whose metadata could be read lists it.
   */
  lemma MissingEventsAreUnresolved(root: Node, dependencies: set<PathDependency>, files: string -> BankFile, preloads: Node, triggers: Node, e: string)
    requires forall b :: BankFileWellTyped(files(b))
    requires FirstNode(root, PreloadsNodeTag) == Some(preloads)
    requires GetBanksFromAtlPreloads(preloads).Success? && |GetBanksFromAtlPreloads(preloads).value| > 0
    requires FirstNode(root, TriggersNodeTag) == Some(triggers)
    requires BuildAtlEventList(triggers).Success?
    ensures var banks := GetBanksFromAtlPreloads(preloads).value;
      var warnings := ParseProductDependenciesFromXmlFile(root, dependencies, files).warnings;
      (MissingEvent(e) in warnings <==>
         && e in BuildAtlEventList(triggers).value
         && forall k :: 0 <= k < |banks| ==> e !in BankEvents(files(banks[k])))
  {
    var banks := GetBanksFromAtlPreloads(preloads).value;
    var collected := CollectBankEvents(banks, files, {});
    var r := ParseProductDependenciesFromXmlFile(root, dependencies, files);
    assert r.warnings == collected.1 + MissingEventWarnings(BuildAtlEventList(triggers).value, collected.0);
    assert MissingEvent(e) !in collected.1;
    assert e in collected.0 <==> exists k :: 0 <= k < |banks| && e in BankEvents(files(banks[k]));
  }

  /**
   * Preloads that parse always name a bank: there is a request, and every
   * request lists a bank file. The `banksReferenced.empty()` exit is never
   * taken after a successful parse.
   */
  lemma ParsedPreloadsNameABank(preloads: Node)
    requires GetBanksFromAtlPreloads(preloads).Success?
    ensures |GetBanksFromAtlPreloads(preloads).value| > 0
  {
    var requests := ChildrenNamed(preloads.children, PreloadRequestTag);
    FileNodesCons(requests);
  }

  /**
   * Without banks or without a usable event list the builder stops at its
   * first diagnostic: the report holds that one warning, and no event is
   * ever reported missing.
   */
  lemma EarlyExitReportsNoEvents(root: Node, dependencies: set<PathDependency>, files: string -> BankFile, e: string)
    requires forall b :: BankFileWellTyped(files(b))
    requires || ReferencedBanks(root).None?
             || FirstNode(root, TriggersNodeTag).None?
             || BuildAtlEventList(FirstNode(root, TriggersNodeTag).value).Failure?
    ensures var r := ParseProductDependenciesFromXmlFile(root, dependencies, files);
      |r.warnings| == 1 && MissingEvent(e) !in r.warnings
  {
  }

  /**
   * When banks and events both parse, the report is the bank dependencies
   * plus, in order, one warning per unreadable bank and one per unresolved
   * event.
   */
  lemma ReportWhenReferencesParse(root: Node, dependencies: set<PathDependency>, files: string -> BankFile, preloads: Node, triggers: Node)
    requires forall b :: BankFileWellTyped(files(b))
    requires FirstNode(root, PreloadsNodeTag) == Some(preloads)
    requires GetBanksFromAtlPreloads(preloads).Success? && |GetBanksFromAtlPreloads(preloads).value| > 0
    requires FirstNode(root, TriggersNodeTag) == Some(triggers)
    requires BuildAtlEventList(triggers).Success?
    ensures var banks := GetBanksFromAtlPreloads(preloads).value;
      var collected := CollectBankEvents(banks, files, {});
      ParseProductDependenciesFromXmlFile(root, dependencies, files)
        == Report(dependencies + BankDependencies(banks),
                  collected.1 + MissingEventWarnings(BuildAtlEventList(triggers).value, collected.0))
  {
  }

  // ---------------------------------------------------------------------
  // ParseProductDependencies, ProcessJob, CreateJobs
  // ---------------------------------------------------------------------

  /** What opening, measuring and parsing the control file report. */
  datatype ControlFile = ControlFile(opens: bool, length: nat, document: Option<seq<Node>>)

  /**
   * ParseProductDependencies: false when the file cannot be opened, is
   * empty, is not XML or has no root element; otherwise the dependencies of
   * its first root element.
   */
  function ParseProductDependencies(file: ControlFile, files: string -> BankFile): (r: Option<Report>)
    requires forall b :: BankFileWellTyped(files(b))
    ensures r.Some? <==> file.opens && file.length > 0 && file.document.Some? && |file.document.value| > 0
    ensures r.Some? ==> r.value == ParseProductDependenciesFromXmlFile(file.document.value[0], {}, files)
  {
    if !file.opens || file.length == 0 then None
    else match file.document
      case None => None
      case Some(roots) =>
        if |roots| == 0 then None
        else Some(ParseProductDependenciesFromXmlFile(roots[0], {}, files))
  }

  datatype JobResult = JobCancelled | JobFailed | JobSuccess

  datatype JobProduct = JobProduct(path: string, pathDependencies: set<PathDependency>)

  datatype ProcessJobResponse = ProcessJobResponse(result: JobResult, products: seq<JobProduct>)

  /** ProcessJob: cancelled on shutdown, failed when the file cannot be parsed, otherwise one product. */
  function ProcessJob(shuttingDown: bool, fullPath: string, file: ControlFile, files: string -> BankFile): (r: ProcessJobResponse)
    requires forall b :: BankFileWellTyped(files(b))
    ensures shuttingDown ==> r == ProcessJobResponse(JobCancelled, [])
    ensures r.result == JobSuccess <==> !shuttingDown && ParseProductDependencies(file, files).Some?
    ensures r.result != JobSuccess ==> r.products == []
    ensures r.result == JobSuccess ==>
      r.products == [JobProduct(fullPath, ParseProductDependencies(file, files).value.dependencies)]
  {
    if shuttingDown then ProcessJobResponse(JobCancelled, [])
    else match ParseProductDependencies(file, files)
      case None => ProcessJobResponse(JobFailed, [])
      case Some(report) => ProcessJobResponse(JobSuccess, [JobProduct(fullPath, report.dependencies)])
  }

  datatype CreateJobsResult = CreateJobsSuccess | CreateJobsShuttingDown

  datatype JobDescriptor = JobDescriptor(jobKey: string, critical: bool, platform: string, priority: int)

  datatype CreateJobsResponse = CreateJobsResponse(result: CreateJobsResult, jobs: seq<JobDescriptor>)

  const JobKey := "Amplitude Audio Control"

  /** The enabled platforms other than "server", in order. */
  function ClientPlatforms(platforms: seq<string>): (r: seq<string>)
    ensures forall p :: p in r <==> p in platforms && p != "server"
  {
    if |platforms| == 0 then []
    else if platforms[0] == "server" then ClientPlatforms(platforms[1..])
    else [platforms[0]] + ClientPlatforms(platforms[1..])
  }

  /** CreateJobs: nothing on shutdown; otherwise one critical job per enabled platform except "server". */
  method CreateJobs(shuttingDown: bool, platforms: seq<string>) returns (r: CreateJobsResponse)
    ensures shuttingDown <==> r.result == CreateJobsShuttingDown
    ensures shuttingDown ==> r.jobs == []
    ensures !shuttingDown ==>
      |r.jobs| == |ClientPlatforms(platforms)|
      && forall k :: 0 <= k < |r.jobs| ==>
           r.jobs[k] == JobDescriptor(JobKey, true, ClientPlatforms(platforms)[k], 0)
  {
    if shuttingDown {
      return CreateJobsResponse(CreateJobsShuttingDown, []);
    }
    var jobs: seq<JobDescriptor> := [];
    var i := 0;
    while i < |platforms|
      invariant 0 <= i <= |platforms|
      invariant ClientPlatforms(platforms) == ClientPlatforms(platforms[..i]) + ClientPlatforms(platforms[i..])
      invariant |jobs| == |ClientPlatforms(platforms[..i])|
      invariant forall k :: 0 <= k < |jobs| ==> jobs[k] == JobDescriptor(JobKey, true, ClientPlatforms(platforms[..i])[k], 0)
    {
      ClientPlatformsAppend(platforms[..i], platforms[i]);
      assert platforms[..i + 1] == platforms[..i] + [platforms[i]];
      if platforms[i] != "server" {
        jobs := jobs + [JobDescriptor(JobKey, true, platforms[i], 0)];
      }
      i := i + 1;
      ClientPlatformsSplit(platforms, i);
    }
    assert platforms[..i] == platforms;
    r := CreateJobsResponse(CreateJobsSuccess, jobs);
  }

  lemma {:induction false} ClientPlatformsAppend(ps: seq<string>, p: string)
    ensures ClientPlatforms(ps + [p]) == ClientPlatforms(ps) + (if p == "server" then [] else [p])
    decreases |ps|
  {
    if |ps| == 0 {
      assert ps + [p] == [p];
    } else {
      assert (ps + [p])[1..] == ps[1..] + [p];
      ClientPlatformsAppend(ps[1..], p);
    }
  }

  lemma {:induction false} ClientPlatformsConcat(a: seq<string>, b: seq<string>)
    ensures ClientPlatforms(a + b) == ClientPlatforms(a) + ClientPlatforms(b)
    decreases |a|
  {
    if |a| == 0 {
      assert a + b == b;
    } else {
      assert (a + b)[1..] == a[1..] + b;
      ClientPlatformsConcat(a[1..], b);
    }
  }

  lemma ClientPlatformsSplit(ps: seq<string>, i: nat)
    requires i <= |ps|
    ensures ClientPlatforms(ps) == ClientPlatforms(ps[..i]) + ClientPlatforms(ps[i..])
  {
    assert ps == ps[..i] + ps[i..];
    ClientPlatformsConcat(ps[..i], ps[i..]);
  }

  // ---------------------------------------------------------------------
  // Legacy helpers
  // ---------------------------------------------------------------------

  /**
   * Legacy::GetAtlPlatformName: "pc" becomes "windows", "debug platform"
   * becomes the lower-cased host platform name, anything else is kept.
   */
  function GetAtlPlatformName(requestPlatform: string, hostPlatform: string): (r: string)
    ensures requestPlatform == "pc" ==> r == "windows"
    ensures requestPlatform == "debug platform" ==>
      |r| == |hostPlatform| && forall k :: 0 <= k < |r| ==> r[k] == Lower(hostPlatform[k])
    ensures requestPlatform != "pc" && requestPlatform != "debug platform" ==> r == requestPlatform
  {
    if requestPlatform == "debug platform" then seq(|hostPlatform|, k requires 0 <= k < |hostPlatform| => Lower(hostPlatform[k]))
    else if requestPlatform == "pc" then "windows"
    else if requestPlatform == "android" then "android"
    else if requestPlatform == "mac" then "mac"
    else requestPlatform
  }

  function GroupName(group: Node): Option<string> {
    Attr(group, AtlNameAttribute)
  }

  function ConfigGroups(preloadRequest: Node): seq<Node> {
    ChildrenNamed(preloadRequest.children, ConfigGroupTag)
  }

  /** The `atl_name` of every group, in order. */
  function GroupNames(groups: seq<Node>): (r: seq<Option<string>>)
    ensures |r| == |groups| && forall k :: 0 <= k < |groups| ==> r[k] == GroupName(groups[k])
  {
    seq(|groups|, k requires 0 <= k < |groups| => GroupName(groups[k]))
  }

  /** Index of the first entry that is `name`, or the number of entries. */
  function FirstNamed(names: seq<Option<string>>, name: string): (r: nat)
    ensures r <= |names|
    ensures r < |names| ==> names[r] == Some(name)
    ensures forall k :: 0 <= k < r ==> names[k] != Some(name)
  {
    if |names| == 0 then 0
    else if names[0] == Some(name) then 0
    else 1 + FirstNamed(names[1..], name)
  }

  /** The first `i` names, all of which are present. */
  function NamesBefore(names: seq<Option<string>>, i: nat): set<string>
    requires i <= |names| && forall k :: 0 <= k < i ==> names[k].Some?
  {
    set k | 0 <= k < i :: names[k].value
  }

  lemma NamesBeforeStep(names: seq<Option<string>>, i: nat)
    requires i < |names| && forall k :: 0 <= k <= i ==> names[k].Some?
    ensures NamesBefore(names, i + 1) == NamesBefore(names, i) + {names[i].value}
  {
    assert names[i].value in NamesBefore(names, i + 1);
  }

  /** A name none of the earlier entries has is first found at its own index. */
  lemma FirstNamedAt(names: seq<Option<string>>, i: nat, name: string)
    requires i < |names| && names[i] == Some(name)
    requires forall k :: 0 <= k < i ==> names[k].Some?
    requires name !in NamesBefore(names, i)
    ensures FirstNamed(names, name) == i
  {
    forall k | 0 <= k < i
      ensures names[k] != Some(name)
    {
      assert names[k].value in NamesBefore(names, i);
    }
  }

  /** `m` maps the names of the first `i` groups, each to the first group of that name. */
  predicate GroupMapUpTo(names: seq<Option<string>>, groups: seq<Node>, i: nat, m: map<string, Node>) {
    && |names| == |groups| && i <= |names|
    && (forall k :: 0 <= k < i ==> names[k].Some?)
    && m.Keys == NamesBefore(names, i)
    && (forall n :: n in m ==> FirstNamed(names, n) < i && m[n] == groups[FirstNamed(names, n)])
  }

  /** Adding the next named group, unless its name is taken, extends the map by one group. */
  lemma GroupMapStep(names: seq<Option<string>>, groups: seq<Node>, i: nat, m: map<string, Node>, name: string)
    requires GroupMapUpTo(names, groups, i, m) && i < |names| && names[i] == Some(name)
    ensures GroupMapUpTo(names, groups, i + 1, if name in m then m else m[name := groups[i]])
  {
    NamesBeforeStep(names, i);
    if name !in m {
      FirstNamedAt(names, i, name);
      var m' := m[name := groups[i]];
      forall n | n in m'
        ensures FirstNamed(names, n) < i + 1 && m'[n] == groups[FirstNamed(names, n)]
      {
        if n != name {
          assert n in m;
        }
      }
    }
  }

  /**
   * Legacy::BuildConfigGroupMap: every config group keyed by its `atl_name`;
   * when two groups share a name the first one is kept (`emplace` does not
   * overwrite). A group without a name fails.
   */
  method BuildConfigGroupMap(preloadRequest: Node) returns (r: Outcome<map<string, Node>, ParseError>)
    ensures var names := GroupNames(ConfigGroups(preloadRequest));
      r.Success? <==> forall k :: 0 <= k < |names| ==> names[k].Some?
    ensures r.Failure? ==> r.error == MissingAttribute(ConfigGroupTag, AtlNameAttribute)
    ensures var names := GroupNames(ConfigGroups(preloadRequest));
      r.Success? ==> r.value.Keys == set k | 0 <= k < |names| && names[k].Some? :: names[k].value
    ensures r.Success? ==> forall n :: n in r.value ==>
      var groups := ConfigGroups(preloadRequest);
      var names := GroupNames(groups);
      FirstNamed(names, n) < |groups| && r.value[n] == groups[FirstNamed(names, n)]
  {
    var groups := ConfigGroups(preloadRequest);
    var names := GroupNames(groups);
    var m: map<string, Node> := map[];
    var i := 0;
    while i < |groups|
      invariant 0 <= i <= |groups|
      invariant GroupMapUpTo(names, groups, i, m)
    {
      match names[i] {
        case None =>
          return Failure(MissingAttribute(ConfigGroupTag, AtlNameAttribute));
        case Some(name) =>
          GroupMapStep(names, groups, i, m, name);
          if name !in m {
            m := m[name := groups[i]];
          }
      }
      i := i + 1;
    }
    r := Success(m);
  }

  // ---------------------------------------------------------------------
  // A worked example
  // ---------------------------------------------------------------------

  function BankFileNode(name: string): Node {
    Node(FileTag, [Attribute(NameAttribute, name)], [])
  }

  /** Banks "a" and "b" preloaded, one trigger playing "explosion". */
  function ExampleControls(): Node {
    Node("ATLConfig", [], [ExamplePreloads(), ExampleTriggers()])
  }

  /** Bank "a" lists "explosion.amevent"; bank "b" has no metadata file. */
  function ExampleBankFiles(bank: string): BankFile {
    if bank == "a" then
      BankFile(true, 40, true, Some(JObject([Member("events", JArray([JString("explosion.amevent")]))])))
    else
      BankFile(false, 0, false, None)
  }

  function ExamplePreloads(): Node {
    Node(PreloadsNodeTag, [], [Node(PreloadRequestTag, [], [BankFileNode("a"), BankFileNode("b")])])
  }

  function ExampleTriggers(): Node {
    Node(TriggersNodeTag, [], [Node(TriggerTag, [], [Node(EventTag, [Attribute(NameAttribute, "explosion")], [])])])
  }

  lemma ExampleBanks()
    ensures GetBanksFromAtlPreloads(ExamplePreloads()) == Success(["a", "b"])
  {
    var request := Node(PreloadRequestTag, [], [BankFileNode("a"), BankFileNode("b")]);
    assert ChildrenNamed(ExamplePreloads().children, PreloadRequestTag) == [request];
    assert ChildrenNamed(request.children, FileTag) == [BankFileNode("a"), BankFileNode("b")];
    assert FileNodes([request]) == [BankFileNode("a"), BankFileNode("b")];
    assert Attr(BankFileNode("a"), NameAttribute) == Some("a");
    assert Attr(BankFileNode("b"), NameAttribute) == Some("b");
    assert WellFormedRequests([request]);
    var names := BanksFromRequests([request]).value;
    assert names[0] == "a" && names[1] == "b";
    assert names == ["a", "b"];
  }

  lemma ExampleEvents()
    ensures BuildAtlEventList(ExampleTriggers()) == Success(["explosion"])
  {
    var event := Node(EventTag, [Attribute(NameAttribute, "explosion")], []);
    var trigger := Node(TriggerTag, [], [event]);
    assert ChildrenNamed(ExampleTriggers().children, TriggerTag) == [trigger];
    assert FirstNode(trigger, EventTag) == Some(event);
    assert [trigger][1..] == [];
    assert EventNodes([trigger]) == [event];
    assert Attr(event, NameAttribute) == Some("explosion");
    assert TriggerEvents(ExampleTriggers()) == [event];
    var events := BuildAtlEventList(ExampleTriggers()).value;
    assert events[0] == "explosion";
    assert events == ["explosion"];
  }

  lemma ExampleBankFilesWellTyped()
    ensures forall b :: BankFileWellTyped(ExampleBankFiles(b))
  {
    var j := JObject([Member("events", JArray([JString("explosion.amevent")]))]);
    assert FindMember(j.members, "events") == Some(JArray([JString("explosion.amevent")]));
    assert EventEntriesAreStrings(j);
    forall b
      ensures BankFileWellTyped(ExampleBankFiles(b))
    {
      if b == "a" {
        assert ExampleBankFiles(b).parsed == Some(j);
      }
    }
  }

  lemma ExampleBankEvents()
    ensures CollectBankEvents(["a", "b"], ExampleBankFiles, {}) == ({"explosion"}, [BankUnreadable("b", SourceNotFound)])
  {
    var items := [JString("explosion.amevent")];
    var j := JObject([Member("events", JArray(items))]);
    assert FindMember(j.members, "events") == Some(JArray(items));
    assert Get(j, "events") == JArray(items);
    assert "explosion" + AssetEventFileExtension == "explosion.amevent";
    StripEventExtensionRoundTrip("explosion");
    assert EventNamesOf(items) == {"explosion"} by {
      assert StripEventExtension(items[0].s) == "explosion";
    }
    assert ExampleBankFiles("a") == BankFile(true, 40, true, Some(j));
    assert HasMember(j, "events");
    assert Get(j, "events").JArray?;
    assert EventEntriesAreStrings(j);
    assert Get(j, "events").items == items;
    assert EventNamesOf(Get(j, "events").items) == {"explosion"};
    var found := GetEventsFromBankSource(j, {});
    assert found.Success? && found.value == {} + EventNamesOf(Get(j, "events").items);
    assert found.value == {"explosion"};
    assert GetEventsFromBank(ExampleBankFiles("a"), {}) == found;
    assert ExampleBankFiles("b") == BankFile(false, 0, false, None);
    assert ["a", "b"][1..] == ["b"];
    assert ["b"][1..] == [];
    assert GetEventsFromBank(ExampleBankFiles("b"), {"explosion"}) == Failure(SourceNotFound);
    assert CollectBankEvents([], ExampleBankFiles, {"explosion"}) == ({"explosion"}, []);
    assert [BankUnreadable("b", SourceNotFound)] + [] == [BankUnreadable("b", SourceNotFound)];
    assert CollectBankEvents(["b"], ExampleBankFiles, {"explosion"}) == ({"explosion"}, [BankUnreadable("b", SourceNotFound)]);
  }

  lemma ExampleRoot()
    ensures FirstNode(ExampleControls(), PreloadsNodeTag) == Some(ExamplePreloads())
    ensures FirstNode(ExampleControls(), TriggersNodeTag) == Some(ExampleTriggers())
  {
    assert ChildrenNamed(ExampleControls().children, PreloadsNodeTag) == [ExamplePreloads()];
    assert ChildrenNamed(ExampleControls().children, TriggersNodeTag) == [ExampleTriggers()];
  }

  lemma ExampleEventsResolved()
    ensures [BankUnreadable("b", SourceNotFound)] + MissingEventWarnings(["explosion"], {"explosion"})
         == [BankUnreadable("b", SourceNotFound)]
  {
    assert MissingEventWarnings(["explosion"], {"explosion"}) == [];
  }

  lemma ExampleBankDependencies()
    ensures BankDependencies(["a", "b"]) == {
      PathDependency("sounds/amplitude_assets/soundbanks/a.ambank", ProductFile),
      PathDependency("sounds/amplitude_assets/soundbanks/b.ambank", ProductFile)}
  {
    var pa := PathDependency("sounds/amplitude_assets/soundbanks/a.ambank", ProductFile);
    var pb := PathDependency("sounds/amplitude_assets/soundbanks/b.ambank", ProductFile);
    assert BankProductPath("a") == pa.path;
    assert BankProductPath("b") == pb.path;
    assert pa in BankDependencies(["a", "b"]) by { assert ["a", "b"][0] == "a"; }
    assert pb in BankDependencies(["a", "b"]) by { assert ["a", "b"][1] == "b"; }
  }

  /** The report of the example file, as the builder assembles it from its parts. */
  lemma ExampleReport()
    ensures (ExampleBankFilesWellTyped();
      var r := ParseProductDependenciesFromXmlFile(ExampleControls(), {}, ExampleBankFiles);
      && r.dependencies == {} + BankDependencies(["a", "b"])
      && r.warnings == [BankUnreadable("b", SourceNotFound)] + MissingEventWarnings(["explosion"], {"explosion"}))
  {
    ExampleBankFilesWellTyped();
    ExampleRoot();
    ExampleBanks();
    ExampleEvents();
    ExampleBankEvents();
    ReportWhenReferencesParse(ExampleControls(), {}, ExampleBankFiles, ExamplePreloads(), ExampleTriggers());
  }

  /**
   * Both bank products become dependencies; the unreadable bank "b" is
   * reported, and "explosion" is resolved through bank "a".
   */
  lemma ExampleDependencies()
    ensures (ExampleBankFilesWellTyped();
      var r := ParseProductDependenciesFromXmlFile(ExampleControls(), {}, ExampleBankFiles);
      && r.dependencies == {
           PathDependency("sounds/amplitude_assets/soundbanks/a.ambank", ProductFile),
           PathDependency("sounds/amplitude_assets/soundbanks/b.ambank", ProductFile)}
      && r.warnings == [BankUnreadable("b", SourceNotFound)])
  {
    ExampleReport();
    ExampleBankDependencies();
    ExampleEventsResolved();
  }
}

=== FILE: control_types.dfy ===
/**
 * The editor's control-type tables: the Amplitude implementation control
 * types (one bit each, AmplitudeAudioSystemControl.h), the XML tag each one
 * is written with, the ATL control type each one connects to, and the mask
 * of implementation types an ATL control type accepts.
 */
module ControlTypes {
  import opened Config

  /** `TImplControlType` / `TImplControlTypeMask`: a 32-bit mask. */
  type ImplType = bv32

  const Invalid: ImplType := 0
  const Event: ImplType := 1        // AUDIO_BIT(0)
  const Rtpc: ImplType := 2         // AUDIO_BIT(1)
  const SoundBank: ImplType := 4    // AUDIO_BIT(2)
  const Switch: ImplType := 8       // AUDIO_BIT(3)
  const SwitchState: ImplType := 16 // AUDIO_BIT(4)
  const Bus: ImplType := 32         // AUDIO_BIT(5)
  const Effect: ImplType := 64      // AUDIO_BIT(6)

  /** One of the seven Amplitude control types. */
  predicate IsImplType(t: ImplType) {
    t == Event || t == Rtpc || t == SoundBank || t == Switch || t == SwitchState || t == Bus || t == Effect
  }

  /** The host's ATL control types, `EACEControlType`. */
  datatype AceControlType = AceTrigger | AceRtpc | AceSwitch | AceSwitchState | AceEnvironment | AcePreload | AceNumTypes

  /** The tags TagToType recognises. */
  predicate IsKnownTag(tag: string) {
    tag == EventTag || tag == RtpcTag || tag == BusTag || tag == FileTag
    || tag == SwitchTag || tag == StateTag || tag == EnvironmentTag
  }

  /**
   * TagToType: the control type an XML tag stands for. A switch's
   * `AmplitudeState` tag reads as a switch; an unknown tag is invalid.
   */
  function TagToType(tag: string): (r: ImplType)
    ensures r != Invalid <==> IsKnownTag(tag)
    ensures r != Invalid ==> IsImplType(r) && r != SwitchState
    ensures tag == StateTag ==> r == Switch
  {
    if tag == EventTag then Event
    else if tag == RtpcTag then Rtpc
    else if tag == BusTag then Bus
    else if tag == FileTag then SoundBank
    else if tag == SwitchTag then Switch
    else if tag == StateTag then Switch
    else if tag == EnvironmentTag then Effect
    else Invalid
  }

  /** TypeToTag: the tag a control type is written with; the empty string for anything else. */
  function TypeToTag(t: ImplType): (r: string)
    ensures r != "" <==> IsImplType(t)
    ensures r != StateTag
  {
    if t == Event then EventTag
    else if t == Rtpc then RtpcTag
    else if t == Switch then SwitchTag
    else if t == Bus then BusTag
    else if t == SoundBank then FileTag
    else if t == SwitchState then SwitchStateTag
    else if t == Effect then EnvironmentTag
    else ""
  }

  /**
   * Writing a control type as a tag and reading it back gives the type, for
   * every type except the switch state, whose tag is not recognised.
   */
  lemma TagRoundTrip(t: ImplType)
    requires IsImplType(t)
    ensures t != SwitchState ==> TagToType(TypeToTag(t)) == t
    ensures t == SwitchState ==> TagToType(TypeToTag(t)) == Invalid
  {
  }

  /**
   * Reading a tag and writing its type back gives the tag, for every known
   * tag except `AmplitudeState`, which comes back as the switch tag.
   */
  lemma TypeRoundTrip(tag: string)
    requires IsKnownTag(tag)
    ensures tag != StateTag ==> TypeToTag(TagToType(tag)) == tag
    ensures tag == StateTag ==> TypeToTag(TagToType(tag)) == SwitchTag
  {
  }

  /** ImplTypeToATLType: the ATL control type a middleware control connects to. */
  function ImplTypeToAtlType(t: ImplType): (r: AceControlType)
    ensures r == AceNumTypes <==> !IsImplType(t)
  {
    if t == Event then AceTrigger
    else if t == Rtpc then AceRtpc
    else if t == SwitchState then AceSwitchState
    else if t == Effect || t == Bus then AceEnvironment
    else if t == SoundBank then AcePreload
    else if t == Switch then AceSwitch
    else AceNumTypes
  }

  /** GetCompatibleTypes: the mask of control types an ATL control may connect to. */
  function GetCompatibleTypes(a: AceControlType): (r: ImplType)
    ensures r == Invalid <==> a == AceNumTypes
  {
    match a
    case AceTrigger => Event
    case AceRtpc => Rtpc
    case AceSwitch => Switch
    case AceSwitchState => SwitchState
    case AceEnvironment => Bus | SwitchState | Effect
    case AcePreload => SoundBank
    case AceNumTypes => Invalid
  }

  /** Every control type is accepted by the ATL control type it maps to. */
  lemma CompatibleWithOwnAtlType(t: ImplType)
    requires IsImplType(t)
    ensures t & GetCompatibleTypes(ImplTypeToAtlType(t)) == t
  {
  }

  /**
   * The converse: a control type an ATL type accepts maps back to that ATL
   * type, except that environments also accept switch states, which map to
   * the switch-state ATL type.
   */
  lemma CompatibleTypesMapBack(a: AceControlType, t: ImplType)
    requires IsImplType(t)
    requires t & GetCompatibleTypes(a) == t
    ensures ImplTypeToAtlType(t) == a || (a == AceEnvironment && t == SwitchState)
  {
  }

  /** The mask for an environment has exactly the bus, switch-state and effect bits. */
  lemma EnvironmentMask(t: ImplType)
    requires IsImplType(t)
    ensures t & GetCompatibleTypes(AceEnvironment) == t <==> t == Bus || t == SwitchState || t == Effect
  {
  }
}

=== FILE: json.dfy ===
/**
 * A JSON value standing in for a rapidjson `Value`. Objects keep their
 * members in document order; `HasMember`/`operator[]` find the first member
 * with the key, as rapidjson does.
 */
module Json {
  import opened Outcomes

  datatype Member = Member(key: string, value: Json)

  datatype Json =
    | JNull
    | JBool(b: bool)
    | JNumber(n: int)
    | JString(s: string)
    | JArray(items: seq<Json>)
    | JObject(members: seq<Member>)

  /** Number of nodes in the value; recursion over nested values decreases it. */
  function Size(j: Json): nat
    decreases j
  {
    match j
    case JArray(items) => 1 + ItemsSize(items)
    case JObject(members) => 1 + MembersSize(members)
    case _ => 1
  }

  function ItemsSize(items: seq<Json>): nat
    decreases items
  {
    if |items| == 0 then 0 else Size(items[0]) + ItemsSize(items[1..])
  }

  function MembersSize(members: seq<Member>): nat
    decreases members
  {
    if |members| == 0 then 0 else Size(members[0].value) + MembersSize(members[1..])
  }

  function FindMember(members: seq<Member>, key: string): (r: Option<Json>)
    ensures r.Some? ==> Size(r.value) <= MembersSize(members)
    ensures r.Some? <==> exists k :: 0 <= k < |members| && members[k].key == key
  {
    if |members| == 0 then None
    else if members[0].key == key then Some(members[0].value)
    else FindMember(members[1..], key)
  }

  /** `HasMember(key)`; a non-object has no members. */
  predicate HasMember(j: Json, key: string) {
    j.JObject? && FindMember(j.members, key).Some?
  }

  /** `j[key]`, defined when the member exists; it is smaller than `j`. */
  function Get(j: Json, key: string): (r: Json)
    requires HasMember(j, key)
    ensures Size(r) < Size(j)
  {
    FindMember(j.members, key).value
  }

  lemma {:induction false} ItemSmaller(items: seq<Json>, i: nat)
    requires i < |items|
    ensures Size(items[i]) <= ItemsSize(items)
    decreases i
  {
    if i > 0 {
      ItemSmaller(items[1..], i - 1);
    }
  }

  /** rapidjson's `IsUint64()`. */
  predicate IsUint64(j: Json) {
    j.JNumber? && 0 <= j.n < 0x1_0000_0000_0000_0000
  }
}

=== FILE: outcomes.dfy ===
/**
 * Failure-carrying return values: `Option` stands for a pointer that may be
 * null, `Outcome` for `AZ::Outcome<T, E>` (success with a value, or failure
 * with an error).
 */
module Outcomes {

  datatype Option<+T> = None | Some(value: T)

  datatype Outcome<+T, +E> = Success(value: T) | Failure(error: E) {
    predicate IsFailure() {
      Failure?
    }

    function PropagateFailure<U>(): Outcome<U, E>
      requires Failure?
    {
      Failure(error)
    }

    function Extract(): T
      requires Success?
    {
      value
    }
  }

  /** The `EAudioRequestStatus` every adapter call returns. */
  datatype RequestStatus = RequestSuccess | RequestFailure

  function BoolToStatus(b: bool): RequestStatus {
    if b then RequestSuccess else RequestFailure
  }
}

=== FILE: strings.dfy ===
/**
 * String helpers shared by the model: ASCII case folding (as `azstricmp`
 * and rapidxml's case-insensitive lookups do it), prefix/suffix/substring
 * tests, Python's `str.replace`, and `os.path.basename`.
 */
module Strings {

  /** ASCII lower-casing; every other character is left alone. */
  function Lower(c: char): char {
    if 'A' <= c <= 'Z' then (c as int + 32) as char else c
  }

  predicate EqualsIgnoreCase(a: string, b: string) {
    |a| == |b| && forall i :: 0 <= i < |a| ==> Lower(a[i]) == Lower(b[i])
  }

  predicate StartsWith(s: string, prefix: string) {
    prefix <= s
  }

  predicate EndsWith(s: string, suffix: string) {
    |suffix| <= |s| && s[|s| - |suffix|..] == suffix
  }

  /** Python's `sub in s`: `sub` occurs at some position of `s`. */
  predicate Contains(s: string, sub: string)
    decreases |s|
  {
    sub <= s || (|s| > 0 && Contains(s[1..], sub))
  }

  /**
   * Python's `s.replace(pat, rep)`: scans left to right and replaces every
   * non-overlapping occurrence of `pat`.
   */
  function ReplaceAll(s: string, pat: string, rep: string): string
    requires |pat| > 0
    decreases |s|
  {
    if |s| == 0 then []
    else if pat <= s then rep + ReplaceAll(s[|pat|..], pat, rep)
    else [s[0]] + ReplaceAll(s[1..], pat, rep)
  }

  /** Text without `pat` is left as it is. */
  lemma {:induction false} ReplaceAllAbsent(s: string, pat: string, rep: string)
    requires |pat| > 0
    requires !Contains(s, pat)
    ensures ReplaceAll(s, pat, rep) == s
    decreases |s|
  {
    if |s| > 0 {
      ReplaceAllAbsent(s[1..], pat, rep);
      assert [s[0]] + s[1..] == s;
    }
  }

  /**
   * An occurrence of `pat` preceded by text that cannot start one (none of
   * its characters is `pat[0]`) is replaced, and the scan goes on after it.
   */
  lemma {:induction false} ReplaceAllSplit(a: string, pat: string, rep: string, b: string)
    requires |pat| > 0
    requires forall i :: 0 <= i < |a| ==> a[i] != pat[0]
    ensures ReplaceAll(a + pat + b, pat, rep) == a + rep + ReplaceAll(b, pat, rep)
    decreases |a|
  {
    if |a| == 0 {
      assert a + pat + b == pat + b;
      assert (pat + b)[|pat|..] == b;
    } else {
      var s := a + pat + b;
      assert s[0] == a[0];
      assert !(pat <= s);
      assert s[1..] == a[1..] + pat + b;
      ReplaceAllSplit(a[1..], pat, rep, b);
      assert [a[0]] + a[1..] == a;
    }
  }

  /** No character `c` at all means no occurrence of a pattern that starts with `c`. */
  lemma {:induction false} AbsentFirstChar(s: string, sub: string)
    requires |sub| > 0
    requires forall i :: 0 <= i < |s| ==> s[i] != sub[0]
    ensures !Contains(s, sub)
    decreases |s|
  {
    if |s| > 0 {
      assert s[0] != sub[0];
      AbsentFirstChar(s[1..], sub);
    }
  }

  /**
   * A pattern whose first character does not occur again in it, after text
   * that does not contain it: only the final occurrence is replaced.
   */
  lemma {:induction false} ReplaceAllBeforePattern(s: string, pat: string, rep: string)
    requires |pat| > 0 && forall i :: 1 <= i < |pat| ==> pat[i] != pat[0]
    requires !Contains(s, pat)
    ensures ReplaceAll(s + pat, pat, rep) == s + rep
    decreases |s|
  {
    if |s| == 0 {
      assert s + pat == pat && (s + pat)[|pat|..] == [];
    } else {
      assert !(pat <= s + pat) by {
        if |s| >= |pat| {
          assert (s + pat)[..|pat|] == s[..|pat|];
        } else {
          assert (s + pat)[|s|] == pat[0];
        }
      }
      assert (s + pat)[1..] == s[1..] + pat;
      ReplaceAllBeforePattern(s[1..], pat, rep);
      assert [s[0]] + (s[1..] + rep) == s + rep;
    }
  }

  /**
   * Two texts without a pattern, the second starting with a character the
   * pattern does not hold, do not hold it together either.
   */
  lemma {:induction false} AbsentAcrossJoin(a: string, b: string, pat: string)
    requires |pat| > 0 && |b| > 0 && forall i :: 0 <= i < |pat| ==> pat[i] != b[0]
    requires !Contains(a, pat) && !Contains(b, pat)
    ensures !Contains(a + b, pat)
    decreases |a|
  {
    if |a| == 0 {
      assert a + b == b;
    } else {
      assert !(pat <= a + b) by {
        if |a| >= |pat| {
          assert (a + b)[..|pat|] == a[..|pat|];
        } else {
          assert (a + b)[|a|] == b[0];
        }
      }
      assert (a + b)[1..] == a[1..] + b;
      AbsentAcrossJoin(a[1..], b, pat);
    }
  }

  /** A text holds every piece it is made of. */
  lemma {:induction false} ContainsInfix(a: string, b: string, c: string)
    ensures Contains(a + b + c, b)
    decreases |a|
  {
    if |a| == 0 {
      assert a + b + c == b + c;
    } else {
      assert (a + b + c)[1..] == a[1..] + b + c;
      ContainsInfix(a[1..], b, c);
    }
  }

  /**
   * `os.path.basename` on a POSIX path: the longest suffix without a `/`.
   */
  function Basename(p: string): (r: string)
    ensures |r| <= |p| && r == p[|p| - |r|..]
    ensures forall i :: 0 <= i < |r| ==> r[i] != '/'
    ensures |r| == |p| || p[|p| - |r| - 1] == '/'
    decreases |p|
  {
    if |p| == 0 then ""
    else if p[|p| - 1] == '/' then ""
    else Basename(p[..|p| - 1]) + [p[|p| - 1]]
  }

  /** The basename of `dir/name` is `name` when `name` has no separator. */
  lemma {:induction false} BasenameAfterSlash(dir: string, name: string)
    requires forall i :: 0 <= i < |name| ==> name[i] != '/'
    ensures Basename(dir + "/" + name) == name
    decreases |name|
  {
    var p := dir + "/" + name;
    if |name| > 0 {
      var init := name[..|name| - 1];
      assert p[..|p| - 1] == dir + "/" + init;
      BasenameAfterSlash(dir, init);
      assert init + [name[|name| - 1]] == name;
    }
  }

  lemma NoSeparatorJoin(a: string, b: string)
    requires forall i :: 0 <= i < |a| ==> a[i] != '/'
    requires forall i :: 0 <= i < |b| ==> b[i] != '/'
    ensures forall i :: 0 <= i < |a + b| ==> (a + b)[i] != '/'
  {
  }
}

=== FILE: xml.dfy ===
/**
 * An element tree standing in for rapidxml's `xml_node`: a name, attributes
 * in document order and child elements in document order. Only the lookups
 * the audio code performs are defined.
 */
module Xml {
  import opened Outcomes
  import opened Strings

  datatype Attribute = Attribute(name: string, value: string)

  datatype Node = Node(name: string, attributes: seq<Attribute>, children: seq<Node>)

  /**
   * The children named `tag`, in document order: what a `first_node(tag)`
   * followed by repeated `next_sibling(tag)` visits.
   */
  function ChildrenNamed(children: seq<Node>, tag: string): (r: seq<Node>)
    ensures |r| <= |children|
    ensures forall k :: 0 <= k < |r| ==> r[k].name == tag && r[k] in children
    ensures (exists k :: 0 <= k < |children| && children[k].name == tag) <==> |r| > 0
  {
    if |children| == 0 then []
    else if children[0].name == tag then [children[0]] + ChildrenNamed(children[1..], tag)
    else ChildrenNamed(children[1..], tag)
  }

  /** `first_node(tag)`: the first child named `tag`, or null. */
  function FirstNode(n: Node, tag: string): (r: Option<Node>)
    ensures r.Some? <==> |ChildrenNamed(n.children, tag)| > 0
    ensures r.Some? ==> r.value == ChildrenNamed(n.children, tag)[0]
  {
    var named := ChildrenNamed(n.children, tag);
    if |named| == 0 then None else Some(named[0])
  }

  /** `first_node()` with no name: the first child of any name. */
  function FirstChild(n: Node): Option<Node> {
    if |n.children| == 0 then None else Some(n.children[0])
  }

  /** `first_attribute(name)`: the value of the first attribute called `name` (case-sensitive). */
  function AttributeValue(attributes: seq<Attribute>, name: string): (r: Option<string>)
    ensures r.Some? <==> exists k :: 0 <= k < |attributes| && attributes[k].name == name
  {
    if |attributes| == 0 then None
    else if attributes[0].name == name then Some(attributes[0].value)
    else AttributeValue(attributes[1..], name)
  }

  /** `first_attribute(name, 0, false)`: the same lookup with names compared case-insensitively. */
  function AttributeValueIgnoreCase(attributes: seq<Attribute>, name: string): (r: Option<string>)
    ensures r.Some? <==> exists k :: 0 <= k < |attributes| && EqualsIgnoreCase(attributes[k].name, name)
  {
    if |attributes| == 0 then None
    else if EqualsIgnoreCase(attributes[0].name, name) then Some(attributes[0].value)
    else AttributeValueIgnoreCase(attributes[1..], name)
  }

  function Attr(n: Node, name: string): Option<string> {
    AttributeValue(n.attributes, name)
  }

  function AttrIgnoreCase(n: Node, name: string): Option<string> {
    AttributeValueIgnoreCase(n.attributes, name)
  }
}
